=== FILE: README.md ===
# AtkCocoa row tree, tree-view synchronisation and window stacking, in Dafny

This project models the algorithmic core of AtkCocoa. AtkCocoa is the layer that exposes GTK widgets to
the macOS accessibility API. The model has four parts.

- **The counted row tree** (`ACAccessibilityTreeRowElement`). Each row element holds:
  - an ordered sequence of child row elements;
  - a back pointer to its parent;
  - a descendant count, kept up to date incrementally;
  - a "row is dirty" flag;
  - a reference to its GTK tree row.

  The operations are:
  - insert, append and remove a child, and remove all children;
  - look a child up by index or by `"a:b:c"` path string;
  - reorder by a permutation;
  - flatten in pre-order;
  - the rank operations `indexInParent` and `accessibilityIndex`.

  The elements live in an arena: a `seq<Node>` indexed by handle, in the class `RowElements.RowForest`.
  The value-level definitions and lemmas are in `RowTree`, `RowEdits` and `Subtrees`. The invariant that
  every descendant count is the sum of `1 + count` over the children is kept by every operation of the
  row element and of the later adapter (the earlier adapter's row deletion breaks it; see below). From it
  and agreeing row paths, `accessibilityIndex` is proved to be the element's position in the fake root's
  flattened list.
- **The tree-view adapter** (`AtkCocoa/gailtreeview.c`). It drives that tree from model and view
  notifications: row inserted, deleted, changed, expanded, collapsed and reordered, model replaced, and
  columns changed. It also keeps the lazily rebuilt row cache and the column map. The class
  `TreeView.GailTreeView` holds the row forest, the root, the cache, the dirty flag, the pending row update
  and the column map. The GTK model is the value `ModelTree`, with child counts per path and an "expanded"
  set. Paths are `seq<nat>`, with the string codec of `TreePaths`. The invariants of the adapter state are
  in `ViewState`. The first build is proved in `FirstBuild`, and the column map in `TreeColumns`.
- **The earlier adapter** (`atk-cocoa/gailtreeview.c`), in `LegacyTreeView.LegacyGailTreeView`. It covers:
  - the comparator `row_column_index_sort`, with its ordering lemmas in `LegacyOrder`;
  - the sort and the split of the children into visible rows and columns;
  - the column array with index assignment and linear lookup (`LegacyColumns`);
  - the row-map insert, delete and reorder guards.

  Its row deletion takes the row out of its parent first and tears the row's subtree down afterwards.
  `LegacyTeardown` proves that this deletes the same links as the later order. It does not leave the
  same descendant counts. `removeFromParent` lowers the count of the former parent and of every element
  above it by one. The teardown of the detached row lowers none of them. So the rows that were below the
  deleted row stay counted above it, and the count invariant fails whenever the deleted row had children
  (`LegacyTeardown.DetachedMiscounts`). The earlier adapter's state invariant therefore holds the links
  and not the counts.
- **Window bookkeeping** (`AtkCocoa/gailwindow.c`). `WindowStacking.GailScreens` holds:
  - the per-screen `GailScreenInfo` array, with stacked window ids, desktops and "desktop changed" flags
    as parallel buffers;
  - the idle sources pending in the main loop, as a multiset.

  It models `get_stacked_windows`, `update_screen_info`, `update_desktop_info`, `filter_func`,
  `free_screen_info` and `get_window_zorder`. The stacking merge is modelled twice: as written, where it
  matches bytes of the reply buffer, and corrected, where it matches windows (see Findings).
  `WindowTitle.GailWindowTitle` models the title branch of
  the window's notify handler, with its one pending announcement.

X server reads are parameters: the `_NET_CLIENT_LIST_STACKING` reply and a function from window to
`_NET_WM_DESKTOP` reply. Idle sources are entries of the pending multiset, or a counter.

## Model

| member | source | states |
|---|---|---|
| TreePaths.AtoiOfDecimal | AtkCocoa/ACAccessibilityTreeRowElement.c:437-458 | atoi reads back every number written in decimal, whatever non-digit follows it |
| TreePaths.FormatPath | AtkCocoa/gailtreeview.c:224-231 | gtk_tree_path_to_string gives NULL exactly for the empty path |
| TreePaths.AfterLastColon | AtkCocoa/ACAccessibilityTreeRowElement.c:437-458 | the text after the last ':' holds no ':' and is a suffix of the string |
| TreePaths.LastPathIndex | AtkCocoa/ACAccessibilityTreeRowElement.c:437-458 | -1 for NULL; otherwise atoi of the text after the last ':', which is the whole string when it has no ':' |
| TreePaths.LastPathIndexOfFormat | AtkCocoa/ACAccessibilityTreeRowElement.c:437-458 | last_path_index of the string of a non-empty path is its last index |
| TreePaths.SplitFirstSegment | AtkCocoa/ACAccessibilityTreeRowElement.c:527-569 | the split at the first ':' gives the text before it, with no ':', and the rest after it |
| TreePaths.SplitJoinPath | AtkCocoa/ACAccessibilityTreeRowElement.c:527-569 | splitting the string of a path at its first ':' gives the first index and the string of the rest of the path |
| TreePaths.ParentPath | AtkCocoa/gailtreeview.c:229-231 | gtk_tree_path_up drops exactly the last index |
| RowTree.ChildrenHaveDescendantsMeans | AtkCocoa/ACAccessibilityTreeRowElement.c:331-340 | under the count invariant, childrenHaveDescendants is true exactly when some child has descendants of its own |
| RowTree.ChildAtIndex | AtkCocoa/ACAccessibilityTreeRowElement.c:512-525 | nil for a NULL sequence or an index outside it, otherwise the child at that position |
| RowTree.ChildAtPath | AtkCocoa/ACAccessibilityTreeRowElement.c:527-569 | whatever the string, a found element is an attached element of the arena |
| RowTree.ChildAtPathOfFormat | AtkCocoa/ACAccessibilityTreeRowElement.c:527-569 | childAtPath on the string of a path follows the path's positions one by one |
| RowTree.FlattenLength | AtkCocoa/ACAccessibilityTreeRowElement.c:588-599 | under the count invariant, an element's descendant count is the length of its flattened list |
| RowTree.IndexInParentIsPrefixSum | AtkCocoa/ACAccessibilityTreeRowElement.c:601-644 | under the count invariant and agreeing paths, indexInParent is the sum of 1 + count over the preceding siblings, whichever branch it takes |
| RowTree.LeafSiblingsSum | AtkCocoa/ACAccessibilityTreeRowElement.c:601-644 | when no child has descendants, the sum over the first k children is k, so the row-path shortcut gives the same index |
| RowTree.SubtreeRunAtAccessibilityIndex | AtkCocoa/ACAccessibilityTreeRowElement.c:316-327 | an element and its flattened subtree sit in the top element's flattened list starting at its accessibilityIndex |
| RowTree.AccessibilityIndexIsFlattenPosition | AtkCocoa/ACAccessibilityTreeRowElement.c:316-327 | under the count invariant and agreeing paths, accessibilityIndex of an attached row is its position in the fake root's flattenTree |
| RowEdits.Bump | AtkCocoa/ACAccessibilityTreeRowElement.c:588-594 | adjustDescendantCountBy moves the count of n and of each of its ancestors by delta, and nothing else |
| RowEdits.BumpRestoresCount | AtkCocoa/ACAccessibilityTreeRowElement.c:588-594 | the ancestor walk repairs a state whose only wrong count is n's, short by delta |
| RowEdits.AddRow | AtkCocoa/ACAccessibilityTreeRowElement.c:57-76 | a new element gets the next handle: no sequence, no parent, count 0, dirty; every other element is unchanged |
| RowEdits.AddRowKeepsCounts | AtkCocoa/ACAccessibilityTreeRowElement.c:57-76 | a new element keeps the count invariant |
| RowEdits.InsertPosition | AtkCocoa/ACAccessibilityTreeRowElement.c:374-379 | an index outside the sequence inserts at the end |
| RowEdits.InsertChild | AtkCocoa/ACAccessibilityTreeRowElement.c:361-386 | the child goes in at idx, or at the end when idx is outside the sequence, and points back at p; p and every ancestor count one more |
| RowEdits.InsertChildFrame | AtkCocoa/ACAccessibilityTreeRowElement.c:361-386 | every other sequence, every other parent pointer, every row path and every dirty flag are unchanged |
| RowEdits.InsertChildKeepsCounts | AtkCocoa/ACAccessibilityTreeRowElement.c:361-386 | inserting a child without descendants keeps the count invariant |
| RowEdits.RemoveChildAtIndex | AtkCocoa/ACAccessibilityTreeRowElement.c:408-435 | nothing for a NULL sequence or an index outside it; otherwise exactly that child leaves, points nowhere, an emptied sequence becomes NULL, and p and its ancestors count one less |
| RowEdits.RemoveChildAtIndexKeepsCounts | AtkCocoa/ACAccessibilityTreeRowElement.c:408-435 | removing a child without descendants keeps the count invariant |
| RowEdits.RemoveChild | AtkCocoa/ACAccessibilityTreeRowElement.c:460-481 | removeChild is removeChildAtIndex at the child's own position |
| RowEdits.RemoveFromParent | AtkCocoa/ACAccessibilityTreeRowElement.c:483-491 | nothing for a parentless element, otherwise removeChild on its parent |
| RowEdits.DetachAll | AtkCocoa/ACAccessibilityTreeRowElement.c:352-359 | freeing a sequence clears the parent of every element in it and nothing else |
| RowEdits.RemoveAllChildren | AtkCocoa/ACAccessibilityTreeRowElement.c:493-509 | nothing for a NULL sequence; otherwise every child is detached, the sequence becomes NULL, and p and its ancestors lose the number of direct children only |
| RowEdits.RemoveAllChildrenKeepsRows | AtkCocoa/ACAccessibilityTreeRowElement.c:493-509 | no row reference and no dirty flag changes |
| RowEdits.RemoveAllChildrenKeepsCounts | AtkCocoa/ACAccessibilityTreeRowElement.c:493-509 | when no direct child has descendants, the count invariant holds afterwards |
| RowEdits.OrderCoversRange | AtkCocoa/ACAccessibilityTreeRowElement.c:652-679 | n distinct positions below n name every position below n |
| RowEdits.ReorderedIsPermutation | AtkCocoa/ACAccessibilityTreeRowElement.c:652-679 | the reordered sequence holds the same elements, each once |
| RowEdits.ReorderChildren | AtkCocoa/ACAccessibilityTreeRowElement.c:652-679 | a NULL sequence, or an index reaching past the end, changes nothing; otherwise new child i is old child order[i]; no parent pointer and no count changes |
| RowEdits.ReorderWellFormed | AtkCocoa/ACAccessibilityTreeRowElement.c:652-679 | the corrected reorder keeps the links well formed |
| RowEdits.ReorderChildrenKeepsCounts | AtkCocoa/ACAccessibilityTreeRowElement.c:652-679 | reordering keeps the count invariant |
| RowEdits.ReorderAsWrittenOrphansChildren | AtkCocoa/ACAccessibilityTreeRowElement.c:674-678 | as written, every reordered child is in p's new sequence but reports no parent |
| RowElements.RowForest.NewRow | AtkCocoa/ACAccessibilityTreeRowElement.c:57-76 | a new element: no sequence, no parent, count 0, dirty, the given row; the arena grows by it alone |
| RowElements.RowForest.SetRowIsDirty | AtkCocoa/ACAccessibilityTreeRowElement.c:144-147 | only the flag changes |
| RowElements.RowForest.AdjustDescendantCountBy | AtkCocoa/ACAccessibilityTreeRowElement.c:588-594 | the recursive walk leaves the state RowEdits.Bump describes |
| RowElements.RowForest.InsertChild | AtkCocoa/ACAccessibilityTreeRowElement.c:361-386 | the state is RowEdits.InsertChild of the old state |
| RowElements.RowForest.AppendChild | AtkCocoa/ACAccessibilityTreeRowElement.c:388-399 | the same as inserting at the current child count: the child ends last |
| RowElements.RowForest.RemoveChildAtIndex | AtkCocoa/ACAccessibilityTreeRowElement.c:408-435 | the state is RowEdits.RemoveChildAtIndex of the old state |
| RowElements.RowForest.RemoveChild | AtkCocoa/ACAccessibilityTreeRowElement.c:460-481 | the state is RowEdits.RemoveChild of the old state |
| RowElements.RowForest.RemoveFromParent | AtkCocoa/ACAccessibilityTreeRowElement.c:483-491 | the state is RowEdits.RemoveFromParent of the old state |
| RowElements.RowForest.RemoveAllChildren | AtkCocoa/ACAccessibilityTreeRowElement.c:493-509 | the state is RowEdits.RemoveAllChildren of the old state |
| RowElements.RowForest.ReorderChildrenToNewIndicies | AtkCocoa/ACAccessibilityTreeRowElement.c:652-679 | the loop copies old child order[i] to position i; the state is the corrected RowEdits.ReorderChildren of the old state, in which the children keep their parent |
| RowElements.RowForest.IndexInParent | AtkCocoa/ACAccessibilityTreeRowElement.c:601-644 | the backward walk over the siblings returns RowTree.IndexInParent, which under the invariant is the prefix sum |
| RowElements.RowForest.AccessibilityIndex | AtkCocoa/ACAccessibilityTreeRowElement.c:316-327 | -1 at a parentless element, otherwise the parent's index + indexInParent + 1; under the invariant, the position in the root's flattened list |
| RowElements.RowForest.RecursiveFlattenTreeIntoArray | AtkCocoa/ACAccessibilityTreeRowElement.c:699-717 | appends n when asked, then the pre-order list of its children's subtrees |
| RowElements.RowForest.FlattenTree | AtkCocoa/ACAccessibilityTreeRowElement.c:719-731 | nil for a NULL sequence, otherwise every proper descendant in pre-order, as many as the descendant count |
| Subtrees.FlattenMembers | AtkCocoa/ACAccessibilityTreeRowElement.c:719-731 | flattenTree lists exactly the proper descendants of n |
| Subtrees.LookupIsBelow | AtkCocoa/ACAccessibilityTreeRowElement.c:527-569 | the element a path leads to lies at or below the start |
| ModelTree.CheckVisibility | AtkCocoa/gailtreeview.c:1199-1217 | check_visibility's recursion over parent paths; ModelTree.CheckVisibilityMeans states what it means |
| ModelTree.CheckVisibilityMeans | AtkCocoa/gailtreeview.c:1199-1217 | a row is visible exactly when every proper ancestor path is expanded |
| ModelTree.VisibleRows | AtkCocoa/gailtreeview.c:1502-1531 | the visiting order of add_iter_rows_recursive; ModelTree.VisibleRowsAreVisible and FirstBuild.BuiltRowPaths state what it means |
| ModelTree.VisibleRowsAreVisible | AtkCocoa/gailtreeview.c:1502-1531 | add_iter_rows_recursive visits from the first row exactly the rows check_visibility accepts |
| ViewState.RootedMembers | AtkCocoa/gailtreeview.c:1534-1572 | in a rooted state, the root's flattened list holds exactly the attached elements |
| ViewState.RowIndexIsCachePosition | AtkCocoa/gailtreeview.c:1534-1572 | with the counts right and the paths agreeing, a row's accessibilityIndex is its position in the cache |
| ViewState.InsertKeepsRooted | AtkCocoa/gailtreeview.c:218-252 | inserting the newest element under an element of the tree keeps every attached element under the root |
| ViewState.RemoveLeafKeepsRooted | AtkCocoa/gailtreeview.c:285-290 | taking a childless element out of its parent keeps the tree rooted |
| ViewState.ReorderKeepsRooted | AtkCocoa/gailtreeview.c:1322-1347 | a reorder keeps the tree rooted and the same members in the root's flattened list |
| ViewState.TornDownKeepsRooted | AtkCocoa/gailtreeview.c:707-731 | tearing a subtree down keeps the tree rooted |
| ViewState.TornDownRootDetachesAll | AtkCocoa/gailtreeview.c:393-404 | tearing the fake root down detaches every element |
| ViewState.TornDownKeepsLookup | AtkCocoa/gailtreeview.c:734-756 | a row whose subtree is torn down is still found at the same path |
| ViewState.TearDownStep | AtkCocoa/gailtreeview.c:718-723 | one turn of the foreachChild loop: the next child's subtree is torn down and the earlier ones stay torn |
| ViewState.TearDownFinish | AtkCocoa/gailtreeview.c:725-730 | after both loops, n's whole subtree is torn down |
| ViewState.TearDownThenRemove | AtkCocoa/gailtreeview.c:1287-1319 | tearing e down and then taking e out of its parent deletes e's row and touches no row path |
| ViewState.RowDeletedFromRoot | AtkCocoa/gailtreeview.c:1287-1319 | the root's rows lose exactly e's subtree |
| ViewState.FindRow | AtkCocoa/gailtreeview.c:272-282 | a depth-0 path has no string and finds nothing; a found row is the one the path leads to |
| ViewState.FoundRowIsListed | AtkCocoa/gailtreeview.c:272-282 | a row found from the root is in the root's flattened list |
| ViewState.ParentFor | AtkCocoa/gailtreeview.c:228-245 | the parent is the root at depth 1, otherwise the element found at the parent path, or none |
| ViewState.ParentForIsBelow | AtkCocoa/gailtreeview.c:228-245 | a parent found lies in the root's tree |
| ViewState.InsertedRowIsFound | AtkCocoa/gailtreeview.c:247-249 | a row inserted at its last path index, when that index is at most the parent's child count, is then found at its path |
| ViewState.SelectedRowsMembers | AtkCocoa/gailtreeview.c:1769-1802 | an element is reported selected exactly when some selected path finds it |
| ViewState.SelectedRowsAreListed | AtkCocoa/gailtreeview.c:1769-1802 | every reported selected row is in the root's flattened list |
| ViewState.ExpandedRowsFound | AtkCocoa/gailtreeview.c:653-704 | after expand_row_gtk, child i of the expanded row is the element made for path + [i] |
| FirstBuild.FileStep | AtkCocoa/gailtreeview.c:1502-1531 | making the element for prefix + [i] and appending it to the i children of e files it; row paths that agreed with positions still agree |
| FirstBuild.BuildNext | AtkCocoa/gailtreeview.c:1502-1531 | the rows visited so far, followed by one more visited row, give the build so far over both |
| FirstBuild.BuiltFromRoot | AtkCocoa/gailtreeview.c:1534-1572 | the first build's handles, in order, are the root's flattened rows, and they carry the visited paths |
| FirstBuild.BuiltRowPaths | AtkCocoa/gailtreeview.c:1502-1531 | the elements of a finished build carry exactly the visited paths, in order |
| TreeColumns.KeptMembers | AtkCocoa/gailtreeview.c:922-930 | a column gets an element exactly when it has renderers |
| TreeColumns.KeptColumnIds | AtkCocoa/gailtreeview.c:922-930 | an id belongs to a kept column exactly when some column with renderers carries it |
| TreeColumns.KeptDistinct | AtkCocoa/gailtreeview.c:922-945 | dropping columns keeps the ids distinct |
| TreeColumns.ColumnMapStep | AtkCocoa/gailtreeview.c:932-945 | one more column of the loop: a column with renderers is filed with the next index |
| TreeColumns.ColumnMapConsistent | AtkCocoa/gailtreeview.c:905-949 | whatever the columns, the rebuilt map files every element under its own column |
| TreeColumns.ColumnMapIndices | AtkCocoa/gailtreeview.c:905-949 | the rebuilt map files exactly the kept columns, each under its own id with its position among the kept columns as index |
| TreeView.GailTreeView.constructor | AtkCocoa/gailtreeview.c:197-200 | dirty, no root, an empty column map, nothing pending |
| TreeView.GailTreeView.NewRowElement | AtkCocoa/gailtreeview.c:1134-1156 | a new, detached row element for the row at path; the adapter state keeps its invariant |
| TreeView.GailTreeView.GetRowFromRowMap | AtkCocoa/gailtreeview.c:272-282 | none without a root or for the empty path, otherwise the element the path leads to; a found row is in the root's flattened list |
| TreeView.GailTreeView.AddRowToRowMapWithPath | AtkCocoa/gailtreeview.c:218-252 | nothing, and no dirty flag, when the parent path finds nothing; otherwise the row goes under its parent at its last index, counts stay right, the cache is dirty |
| TreeView.GailTreeView.AddRowToTree | AtkCocoa/gailtreeview.c:609-628 | nothing without a root or a row path, otherwise add_row_to_row_map_with_path |
| TreeView.GailTreeView.RemoveRowFromRowMap | AtkCocoa/gailtreeview.c:285-290 | the element leaves its parent and the cache becomes dirty |
| TreeView.GailTreeView.RemoveAllChildren | AtkCocoa/gailtreeview.c:707-731 | the pending update is cancelled; every element strictly below n ends detached and childless, n keeps its parent, nothing else changes |
| TreeView.GailTreeView.RemoveCollectedChildren | AtkCocoa/gailtreeview.c:725-730 | the collected children leave the row map, then n's sequence is freed |
| TreeView.GailTreeView.RemoveCollectedRows | AtkCocoa/gailtreeview.c:725-728 | each collected, already childless child leaves the row map in turn; n's sequence ends empty |
| TreeView.GailTreeView.DestroyRoot | AtkCocoa/gailtreeview.c:393-404 | with a root, everything below it is torn down, then the root and the cache are dropped; every element ends detached |
| TreeView.GailTreeView.ModelChanged | AtkCocoa/gailtreeview.c:421-445 | the pending update is cancelled, the tree destroyed and the column map emptied |
| TreeView.GailTreeView.CleanupCaches | AtkCocoa/gailtreeview.c:509-517 | destroy_root, then the column map goes |
| TreeView.GailTreeView.CollapseRow | AtkCocoa/gailtreeview.c:734-756 | the row found at path keeps its place with nothing below it; with no row found, only the pending update is cancelled |
| TreeView.GailTreeView.ModelRowDeleted | AtkCocoa/gailtreeview.c:1287-1319 | nothing without a root or a row at path; otherwise the row loses its subtree and leaves its parent, and the root lists what it listed before less that subtree |
| TreeView.GailTreeView.ModelRowChanged | AtkCocoa/gailtreeview.c:952-973 | the row found at path is marked dirty; no link changes |
| TreeView.GailTreeView.ModelRowsReordered | AtkCocoa/gailtreeview.c:1322-1347 | nothing without a root or a row at a non-empty path; otherwise the root (empty path) or that row takes its children in the new order, by the corrected reorder, and the cache is dirty |
| TreeView.GailTreeView.ExpandRow | AtkCocoa/gailtreeview.c:653-704 | with a root and a row at path, one new element per model child, in model order, filed under path + [i]; otherwise nothing |
| TreeView.GailTreeView.ExpandChildren | AtkCocoa/gailtreeview.c:672-701 | k new elements for path + [0] ... path + [k - 1] head e's children, and the cache is dirty |
| TreeView.GailTreeView.ExpandChild | AtkCocoa/gailtreeview.c:683-695 | the element made for path + [i] is inserted under e at index i, extending the run of new children by one |
| TreeView.GailTreeView.AddRows | AtkCocoa/gailtreeview.c:1534-1572 | the first call builds an element for every visible row in pre-order and clears the dirty flag; a later call rebuilds the cache only when dirty |
| TreeView.GailTreeView.AddIterRowsRecursive | AtkCocoa/gailtreeview.c:1502-1531 | each visited row gets a new element, appended to the list and filed under its parent, in visiting order |
| TreeView.GailTreeView.AddIterRow | AtkCocoa/gailtreeview.c:1510-1529 | the element for prefix + [i] is appended and becomes e's last child; an open row's own rows follow it |
| TreeView.GailTreeView.FileRowElement | AtkCocoa/gailtreeview.c:1510-1518 | make_accessibility_element_for_row, then add_row_to_row_map_with_path, files the new element as e's child i |
| TreeView.GailTreeView.AddSelectedRows | AtkCocoa/gailtreeview.c:1769-1802 | nothing without a root or a widget; otherwise the element each selected path finds, in selection order |
| TreeView.GailTreeView.RowForPath | AtkCocoa/gailtreeview.c:1805-1814 | a dirty tree is rebuilt first, then the element the path leads to |
| TreeView.GailTreeView.GetColumnElement | AtkCocoa/gailtreeview.c:1817-1825 | nothing while the column map is gone, otherwise the element filed under the column, which stands for it |
| TreeView.GailTreeView.ColumnsChanged | AtkCocoa/gailtreeview.c:905-949 | nothing without a map; otherwise the map holds one element per column with renderers, numbered 0, 1, ... in column order |
| TreeView.GailTreeView.ModelRowInserted | AtkCocoa/gailtreeview.c:1228-1284 | with a root and a visible row, a new element is filed under its path as add_row_to_tree does; otherwise nothing |
| LegacyOrder.RowColumnIndexSort | atk-cocoa/gailtreeview.c:865-890 | a row before a non-row and a non-row after a row, whatever their indices; two of the same kind Same exactly when their indices are equal, Ascending exactly when the first index is smaller |
| LegacyOrder.ComparatorIsKeyOrder | atk-cocoa/gailtreeview.c:865-890 | the comparator is the lexicographic order on (rank, index), rows ranked first |
| LegacyOrder.Antisymmetric | atk-cocoa/gailtreeview.c:876-889 | swapping the arguments swaps Ascending and Descending |
| LegacyOrder.PrecedesTotalAndTransitive | atk-cocoa/gailtreeview.c:865-890 | the comparator's order is total and transitive |
| LegacyOrder.InsertSorted | atk-cocoa/gailtreeview.c:893-900 | inserting into a sorted list keeps it sorted |
| LegacyOrder.PickMembers | atk-cocoa/gailtreeview.c:903-924 | an element is among those of a kind exactly when it is a child of that kind |
| LegacyOrder.PickAppend | atk-cocoa/gailtreeview.c:903-924 | picking from a concatenation picks from each part, keeping the relative order |
| LegacyOrder.SortedSplits | atk-cocoa/gailtreeview.c:903-924 | a list sorted by the comparator is its rows followed by everything else |
| LegacyOrder.DropRowsMembers | atk-cocoa/gailtreeview.c:597-600 | an element survives exactly when it is not the row item of a row that went |
| LegacyOrder.DropRowsTwice | atk-cocoa/gailtreeview.c:597-600 | dropping one set of rows and then another drops their union |
| LegacyOrder.RemoveEachMembers | atk-cocoa/gailtreeview.c:710-716 | after removing each old column element, an element is left exactly when it was there and is none of them |
| LegacyColumns.Numbered | atk-cocoa/gailtreeview.c:718-731 | the i-th column element stands for the i-th tree view column and has index i |
| LegacyColumns.NumberedFindsEachColumn | atk-cocoa/gailtreeview.c:1095-1107 | with no column listed twice, the lookup finds each column's element at that column's position |
| LegacyColumns.FirstMatch | atk-cocoa/gailtreeview.c:1095-1107 | the first element that stands for the column, none when no element does |
| LegacyTeardown.TornBelowStep | atk-cocoa/gailtreeview.c:597-600 | one more child torn down adds that child and what lay below it |
| LegacyTeardown.TornBelowAll | atk-cocoa/gailtreeview.c:593-607 | once every child is torn down, the torn elements are exactly those strictly below n |
| LegacyTeardown.DetachThenTearDown | atk-cocoa/gailtreeview.c:1284-1296 | taking e out of its parent and then tearing its subtree down deletes e's row just as the later order does |
| LegacyTeardown.DetachedRowDeleted | atk-cocoa/gailtreeview.c:1284-1296 | the row is deleted, everything stays under the root, and the root's rows lose exactly e's subtree |
| LegacyTeardown.CountsKeptOffStep | atk-cocoa/gailtreeview.c:597-600 | tearing one more child of n down changes no count outside n's subtree and n's ancestors |
| LegacyTeardown.CountsKeptOffFinish | atk-cocoa/gailtreeview.c:602 | freeing n's sequence after its children were torn down changes no count outside n's subtree and n's ancestors |
| LegacyTeardown.RemoveFromParentCounts | AtkCocoa/ACAccessibilityTreeRowElement.c:483-491 | removeFromParent lowers the count of the former parent and of every element above it by exactly one, and keeps every other count |
| LegacyTeardown.DetachedCounts | atk-cocoa/gailtreeview.c:1284-1296 | after detaching and then tearing down, each former ancestor of the row counts one fewer, and every other element outside the row's subtree keeps its count |
| LegacyTeardown.DetachedMiscounts | atk-cocoa/gailtreeview.c:1284-1296 | when the deleted row had children, its former parent's count exceeds the sum over its remaining children, so the count invariant fails |
| LegacyTreeView.LegacyGailTreeView.constructor | atk-cocoa/gailtreeview.c:261-266 | an empty column array and a fresh root element without a row |
| LegacyTreeView.LegacyGailTreeView.FindRowElementForPath | atk-cocoa/gailtreeview.c:1087-1092 | childAtPath on the root with the path's string; a found row is attached and listed under the root |
| LegacyTreeView.LegacyGailTreeView.AddRowToRowMap | atk-cocoa/gailtreeview.c:192-222 | nothing when the parent path finds nothing; otherwise the row goes under its parent at its last index and is then found at its path |
| LegacyTreeView.LegacyGailTreeView.RemoveAllChildren | atk-cocoa/gailtreeview.c:593-607 | every child's subtree is torn down and its row element leaves the children, then n's sequence is freed; no count outside n's subtree and n's ancestors changes |
| LegacyTreeView.LegacyGailTreeView.ModelRowDeleted | atk-cocoa/gailtreeview.c:1269-1309 | nothing when no row is found; otherwise the row's element and those below it leave the children, the row is deleted from the tree, and the former ancestors of the row count one fewer while every other count outside its subtree stays |
| LegacyTreeView.LegacyGailTreeView.ModelRowsReordered | atk-cocoa/gailtreeview.c:1312-1329 | the root for the empty path, otherwise the row found; nothing when none is found; the children take the new order by the corrected reorder, and the rows listed are kept |
| LegacyTreeView.LegacyGailTreeView.SortChildElements | atk-cocoa/gailtreeview.c:893-900 | the children are sorted by the comparator, none gained or lost |
| LegacyTreeView.LegacyGailTreeView.GatherVisibleRowsAndColumns | atk-cocoa/gailtreeview.c:903-924 | the rows in order become the visible rows and the columns the visible columns; after a sort the children are the rows followed by the rest |
| LegacyTreeView.LegacyGailTreeView.RemoveColumnElements | atk-cocoa/gailtreeview.c:711-717 | with an array, the children lose exactly the array's column elements and the array ends empty; without one nothing changes |
| LegacyTreeView.LegacyGailTreeView.AddColumnElements | atk-cocoa/gailtreeview.c:719-732 | the children gain one element per tree view column, numbered 0, 1, ... in order, and an (empty) array receives the same elements; a NULL array stays NULL |
| LegacyTreeView.LegacyGailTreeView.ColumnsChanged | atk-cocoa/gailtreeview.c:699-736 | each old column element leaves the children, then one element per tree view column, numbered in order, joins them, and the children are sorted |
| LegacyTreeView.LegacyGailTreeView.FindColumnElementForColumn | atk-cocoa/gailtreeview.c:1095-1107 | the linear scan returns the first array element that stands for the column, none without a match |
| WindowStacking.WindowDesktop | AtkCocoa/gailwindow.c:995-1027 | the cardinal cast to int when the read succeeds with exactly one cardinal, and -1 otherwise |
| WindowStacking.WindowDesktopAsWritten | AtkCocoa/gailwindow.c:1018-1026 | as written, a successful read gives the cardinal's first byte, between 0 and 255 |
| WindowStacking.WindowDesktopAsWrittenMisreads | AtkCocoa/gailwindow.c:1018-1026 | as written, 0xFFFFFFFF reads as 255 where the cast gives -1, and 256 reads as 0 |
| WindowStacking.FirstIndex | AtkCocoa/gailwindow.c:1093-1102 | none exactly when the window is not listed, otherwise its first position |
| WindowStacking.FirstIndexAt | AtkCocoa/gailwindow.c:1093-1102 | a scan that stops at j with no match before finds the first position j |
| WindowStacking.Freed | AtkCocoa/gailwindow.c:1030-1043 | free_screen_info leaves length 0 and empty buffers, the rest as it was |
| WindowStacking.Refreshed | AtkCocoa/gailwindow.c:1046-1116 | the merge corrected as in the Findings row for lines 1052-1106: on a failed read the buffers are freed; otherwise the new list replaces the old, a known window keeps the desktop and flag of an old entry, a new one gets a fresh read and a clear flag |
| WindowStacking.RefreshSameListKeepsInfo | AtkCocoa/gailwindow.c:1089-1113 | for the corrected merge, reading back the same list of distinct windows leaves every desktop and flag as it was |
| WindowStacking.RefreshedAsWritten | AtkCocoa/gailwindow.c:1052-1110 | as written: the new list is the reply, but entry i is matched against the old list, and read afresh, by byte i of the reply buffer; a fresh read keeps one byte of the desktop |
| WindowStacking.RefreshAsWrittenNeverCarries | AtkCocoa/gailwindow.c:1089-1106 | as written, when every old window id is 256 or more, no entry is carried over: each desktop is read, one byte of it, for a byte of the buffer, and each pending flag is cleared |
| WindowStacking.RefreshAsWrittenDropsPendingFlag | AtkCocoa/gailwindow.c:1089-1106 | as written, reading back the list [0x1200007] drops its desktop 2 and its pending flag, which the corrected merge keeps |
| WindowStacking.Zorder | AtkCocoa/gailwindow.c:1298-1341 | -1 for an unlisted window, its desktop when negative, otherwise between 0 and its first position |
| WindowStacking.ZorderFollowsStacking | AtkCocoa/gailwindow.c:1326-1338 | two windows on the same desktop have distinct z-orders, the one listed first the smaller |
| WindowStacking.FlagWindow | AtkCocoa/gailwindow.c:1190-1202 | only the first entry of w is flagged, and the desktop refresh is requested when w is listed |
| WindowStacking.GailScreens.constructor | AtkCocoa/gailwindow.c:1238-1250 | one zeroed screen info per screen and nothing pending |
| WindowStacking.GailScreens.FreeScreenInfo | AtkCocoa/gailwindow.c:1030-1043 | the screen's buffers are dropped; no other screen changes |
| WindowStacking.GailScreens.GetStackedWindows | AtkCocoa/gailwindow.c:1046-1116 | the merge loops, matching window i rather than byte i, leave exactly WindowStacking.Refreshed of the old info; ok exactly when the read succeeded |
| WindowStacking.GailScreens.UpdateScreenInfo | AtkCocoa/gailwindow.c:1119-1129 | the source and the flag are cleared, then the list is refreshed by the corrected merge; one pending source fewer |
| WindowStacking.GailScreens.UpdateDesktopInfo | AtkCocoa/gailwindow.c:1132-1151 | each flagged entry is read again with the corrected WindowStacking.WindowDesktop, the others kept, and no flag stays set; the handler is cleared |
| WindowStacking.GailScreens.FilterFunc | AtkCocoa/gailwindow.c:1154-1207 | a stacking change schedules a refresh unless one is pending; a desktop change flags the window on every screen and schedules each such screen's refresh unless pending; every screen keeps at most one pending source of each kind |
| WindowStacking.GailScreens.FlagOnEveryScreen | AtkCocoa/gailwindow.c:1187-1203 | every screen gets FlagWindow, and each pending count grows by exactly the refreshes scheduled |
| WindowStacking.GailScreens.FlagScreen | AtkCocoa/gailwindow.c:1189-1202 | one screen gets FlagWindow and its refresh is scheduled unless pending; the others are unchanged |
| WindowStacking.GailScreens.GetWindowZorder | AtkCocoa/gailwindow.c:1298-1341 | the two scans return WindowStacking.Zorder of the screen's list |
| WindowTitle.NameChanged | AtkCocoa/gailwindow.c:846-854 | a change exactly when the new title differs from the previous one, NULL included |
| WindowTitle.TitleStep | AtkCocoa/gailwindow.c:844-864 | after one title notification the new title is the remembered one, and an announcement is pending exactly when one was or the title changed |
| WindowTitle.AfterTitlesCoalesce | AtkCocoa/gailwindow.c:856-863 | after a run of title notifications the last title is remembered, and an announcement is pending exactly when one was or some title differed |
| WindowTitle.GailWindowTitle.constructor | AtkCocoa/gailwindow.c:405-407 | the current title is remembered and nothing is pending |
| WindowTitle.GailWindowTitle.NotifyTitle | AtkCocoa/gailwindow.c:844-864 | a changed title is remembered and an announcement scheduled unless one is pending; at most one is ever pending |
| WindowTitle.GailWindowTitle.IdleNotifyNameChange | AtkCocoa/gailwindow.c:811-832 | the handler is cleared; nothing is emitted once the widget is gone; otherwise accessible-name when no name is set, then visible_data_changed |
| WindowTitle.GailWindowTitle.Finalize | AtkCocoa/gailwindow.c:595-604 | a pending announcement is removed and the title dropped |

## Left out

- Cocoa accessibility lists are not modelled. These are the selected rows, rows, visible rows and
  disclosed rows of the tree element, and `addVisibleRow:`, `removeVisibleRow:`, `addChildRowElement:` and
  `removeChildRowElement:`. They are Cocoa arrays outside the row tree. The outline element recomputes them
  when it reads them.
- Iterators are not modelled. An element's position is its index in its parent's sequence, so the
  `_iterInParent` handle is not stored. The early return of `reorderChildrenToNewIndicies:` that leaves
  iterators pointing into a leaked copy is therefore not modelled.
- Row references are snapshots taken when an element is made. GTK's updating of tree row references after
  later model edits is not modelled, so agreeing row paths are only claimed after the first build and the
  steps that keep them.
- `atoi` has no C `int` overflow. Values outside the `int` range are mathematical integers.
- GTK and Cocoa side effects are not modelled:
  - accessibility window and top-level element settings;
  - roles;
  - signal connection;
  - weak pointers, retain and release;
  - `g_warning`;
  - the frame and geometry code.
- Cell content materialisation and cell element updates are not modelled: `gail_tree_view_update_row_cells`,
  `update_column_cells` and the renderer elements.
- `find_column_element_for_column` of the later adapter is the same hash lookup as
  `gail_treeview_get_column_element`; `TreeView.GailTreeView.GetColumnElement` models both.
- The earlier adapter's expand, collapse, insert and notify handlers are not modelled. They differ from
  the later adapter's, and they are outside the modelled part of the earlier adapter:
  - `gail_tree_view_expand_row_gtk` (atk-cocoa/gailtreeview.c:540-590) also adds each new element to the
    tree element's accessibility children. It adds it under the expanded row with `addChildRowElement:`
    and sorts the disclosed rows with `row_column_index_sort`. It keeps no row cache or dirty flag.
  - `model_row_inserted` (atk-cocoa/gailtreeview.c:1213-1266) also adds the new element to the tree
    element's accessibility children with `accessibilityAddChildElement:`.
  - `gail_tree_view_collapse_row_gtk` (atk-cocoa/gailtreeview.c:610-631) cancels no pending row update.
    Its teardown is `remove_all_children`, which is modelled.
- LegacyTreeView.LegacyGailTreeView: atk-cocoa/ACAccessibilityTreeRowElement.c defines only `init`,
  `addChildRowElement:` and `removeChildRowElement:`. The earlier adapter also calls `childAtPath:`,
  `insertChild:atIndex:`, `foreachChild:`, `removeAllChildren`, `removeFromParent`,
  `reorderChildrenToNewIndicies:` and `accessibilityIndex` (atk-cocoa/gailtreeview.c:205, 221, 597-602,
  877-878, 1328). The model reads these as the methods of AtkCocoa/ACAccessibilityTreeRowElement.c. A row
  item's sort index (`LegacyOrder.Element.RowItem`) is a parameter of the element, not computed from the row forest.
- RowElements.RowForest.ReorderChildrenToNewIndicies: its contract is the corrected reorder of the Findings
  row for AtkCocoa/ACAccessibilityTreeRowElement.c:674-678, RowEdits.ReorderChildren, in which every child
  keeps its parent. As written, freeing the old sequence leaves every reordered child parentless
  (RowEdits.ReorderAsWrittenOrphansChildren).
- TreeView.GailTreeView.ModelRowsReordered: the reorder it calls (AtkCocoa/gailtreeview.c:1346) is the
  corrected RowEdits.ReorderChildren. As written, the reordered children are left parentless.
- LegacyTreeView.LegacyGailTreeView.ModelRowsReordered: the reorder it calls
  (atk-cocoa/gailtreeview.c:1328), read as the later row element's, is the corrected
  RowEdits.ReorderChildren. As written, the reordered children are left parentless.
- LegacyTreeView.LegacyGailTreeView.ColumnsChanged: a column element is a value, its column and index.
  Cocoa object identity of column elements is not modelled.
- TreeView.GailTreeView.AddRows: `flattenTreeInto:` (AtkCocoa/gailtreeview.c:1566) is not defined in the
  row element source. The model reads it as `recursiveFlattenTreeIntoArray:addingSelf:NO` on the fake root,
  so a dirty cache becomes the root's pre-order list without the root itself. The postcondition
  `rowCache == Flatten(root)` rests on that reading.
- WindowStacking.Refreshed: models the stacking merge as corrected in the Findings row for
  AtkCocoa/gailwindow.c:1052-1106, matching and reading window i rather than byte i of the reply buffer.
  A new window's desktop is read with the corrected WindowStacking.WindowDesktop of the Findings row for
  AtkCocoa/gailwindow.c:1018-1026, the whole cardinal rather than its first byte. The code as written,
  with both the byte-indexed merge and the one-byte read, is WindowStacking.RefreshedAsWritten.
- WindowStacking.RefreshSameListKeepsInfo: holds of the corrected merge only. As written, window ids of 256
  or more never match a byte, so the desktops are read again and the flags cleared
  (WindowStacking.RefreshAsWrittenNeverCarries).
- WindowStacking.GailScreens.GetStackedWindows: its loops and postcondition are the corrected merge,
  WindowStacking.Refreshed, not the byte-indexed loop the source runs, and its fresh reads use the
  corrected WindowStacking.WindowDesktop, not the one-byte read of get_window_desktop as written.
- WindowStacking.GailScreens.UpdateScreenInfo: the new screen state is the corrected merge,
  WindowStacking.Refreshed, with the corrected read, for the same reasons.
- WindowStacking.GailScreens.UpdateDesktopInfo: each flagged entry is read again with the corrected
  WindowStacking.WindowDesktop. As written, get_window_desktop (AtkCocoa/gailwindow.c:1145, 1021) keeps
  only the first byte of the cardinal; that read is WindowStacking.WindowDesktopAsWritten.
- The byte-indexed reading assumes a 64-bit little-endian host, where Xlib returns each 32-bit item of
  the reply as an 8-byte long; byte i is then byte i mod 8 of window i div 8.
- WindowStacking.GailScreens.GetStackedWindows: the X reply is a parameter. An error trap, a failed read
  and a reply of the wrong type all become `ReadFailed` or a property that is not a window list. A list
  of length 0 is the same as an unset property.
- `get_screen_info` is not modelled. This covers `init_gail_screen`'s lazy per-screen set-up, its root
  window and filter registration, and `display_closed`. The model starts from `init_gail_screens` with
  every screen zeroed. Screens are indexed by number.
- NULL buffers are empty sequences. Lengths are the lengths of the sequences.
- Idle sources are not run by the model. Each pending source is an entry of the multiset, or a counter
  for the title. The handler methods model what runs when a source fires.
- Only the title branch of `gail_window_real_notify_gtk` is modelled. The other properties go to the
  parent class.
- get_window_zorder returns the window's negative desktop itself, not -1. `WindowStacking.Zorder` follows
  the code here. get_window_desktop gives -1 for every failed read. With the corrected read, the "all
  desktops" value 0xFFFFFFFF also casts to -1.

## Findings

| source | as written | input that shows it | evidently intended | confidence | as-written member | corrected member |
|---|---|---|---|---|---|---|
| AtkCocoa/ACAccessibilityTreeRowElement.c:674-678 | after copying the children into the new sequence, `g_sequence_free` on the old sequence runs `remove_child` on every item, which clears each reordered child's `_parent` | a parent with two children and the order [1, 0]: both children are in the new sequence and have no parent | the reordered children keep their parent pointer | not executed | RowEdits.ReorderAsWrittenOrphansChildren | RowEdits.ReorderChildren |
| AtkCocoa/gailwindow.c:1018-1026 | `desktop = *cardinals` reads the property data through a `guchar *`, so only the first byte of the first cardinal is taken | a window on all desktops (0xFFFFFFFF) reads as desktop 255 on a little-endian host, and a window on desktop 256 reads as desktop 0 | the whole cardinal, cast to int: -1 and 256 | not executed | WindowStacking.WindowDesktopAsWrittenMisreads | WindowStacking.WindowDesktop |
| AtkCocoa/gailwindow.c:1052-1106 | `data` is a `guchar *`, so `data [i]` in the merge loop is byte i of the reply buffer: the old list is searched for that byte and, when it is missing, the byte is read as a window's desktop; only the final cast takes the buffer as windows | a screen listing window 0x1200007 on desktop 2 with a desktop change pending reads back [0x1200007]; byte 0 is 7, which matches nothing, so the desktop is read for window 7 and the pending flag is cleared | window i, `((Window *) data) [i]`, in the search and in the read, so a known window keeps its desktop and flag | not executed | WindowStacking.RefreshAsWrittenDropsPendingFlag | WindowStacking.Refreshed |

=== FILE: first_build.dfy ===
/**
 * The first build of the row elements (add_iter_rows_recursive): every
 * visible row of the model, visited in pre-order, gets a new element that is
 * appended under the element its parent path leads to, so the elements made
 * for a level and everything below it form one run of fresh handles, listed
 * by the parent's flattened rows in the order they were made.
 */
module FirstBuild {
  import opened Wrappers
  import opened TreePaths
  import opened RowTree
  import RowEdits
  import opened Subtrees
  import opened ViewState

  /**
   * After the build has visited the paths vis below the element e that the
   * prefix leads to: e's flattened rows are the |vis| elements made since s,
   * in the order they were made, and they carry the paths of vis; every older
   * element keeps its links and its row, and only e gained children.
   */
  predicate BuiltBelow(s: seq<Node>, t: seq<Node>, root: NodeId, prefix: Path, e: NodeId, vis: seq<Path>)
    requires WellFormed(s) && WellFormed(t) && root < |s| && e < |s|
  {
    |t| == |s| + |vis| && root < |t| && Reaches(t, root, prefix, e) && Flatten(t, e) == Range(|s|, |vis|) &&
    (forall j :: 0 <= j < |vis| ==> t[|s| + j].row == Some(vis[j])) &&
    (forall m {:trigger t[m]} :: 0 <= m < |s| ==> t[m].parent == s[m].parent && t[m].row == s[m].row) &&
    (forall m {:trigger Children(t, m)} :: 0 <= m < |s| && m != e ==> Children(t, m) == Children(s, m))
  }

  /**
   * One visited row below e: a new element, appended to e's children, whose
   * own flattened rows are the elements made after it, the new elements
   * carrying the paths of vis; older elements keep their links and rows.
   */
  predicate RowBuilt(u: seq<Node>, t: seq<Node>, e: NodeId, vis: seq<Path>)
    requires WellFormed(u) && WellFormed(t) && e < |u|
  {
    |t| == |u| + |vis| && vis != [] &&
    Children(t, e) == Children(u, e) + [|u|] && Flatten(t, |u|) == Range(|u| + 1, |vis| - 1) &&
    (forall j :: 0 <= j < |vis| ==> t[|u| + j].row == Some(vis[j])) &&
    (forall m {:trigger t[m]} :: 0 <= m < |u| ==> t[m].parent == u[m].parent && t[m].row == u[m].row) &&
    (forall m {:trigger Children(t, m)} :: 0 <= m < |u| && m != e ==> Children(t, m) == Children(u, m))
  }

  /** Nothing visited yet below a childless e. */
  lemma BuildStart(s: seq<Node>, root: NodeId, prefix: Path, e: NodeId)
    requires WellFormed(s) && root < |s| && e < |s| && Reaches(s, root, prefix, e) && Children(s, e) == []
    ensures BuiltBelow(s, s, root, prefix, e, [])
  {
    assert Flatten(s, e) == [];
  }

  /** Range(lo, k1) followed by lo + k1 and the next k2 handles is one run. */
  lemma RangeJoin(lo: nat, k1: nat, k2: nat)
    ensures Range(lo, k1) + [lo + k1] + Range(lo + k1 + 1, k2) == Range(lo, k1 + 1 + k2)
  {
    var l := Range(lo, k1) + [lo + k1] + Range(lo + k1 + 1, k2);
    forall j | 0 <= j < |l| ensures l[j] == lo + j {
      if j > k1 {
        assert l[j] == Range(lo + k1 + 1, k2)[j - k1 - 1];
      }
    }
  }

  /** out is a followed by the handles lo, lo + 1, ..., hi - 1. */
  predicate Appended(a: seq<NodeId>, out: seq<NodeId>, lo: nat, hi: nat)
  {
    lo <= hi && out == a + Range(lo, hi - lo)
  }

  lemma AppendedNone(a: seq<NodeId>, lo: nat)
    ensures Appended(a, a, lo, lo)
  {
    assert a + Range(lo, 0) == a;
  }

  lemma AppendedOne(a: seq<NodeId>, lo: nat, b: seq<NodeId>)
    requires b == a + [lo]
    ensures Appended(a, b, lo, lo + 1)
  {
    assert Range(lo, 1) == [lo];
  }

  /** Two runs of handles, one after the other, are one run. */
  lemma AppendedTwice(a: seq<NodeId>, b: seq<NodeId>, c: seq<NodeId>, lo: nat, mid: nat, hi: nat)
    requires Appended(a, b, lo, mid) && Appended(b, c, mid, hi)
    ensures Appended(a, c, lo, hi)
  {
    forall j | |b| <= j < |c| ensures c[j] == (a + Range(lo, hi - lo))[j] {
      assert c[j] == Range(mid, hi - mid)[j - |b|];
    }
  }

  /** The element the row at prefix + [i] is filed under is e, the element the prefix leads to. */
  lemma BuildParent(u: seq<Node>, root: NodeId, prefix: Path, e: NodeId, i: nat)
    requires WellFormed(u) && root < |u| && Reaches(u, root, prefix, e)
    ensures ParentFor(RowEdits.AddRow(u, Some(prefix + [i])), root, prefix + [i]) == Some(e)
  {
    var mid := RowEdits.AddRow(u, Some(prefix + [i]));
    if prefix != [] {
      AddRowKeepsLookup(u, Some(prefix + [i]), root, prefix);
    }
    ReachesParentFor(mid, root, prefix, e, i);
  }

  /**
   * Filing the element made for prefix + [i] under e, whose i children are
   * all older: it becomes e's last child and keeps its path, and nothing
   * older changes its links or its row.
   */
  lemma BuildChildLinks(u: seq<Node>, mid: seq<Node>, t: seq<Node>, e: NodeId, p: Path, i: nat)
    requires WellFormed(u) && e < |u| && |Children(u, e)| == i
    requires mid == RowEdits.AddRow(u, Some(p)) && t == RowEdits.InsertChild(mid, e, |u|, i)
    ensures |t| == |u| + 1 && Children(t, e) == Children(u, e) + [|u|]
    ensures Children(t, |u|) == [] && t[|u|].row == Some(p)
    ensures forall m {:trigger t[m]} :: 0 <= m < |u| ==> t[m].parent == u[m].parent && t[m].row == u[m].row
    ensures forall m {:trigger Children(t, m)} :: 0 <= m < |u| && m != e ==> Children(t, m) == Children(u, m)
  {
    var cs := Children(mid, e);
    assert cs == Children(u, e);
    assert RowEdits.InsertPosition(|cs|, i) == i;
    assert cs[..i] + [|u|] + cs[i..] == cs + [|u|];
    RowEdits.InsertChildFrame(mid, e, |u|, i);
    forall m | 0 <= m < |u| ensures t[m].parent == u[m].parent && t[m].row == u[m].row {
      assert mid[m] == u[m] by {
        assert mid[..|u|][m] == mid[m];
      }
    }
  }

  /** The element made for prefix + [i], filed as e's child i, is the one that path leads to. */
  lemma BuildChildReached(u: seq<Node>, mid: seq<Node>, t: seq<Node>, root: NodeId, prefix: Path, e: NodeId, i: nat)
    requires WellFormed(u) && root < |u| && e < |u| && Reaches(u, root, prefix, e)
    requires mid == RowEdits.AddRow(u, Some(prefix + [i])) && WellFormed(t) && |t| == |mid|
    requires forall m :: 0 <= m < |u| && m != e ==> Children(t, m) == Children(mid, m)
    requires |Children(t, e)| == i + 1 && Children(t, e)[i] == |u|
    ensures Reaches(t, root, prefix + [i], |u|)
  {
    if prefix == [] {
      assert Lookup(t, root, [i]) == ChildAtIndex(t, root, i);
    } else {
      AddRowKeepsLookup(u, Some(prefix + [i]), root, prefix);
      LookupFrame(mid, t, root, prefix, e);
      LookupSnoc(t, root, prefix, i);
    }
  }

  /**
   * The element made for prefix + [i] is filed: it is e's new last child,
   * childless, carrying its path, which leads to it; older elements keep
   * their links and rows, and only e gained a child.
   */
  predicate RowFiled(u: seq<Node>, t: seq<Node>, root: NodeId, prefix: Path, e: NodeId, i: nat)
    requires WellFormed(u) && WellFormed(t) && root < |u| && e < |u|
  {
    |t| == |u| + 1 && Children(t, e) == Children(u, e) + [|u|] && Children(t, |u|) == [] &&
    t[|u|].row == Some(prefix + [i]) && Reaches(t, root, prefix + [i], |u|) &&
    (forall m {:trigger t[m]} :: 0 <= m < |u| ==> t[m].parent == u[m].parent && t[m].row == u[m].row) &&
    (forall m {:trigger Children(t, m)} :: 0 <= m < |u| && m != e ==> Children(t, m) == Children(u, m))
  }

  /**
   * Making the element for prefix + [i] and appending it to the i children
   * of e, the element the prefix leads to, files it; row paths that agreed
   * with positions still do.
   */
  lemma FileStep(u: seq<Node>, t: seq<Node>, root: NodeId, prefix: Path, e: NodeId, i: nat)
    requires WellFormed(u) && root < |u| && e < |u| && Reaches(u, root, prefix, e) && |Children(u, e)| == i
    requires t == RowEdits.InsertChild(RowEdits.AddRow(u, Some(prefix + [i])), e, |u|, i)
    ensures WellFormed(t) && RowFiled(u, t, root, prefix, e, i)
    ensures PathsAgree(u) ==> PathsAgree(t)
  {
    var path := prefix + [i];
    var mid := RowEdits.AddRow(u, Some(path));
    BuildChildLinks(u, mid, t, e, path, i);
    BuildChildReached(u, mid, t, root, prefix, e, i);
    if PathsAgree(u) {
      AddRowKeepsPathsAgree(u, Some(path));
      assert path[|path| - 1] == i;
      AppendKeepsPathsAgree(mid, e, |u|, path);
    }
  }

  /** A visited row that does not open: its element alone. */
  lemma BuildLeafDone(u: seq<Node>, t: seq<Node>, root: NodeId, prefix: Path, e: NodeId, i: nat)
    requires WellFormed(u) && WellFormed(t) && root < |u| && e < |u| && RowFiled(u, t, root, prefix, e, i)
    ensures RowBuilt(u, t, e, [prefix + [i]])
  {
    assert Flatten(t, |u|) == [];
  }

  /** A visited row that opens: its element, then everything built below it. */
  lemma BuildRowDone(u: seq<Node>, t1: seq<Node>, t: seq<Node>, root: NodeId, prefix: Path, e: NodeId, i: nat,
                     sub: seq<Path>)
    requires WellFormed(u) && WellFormed(t1) && WellFormed(t) && root < |u| && e < |u|
    requires RowFiled(u, t1, root, prefix, e, i) && BuiltBelow(t1, t, root, prefix + [i], |u|, sub)
    ensures RowBuilt(u, t, e, [prefix + [i]] + sub)
  {
    var p := prefix + [i];
    BuildRowDoneRows(u, t1, t, p, sub);
    BuildRowDoneLinks(u, t1, t, e);
    assert |[p] + sub| - 1 == |sub| && |u| + 1 == |t1|;
    assert Flatten(t, |u|) == Range(|t1|, |sub|);
  }

  lemma BuildRowDoneRows(u: seq<Node>, t1: seq<Node>, t: seq<Node>, p: Path, sub: seq<Path>)
    requires |t1| == |u| + 1 && |t| == |t1| + |sub| && t1[|u|].row == Some(p)
    requires forall m {:trigger t1[m]} :: 0 <= m < |u| ==> t1[m].parent == u[m].parent && t1[m].row == u[m].row
    requires forall j :: 0 <= j < |sub| ==> t[|t1| + j].row == Some(sub[j])
    requires forall m {:trigger t[m]} :: 0 <= m < |t1| ==> t[m].parent == t1[m].parent && t[m].row == t1[m].row
    ensures forall j :: 0 <= j < |[p] + sub| ==> t[|u| + j].row == Some(([p] + sub)[j])
    ensures forall m {:trigger t[m]} :: 0 <= m < |u| ==> t[m].parent == u[m].parent && t[m].row == u[m].row
  {
    var vis := [p] + sub;
    forall j | 0 <= j < |vis| ensures t[|u| + j].row == Some(vis[j]) {
      if j == 0 {
        assert t[|u|].row == t1[|u|].row;
      } else {
        assert t[|t1| + (j - 1)].row == Some(sub[j - 1]);
      }
    }
    forall m | 0 <= m < |u| ensures t[m].parent == u[m].parent && t[m].row == u[m].row {
      assert t[m].parent == t1[m].parent && t[m].row == t1[m].row;
    }
  }

  lemma BuildRowDoneLinks(u: seq<Node>, t1: seq<Node>, t: seq<Node>, e: NodeId)
    requires WellFormed(u) && WellFormed(t1) && WellFormed(t) && e < |u| && |t1| == |u| + 1 && |u| < |t|
    requires forall m {:trigger Children(t1, m)} :: 0 <= m < |u| && m != e ==> Children(t1, m) == Children(u, m)
    requires forall m {:trigger Children(t, m)} :: 0 <= m < |t1| && m != |u| ==> Children(t, m) == Children(t1, m)
    ensures Children(t, e) == Children(t1, e)
    ensures forall m {:trigger Children(t, m)} :: 0 <= m < |u| && m != e ==> Children(t, m) == Children(u, m)
  {
    forall m | 0 <= m < |u| && m != e ensures Children(t, m) == Children(u, m) {
      assert Children(t, m) == Children(t1, m);
    }
  }

  /** The rows visited so far, followed by one more visited row, give the build so far over both. */
  lemma BuildNext(s: seq<Node>, u: seq<Node>, t: seq<Node>, root: NodeId, prefix: Path, e: NodeId,
                  vb: seq<Path>, vis: seq<Path>)
    requires WellFormed(s) && WellFormed(u) && WellFormed(t) && root < |s| && e < |s|
    requires BuiltBelow(s, u, root, prefix, e, vb) && RowBuilt(u, t, e, vis)
    ensures BuiltBelow(s, t, root, prefix, e, vb + vis) && |Children(t, e)| == |Children(u, e)| + 1
  {
    BuildNextLinks(s, u, t, root, prefix, e);
    BuildNextFlatten(s, u, t, e, |vb|, |vis|);
    BuildNextRows(s, u, t, vb, vis);
    assert |vb + vis| == |vb| + |vis|;
  }

  /** e's flattened rows gain the new child's run right after the old run. */
  lemma BuildNextFlatten(s: seq<Node>, u: seq<Node>, t: seq<Node>, e: NodeId, k1: nat, k2: nat)
    requires WellFormed(u) && WellFormed(t) && e < |s| && |u| == |s| + k1 && |t| == |u| + k2 && k2 > 0
    requires Flatten(u, e) == Range(|s|, k1) && Flatten(t, |u|) == Range(|u| + 1, k2 - 1)
    requires Children(t, e) == Children(u, e) + [|u|]
    requires forall m :: e < m < |u| ==> Children(t, m) == Children(u, m)
    ensures Flatten(t, e) == Range(|s|, k1 + k2)
  {
    FlattenAfterChild(u, t, e, |u|);
    RangeJoinAt(Flatten(t, e), Flatten(u, e), Flatten(t, |u|), |s|, |u|, k1, k2);
  }

  lemma RangeJoinAt(f: seq<NodeId>, a: seq<NodeId>, b: seq<NodeId>, lo: nat, n: nat, k1: nat, k2: nat)
    requires n == lo + k1 && k2 > 0 && f == a + [n] + b && a == Range(lo, k1) && b == Range(n + 1, k2 - 1)
    ensures f == Range(lo, k1 + k2)
  {
    RangeJoin(lo, k1, k2 - 1);
  }

  lemma BuildNextLinks(s: seq<Node>, u: seq<Node>, t: seq<Node>, root: NodeId, prefix: Path, e: NodeId)
    requires WellFormed(s) && WellFormed(u) && WellFormed(t) && root < |s| && e < |s| && |s| <= |u| < |t|
    requires Reaches(u, root, prefix, e)
    requires forall m {:trigger Children(u, m)} :: 0 <= m < |s| && m != e ==> Children(u, m) == Children(s, m)
    requires forall m {:trigger Children(t, m)} :: 0 <= m < |u| && m != e ==> Children(t, m) == Children(u, m)
    ensures Reaches(t, root, prefix, e)
    ensures forall m :: e < m < |u| ==> Children(t, m) == Children(u, m)
    ensures forall m {:trigger Children(t, m)} :: 0 <= m < |s| && m != e ==> Children(t, m) == Children(s, m)
  {
    if prefix != [] {
      LookupFrame(u, t, root, prefix, e);
    }
    forall m | 0 <= m < |s| && m != e ensures Children(t, m) == Children(s, m) {
      assert Children(t, m) == Children(u, m);
    }
  }

  lemma BuildNextRows(s: seq<Node>, u: seq<Node>, t: seq<Node>, vb: seq<Path>, vis: seq<Path>)
    requires |u| == |s| + |vb| && |t| == |u| + |vis|
    requires forall j :: 0 <= j < |vb| ==> u[|s| + j].row == Some(vb[j])
    requires forall j :: 0 <= j < |vis| ==> t[|u| + j].row == Some(vis[j])
    requires forall m {:trigger t[m]} :: 0 <= m < |u| ==> t[m].parent == u[m].parent && t[m].row == u[m].row
    requires forall m {:trigger u[m]} :: 0 <= m < |s| ==> u[m].parent == s[m].parent && u[m].row == s[m].row
    ensures forall j :: 0 <= j < |vb + vis| ==> t[|s| + j].row == Some((vb + vis)[j])
    ensures forall m {:trigger t[m]} :: 0 <= m < |s| ==> t[m].parent == s[m].parent && t[m].row == s[m].row
  {
    forall j | 0 <= j < |vb + vis| ensures t[|s| + j].row == Some((vb + vis)[j]) {
      if j < |vb| {
        assert t[|s| + j].row == u[|s| + j].row;
      } else {
        assert t[|u| + (j - |vb|)].row == Some(vis[j - |vb|]);
      }
    }
  }

  /**
   * The first build from a fresh root: the handles it made, in order, are
   * the root's flattened rows, and they carry the visited paths.
   */
  lemma BuiltFromRoot(s: seq<Node>, t: seq<Node>, root: NodeId, vis: seq<Path>, built: seq<NodeId>)
    requires WellFormed(s) && WellFormed(t) && root < |s|
    requires BuiltBelow(s, t, root, [], root, vis) && Appended([], built, |s|, |t|)
    ensures built == Flatten(t, root) && RowPaths(t, built) == Wrap(vis)
  {
    assert built == Range(|s|, |vis|);
    BuiltRowPaths(s, t, vis);
  }

  /** The elements of a finished build carry exactly the visited paths, in order. */
  lemma BuiltRowPaths(s: seq<Node>, t: seq<Node>, vis: seq<Path>)
    requires |t| == |s| + |vis|
    requires forall j :: 0 <= j < |vis| ==> t[|s| + j].row == Some(vis[j])
    ensures RowPaths(t, Range(|s|, |vis|)) == Wrap(vis)
  {
  }

  /**
   * A fresh root among detached elements: everything attached (nothing) lies
   * below it, its flattened rows are empty, and every path agrees with its
   * position trivially.
   */
  lemma DetachedRoot(nodes: seq<Node>, root: NodeId)
    requires WellFormed(nodes) && AllDetached(nodes) && root < |nodes| && Children(nodes, root) == []
    ensures Rooted(nodes, root) && Flatten(nodes, root) == [] && PathsAgree(nodes)
  {
    forall x | 0 <= x < |nodes| ensures RowAgrees(nodes, x) && AttachedBelow(nodes, root, x) {
      assert IsDetached(nodes, x);
    }
    assert IsDetached(nodes, root);
  }
}

=== FILE: legacy_columns.dfy ===
/**
 * The column array of the earlier tree view adapter: columns_changed makes
 * one column element per tree view column, numbered in tree-view order, and
 * find_column_element_for_column scans the array for the first element of a
 * column.
 */
module LegacyColumns {
  import opened Wrappers
  import opened TreeColumns
  import opened LegacyOrder

  /** The column elements for the tree view columns tv: the i-th stands for tv[i] and has index i. */
  function Numbered(tv: seq<ColumnId>): (r: seq<ColumnElement>)
    ensures |r| == |tv|
  {
    seq(|tv|, i requires 0 <= i < |tv| => ColumnElement(tv[i], i))
  }

  /** The column elements as accessibility children. */
  function Items(cols: seq<ColumnElement>): (r: seq<Element>)
    ensures |r| == |cols|
  {
    seq(|cols|, i requires 0 <= i < |cols| => ColumnItem(cols[i]))
  }

  /** One more tree view column numbered: its element goes at the end with the next index. */
  lemma NumberedSnoc(tv: seq<ColumnId>, k: nat)
    requires k < |tv|
    ensures Numbered(tv[..k + 1]) == Numbered(tv[..k]) + [ColumnElement(tv[k], k)]
    ensures Items(Numbered(tv[..k + 1])) == Items(Numbered(tv[..k])) + [ColumnItem(ColumnElement(tv[k], k))]
  {
    assert Numbered(tv[..k + 1]) == Numbered(tv[..k]) + [ColumnElement(tv[k], k)];
  }

  /** Every numbered column element is among the items made from them. */
  lemma NumberedListed(tv: seq<ColumnId>)
    ensures forall c :: c in Numbered(tv) ==> ColumnItem(c) in Items(Numbered(tv))
  {
    var cols := Numbered(tv);
    forall c | c in cols ensures ColumnItem(c) in Items(cols) {
      var i :| 0 <= i < |cols| && cols[i] == c;
      assert Items(cols)[i] == ColumnItem(c);
    }
  }

  predicate DistinctColumns(tv: seq<ColumnId>)
  {
    forall i, j :: 0 <= i < j < |tv| ==> tv[i] != tv[j]
  }

  /** The first element of cols that stands for column, if any. */
  function FirstMatch(cols: seq<ColumnElement>, column: ColumnId): (r: Option<ColumnElement>)
    ensures r.None? <==> forall i :: 0 <= i < |cols| ==> cols[i].column != column
    ensures r.Some? ==>
              r.value.column == column &&
              exists i :: 0 <= i < |cols| && cols[i] == r.value && forall j :: 0 <= j < i ==> cols[j].column != column
  {
    if cols == [] then None
    else if cols[0].column == column then
      assert cols[0] == cols[0];
      Some(cols[0])
    else
      var r := FirstMatch(cols[1..], column);
      assert forall i :: 1 <= i < |cols| ==> cols[i] == cols[1..][i - 1];
      r
  }

  /**
   * With no tree view column listed twice, the array columns_changed builds
   * finds each column's element at that column's position in tree-view order.
   */
  lemma NumberedFindsEachColumn(tv: seq<ColumnId>, i: nat)
    requires DistinctColumns(tv) && i < |tv|
    ensures FirstMatch(Numbered(tv), tv[i]) == Some(ColumnElement(tv[i], i))
  {
    var cols := Numbered(tv);
    assert cols[i].column == tv[i];
    var r := FirstMatch(cols, tv[i]);
    var k :| 0 <= k < |cols| && cols[k] == r.value && forall j :: 0 <= j < k ==> cols[j].column != tv[i];
    assert cols[k].column == tv[k];
  }
}

=== FILE: legacy_order.dfy ===
/**
 * The accessibility children of the earlier tree view adapter's tree
 * element.  The adapter keeps them in one order: row elements first, then
 * every other element, each group by ascending accessibility index.  The
 * comparator row_column_index_sort decides that order, sort_child_elements
 * sorts with it, and gather_visible_rows_and_columns splits the children by
 * kind.  Children leave the list through removeObject:, which drops every
 * occurrence of the object.
 */
module LegacyOrder {
  import opened RowTree
  import opened TreeColumns

  /** NSComparisonResult. */
  datatype Ordering = Ascending | Same | Descending

  /**
   * An accessibility child of the tree element: a row element (with the
   * accessibility index it reports when the children are sorted), a column
   * element, or some other element.
   */
  datatype Element =
    | RowItem(row: NodeId, rowIndex: int)
    | ColumnItem(column: ColumnElement)
    | OtherItem(id: nat, otherIndex: int)

  predicate IsRow(e: Element) { e.RowItem? }

  /** accessibilityIndex of the element. */
  function Index(e: Element): int
  {
    match e
    case RowItem(_, i) => i
    case ColumnItem(c) => c.index
    case OtherItem(_, i) => i
  }

  /** row_column_index_sort: a row and a non-row by kind, two of the same kind by index. */
  function RowColumnIndexSort(a: Element, b: Element): (r: Ordering)
    ensures IsRow(a) && !IsRow(b) ==> r == Ascending
    ensures !IsRow(a) && IsRow(b) ==> r == Descending
    ensures IsRow(a) == IsRow(b) ==> (r == Same <==> Index(a) == Index(b)) && (r == Ascending <==> Index(a) < Index(b))
  {
    var isARow := IsRow(a);
    var isBRow := IsRow(b);
    if (isARow && isBRow) || (!isARow && !isBRow) then
      var idxA := Index(a);
      var idxB := Index(b);
      if idxA < idxB then Ascending
      else if idxA > idxB then Descending
      else Same
    else if isARow then Ascending
    else Descending
  }

  /** The key an element is sorted by: 0 for a row, 1 otherwise, then its index. */
  function Rank(e: Element): nat { if IsRow(e) then 0 else 1 }

  /** Lexicographic comparison of (rank, index) keys, the reference the comparator is measured against. */
  function CompareKeys(r1: nat, i1: int, r2: nat, i2: int): Ordering
  {
    if r1 < r2 || (r1 == r2 && i1 < i2) then Ascending
    else if r1 == r2 && i1 == i2 then Same
    else Descending
  }

  /** The comparator is the lexicographic order on (rank, index). */
  lemma ComparatorIsKeyOrder(a: Element, b: Element)
    ensures RowColumnIndexSort(a, b) == CompareKeys(Rank(a), Index(a), Rank(b), Index(b))
  {
  }

  function Flip(o: Ordering): Ordering
  {
    match o
    case Ascending => Descending
    case Same => Same
    case Descending => Ascending
  }

  /** Swapping the arguments swaps Ascending and Descending. */
  lemma Antisymmetric(a: Element, b: Element)
    ensures RowColumnIndexSort(b, a) == Flip(RowColumnIndexSort(a, b))
  {
  }

  /** a may stand before b in a sorted list. */
  predicate Precedes(a: Element, b: Element)
  {
    RowColumnIndexSort(a, b) != Descending
  }

  /** The comparator's order is total and transitive, so a sort by it is well defined. */
  lemma PrecedesTotalAndTransitive(a: Element, b: Element, c: Element)
    ensures Precedes(a, b) || Precedes(b, a)
    ensures Precedes(a, b) && Precedes(b, c) ==> Precedes(a, c)
  {
  }

  predicate Sorted(s: seq<Element>)
  {
    forall i, j :: 0 <= i < j < |s| ==> Precedes(s[i], s[j])
  }

  /** Inserts x ahead of the first element it precedes. */
  function Insert(s: seq<Element>, x: Element): (r: seq<Element>)
    ensures |r| == |s| + 1
    ensures multiset(r) == multiset(s) + multiset{x}
  {
    if s == [] || Precedes(x, s[0]) then [x] + s
    else
      assert s == [s[0]] + s[1..];
      [s[0]] + Insert(s[1..], x)
  }

  /** Inserting into a sorted list keeps it sorted. */
  lemma {:induction false} InsertSorted(s: seq<Element>, x: Element)
    requires Sorted(s)
    ensures Sorted(Insert(s, x))
  {
    if s == [] || Precedes(x, s[0]) {
      var r := [x] + s;
      forall i, j | 0 <= i < j < |r| ensures Precedes(r[i], r[j]) {
        if i == 0 {
          PrecedesTotalAndTransitive(x, s[0], s[j - 1]);
        }
      }
    } else {
      var tail := s[1..];
      assert Sorted(tail);
      InsertSorted(tail, x);
      var r := [s[0]] + Insert(tail, x);
      PrecedesTotalAndTransitive(x, s[0], x);
      forall i, j | 0 <= i < j < |r| ensures Precedes(r[i], r[j]) {
        if i == 0 {
          var y := r[j];
          assert y in multiset(Insert(tail, x));
          assert y == x || y in multiset(tail);
          if y != x {
            var k :| 0 <= k < |tail| && tail[k] == y;
            assert s[k + 1] == y;
          }
        }
      }
    }
  }

  // ----- splitting by kind ------------------------------------------------------

  /** The kinds gather_visible_rows_and_columns tells apart, and the complement the sort puts after the rows. */
  datatype Kind = RowKind | ColumnKind | NonRowKind

  predicate OfKind(e: Element, k: Kind)
  {
    match k
    case RowKind => e.RowItem?
    case ColumnKind => e.ColumnItem?
    case NonRowKind => !e.RowItem?
  }

  /** The elements of kind k, in their order. */
  function Pick(s: seq<Element>, k: Kind): (r: seq<Element>)
    ensures |r| <= |s|
  {
    if s == [] then []
    else Pick(s[..|s| - 1], k) + (if OfKind(s[|s| - 1], k) then [s[|s| - 1]] else [])
  }

  function Rows(s: seq<Element>): seq<Element> { Pick(s, RowKind) }

  function Columns(s: seq<Element>): seq<Element> { Pick(s, ColumnKind) }

  function NonRows(s: seq<Element>): seq<Element> { Pick(s, NonRowKind) }

  /** An element is among those of kind k exactly when it is a child of that kind. */
  lemma {:induction false} PickMembers(s: seq<Element>, k: Kind, x: Element)
    ensures x in Pick(s, k) <==> x in s && OfKind(x, k)
  {
    if s != [] {
      var init := s[..|s| - 1];
      PickMembers(init, k, x);
      assert s == init + [s[|s| - 1]];
    }
  }

  /** Picking from a concatenation picks from each part: the relative order of each kind is kept. */
  lemma {:induction false} PickAppend(a: seq<Element>, b: seq<Element>, k: Kind)
    ensures Pick(a + b, k) == Pick(a, k) + Pick(b, k)
  {
    if b == [] {
      assert a + b == a;
    } else {
      var init := b[..|b| - 1];
      var last := b[|b| - 1];
      var tail := if OfKind(last, k) then [last] else [];
      PickAppend(a, init, k);
      assert (a + b)[..|a + b| - 1] == a + init;
      assert (a + b)[|a + b| - 1] == last;
      assert Pick(a + b, k) == Pick(a + init, k) + tail;
      assert Pick(b, k) == Pick(init, k) + tail;
      assert (Pick(a, k) + Pick(init, k)) + tail == Pick(a, k) + (Pick(init, k) + tail);
    }
  }

  /** A list sorted by the comparator is its rows followed by everything else. */
  lemma {:induction false} SortedSplits(s: seq<Element>)
    requires Sorted(s)
    ensures s == Rows(s) + NonRows(s)
  {
    if s != [] {
      var init := s[..|s| - 1];
      var last := s[|s| - 1];
      assert Sorted(init);
      SortedSplits(init);
      if IsRow(last) && NonRows(init) != [] {
        PickMembers(init, NonRowKind, NonRows(init)[0]);
        assert false;
      }
      assert s == init + [last];
    }
  }

  // ----- removing children --------------------------------------------------

  /** removeObject: of a row element for every row in gone: each row item of those rows leaves, all else stays in order. */
  function DropRows(cs: seq<Element>, gone: set<NodeId>): (r: seq<Element>)
    ensures |r| <= |cs|
  {
    if cs == [] then []
    else
      var last := cs[|cs| - 1];
      DropRows(cs[..|cs| - 1], gone) + (if last.RowItem? && last.row in gone then [] else [last])
  }

  /** An element survives exactly when it is not a row item of a row that went. */
  lemma {:induction false} DropRowsMembers(cs: seq<Element>, gone: set<NodeId>, x: Element)
    ensures x in DropRows(cs, gone) <==> x in cs && !(x.RowItem? && x.row in gone)
  {
    if cs != [] {
      var init := cs[..|cs| - 1];
      DropRowsMembers(init, gone, x);
      assert cs == init + [cs[|cs| - 1]];
    }
  }

  lemma {:induction false} DropRowsNothing(cs: seq<Element>)
    ensures DropRows(cs, {}) == cs
  {
    if cs != [] {
      DropRowsNothing(cs[..|cs| - 1]);
      assert cs == cs[..|cs| - 1] + [cs[|cs| - 1]];
    }
  }

  /** Two sequences holding the same elements as often have the same members. */
  lemma SameMembers(a: seq<Element>, b: seq<Element>)
    requires multiset(a) == multiset(b)
    ensures forall x :: x in a <==> x in b
  {
    forall x ensures x in a <==> x in b {
      assert x in a <==> x in multiset(a);
      assert x in b <==> x in multiset(b);
    }
  }

  /** Dropping rows keeps every element that is not a row item. */
  lemma DropRowsKeepsNonRows(cs: seq<Element>, gone: set<NodeId>)
    ensures forall x :: x in cs && !x.RowItem? ==> x in DropRows(cs, gone)
  {
    forall x | x in cs && !x.RowItem? ensures x in DropRows(cs, gone) {
      DropRowsMembers(cs, gone, x);
    }
  }

  /** Dropping one set of rows and then another drops their union. */
  lemma {:induction false} DropRowsTwice(cs: seq<Element>, a: set<NodeId>, b: set<NodeId>)
    ensures DropRows(DropRows(cs, a), b) == DropRows(cs, a + b)
  {
    if cs != [] {
      var init := cs[..|cs| - 1];
      var last := cs[|cs| - 1];
      DropRowsTwice(init, a, b);
      var d := DropRows(init, a);
      if last.RowItem? && last.row in a {
        assert DropRows(cs, a) == d + [] == d;
      } else {
        var da := d + [last];
        assert DropRows(cs, a) == da;
        assert da[..|da| - 1] == d && da[|da| - 1] == last;
      }
    }
  }

  /** removeObject: on a non-row element: every element equal to x leaves, all else stays in order. */
  function Without(cs: seq<Element>, x: Element): (r: seq<Element>)
    ensures |r| <= |cs|
  {
    if cs == [] then []
    else
      var last := cs[|cs| - 1];
      Without(cs[..|cs| - 1], x) + (if last == x then [] else [last])
  }

  /** One removeObject: after another, for each element of xs in turn. */
  function RemoveEach(cs: seq<Element>, xs: seq<Element>): seq<Element>
  {
    if xs == [] then cs else Without(RemoveEach(cs, xs[..|xs| - 1]), xs[|xs| - 1])
  }

  lemma {:induction false} WithoutMembers(cs: seq<Element>, x: Element, y: Element)
    ensures y in Without(cs, x) <==> y in cs && y != x
  {
    if cs != [] {
      var init := cs[..|cs| - 1];
      WithoutMembers(init, x, y);
      assert cs == init + [cs[|cs| - 1]];
    }
  }

  /** After removing each element of xs, an element is left exactly when it was there and is none of xs. */
  lemma {:induction false} RemoveEachMembers(cs: seq<Element>, xs: seq<Element>, y: Element)
    ensures y in RemoveEach(cs, xs) <==> y in cs && y !in xs
  {
    if xs != [] {
      var init := xs[..|xs| - 1];
      var last := xs[|xs| - 1];
      var before := RemoveEach(cs, init);
      RemoveEachMembers(cs, init, y);
      WithoutMembers(before, last, y);
      SnocMembers(xs, y);
    }
  }

  lemma SnocMembers(xs: seq<Element>, y: Element)
    requires xs != []
    ensures y in xs <==> y in xs[..|xs| - 1] || y == xs[|xs| - 1]
  {
    assert xs == xs[..|xs| - 1] + [xs[|xs| - 1]];
  }
}

=== FILE: legacy_teardown.dfy ===
/**
 * The row edits of the earlier tree view adapter, as facts about the
 * element state.  Its remove_all_children tears the subtrees of the children
 * down one after the other and then frees the sequence with
 * removeAllChildren; its model_row_deleted takes the row out of its parent
 * first and tears its subtree down afterwards.  The lemmas here show that
 * this order deletes exactly the links the later adapter's order deletes,
 * but not the counts: removeFromParent lowers the counts above the row by
 * one, and tearing the detached row down lowers none of them, so the rows
 * that were below it stay counted above it.
 */
module LegacyTeardown {
  import opened Wrappers
  import opened RowTree
  import RowEdits
  import opened Subtrees
  import opened ViewState

  /** The elements strictly below n. */
  function Below(s: seq<Node>, n: NodeId): set<NodeId>
    requires WellFormed(s) && n < |s|
  {
    set m | 0 <= m < |s| && StrictlyBelow(s, n, m)
  }

  /** The elements of done and everything below them. */
  function TornBelow(s: seq<Node>, done: seq<NodeId>): set<NodeId>
    requires WellFormed(s)
  {
    set m | 0 <= m < |s| && (m in done || BelowDone(s, done, m))
  }

  /** Nothing is torn before the first child. */
  lemma TornBelowStart(s: seq<Node>)
    requires WellFormed(s)
    ensures TornBelow(s, []) == {}
  {
    forall m | 0 <= m < |s| ensures !BelowDone(s, [], m) { }
  }

  /**
   * One more child of n torn down: the torn elements grow by that child and
   * the elements below it, read off the state the earlier children left.
   */
  lemma TornBelowStep(s: seq<Node>, u: seq<Node>, n: NodeId, i: nat)
    requires WellFormed(s) && WellFormed(u) && n < |s| && i < |Children(s, n)|
    requires PartlyTorn(s, u, Children(s, n)[..i])
    ensures var cs := Children(s, n);
            TornBelow(s, cs[..i + 1]) == TornBelow(s, cs[..i]) + Below(u, cs[i]) + {cs[i]}
  {
    var cs := Children(s, n);
    var c := cs[i];
    TornOffNextSibling(s, u, n, i);
    forall m: NodeId ensures m in TornBelow(s, cs[..i + 1]) <==> m in TornBelow(s, cs[..i]) + Below(u, c) + {c} {
      if m < |s| {
        SubtreeKept(s, u, c, m);
        BelowDoneSnoc(s, cs, i, m);
        TornBelowStepAt(s, u, cs, i, m);
      }
    }
  }

  lemma TornBelowStepAt(s: seq<Node>, u: seq<Node>, cs: seq<NodeId>, i: nat, m: NodeId)
    requires WellFormed(s) && WellFormed(u) && |u| == |s| && i < |cs| && cs[i] < |s| && m < |s|
    requires IsAncestorOrSelf(u, cs[i], m) == IsAncestorOrSelf(s, cs[i], m)
    requires BelowDone(s, cs[..i + 1], m) <==> BelowDone(s, cs[..i], m) || StrictlyBelow(s, cs[i], m)
    ensures m in TornBelow(s, cs[..i + 1]) <==> m in TornBelow(s, cs[..i]) + Below(u, cs[i]) + {cs[i]}
  {
    assert m in cs[..i + 1] <==> m in cs[..i] || m == cs[i] by {
      assert cs[..i + 1] == cs[..i] + [cs[i]];
    }
  }

  /** Once every child is torn down, the torn elements are exactly those strictly below n. */
  lemma TornBelowAll(s: seq<Node>, n: NodeId)
    requires WellFormed(s) && n < |s|
    ensures TornBelow(s, Children(s, n)) == Below(s, n)
  {
    var cs := Children(s, n);
    forall m | 0 <= m < |s| ensures m in TornBelow(s, cs) <==> StrictlyBelow(s, n, m) {
      if m in cs {
        ChildIsBelow(s, n, m, m);
      }
      if BelowDone(s, cs, m) {
        var j :| 0 <= j < |cs| && StrictlyBelow(s, cs[j], m);
        ChildIsBelow(s, n, cs[j], m);
      }
      if StrictlyBelow(s, n, m) {
        BelowSomeChild(s, n, m);
        var k :| 0 <= k < |cs| && IsAncestorOrSelf(s, cs[k], m);
        if m != cs[k] {
          assert StrictlyBelow(s, cs[k], m);
        }
      }
    }
  }

  /**
   * The end of remove_all_children: once every child's subtree is torn
   * down, freeing n's sequence tears down n's whole subtree.
   */
  lemma RemoveAllChildrenFinishes(s: seq<Node>, s1: seq<Node>, n: NodeId)
    requires WellFormed(s) && WellFormed(s1) && n < |s| && PartlyTorn(s, s1, Children(s, n))
    ensures TornDown(s, RowEdits.RemoveAllChildren(s1, n), n)
  {
    CollectedChildrenReady(s, s1, n);
    RowEdits.RemoveAllChildrenKeepsRows(s1, n);
    var t := RowEdits.RemoveAllChildren(s1, n);
    assert n !in Children(s1, n);
    TearDownFinish(s, s1, t, n);
  }

  /** Changing only e's parent pointer leaves the elements at or below e as they were. */
  lemma {:induction false} DetachedAncestry(s: seq<Node>, t: seq<Node>, e: NodeId, m: NodeId)
    requires WellFormed(s) && WellFormed(t) && |t| == |s| && m < |s|
    requires forall x :: 0 <= x < |s| && x != e ==> t[x].parent == s[x].parent
    ensures IsAncestorOrSelf(t, e, m) == IsAncestorOrSelf(s, e, m)
    decreases m
  {
    if m != e && s[m].parent.Some? {
      DetachedAncestry(s, t, e, Parent(s, m).value);
    }
  }

  /** Taking e out of its parent leaves the elements below e as they were. */
  lemma BelowAfterDetach(s: seq<Node>, t: seq<Node>, e: NodeId)
    requires WellFormed(s) && WellFormed(t) && |t| == |s| && e < |s|
    requires forall x :: 0 <= x < |s| && x != e ==> t[x].parent == s[x].parent
    ensures Below(t, e) == Below(s, e)
  {
    forall m | 0 <= m < |s| ensures StrictlyBelow(t, e, m) == StrictlyBelow(s, e, m) {
      DetachedAncestry(s, t, e, m);
    }
  }

  /**
   * model_row_deleted of the earlier adapter: taking e out of its parent
   * and then tearing e's subtree down deletes e's row just as the later
   * adapter's order (tear down, then take out) does, and touches no row path.
   */
  lemma DetachThenTearDown(s: seq<Node>, t1: seq<Node>, t: seq<Node>, e: NodeId)
    requires WellFormed(s) && WellFormed(t1) && WellFormed(t) && e < |s| && Parent(s, e).Some?
    requires t1 == RowEdits.RemoveFromParent(s, e) && TornDown(t1, t, e)
    ensures RowDeleted(s, t, e)
    ensures forall m :: 0 <= m < |s| ==> t[m].row == s[m].row && t[m].rowIsDirty == s[m].rowIsDirty
  {
    var p := Parent(s, e).value;
    assert TornAt(t1, t, e, e);
    assert TornAt(t1, t, e, p);
    assert !StrictlyBelow(t1, e, p) by {
      if IsAncestorOrSelf(t1, e, p) {
        AncestorIsOlder(t1, e, p);
      }
    }
    RawChildren(t1, p);
    RawChildren(t, p);
    forall m | 0 <= m < |s| && IsAncestorOrSelf(s, e, m) ensures t[m].parent.None? && t[m].children.None? {
      DetachedAncestry(s, t1, e, m);
      assert TornAt(t1, t, e, m);
    }
    forall m | 0 <= m < |s| && !IsAncestorOrSelf(s, e, m)
      ensures t[m].parent == s[m].parent && (m != p ==> Children(t, m) == Children(s, m))
    {
      DetachedAncestry(s, t1, e, m);
      assert TornAt(t1, t, e, m);
      RawChildren(t1, m);
      RawChildren(t, m);
    }
    forall m | 0 <= m < |s| ensures t[m].row == s[m].row && t[m].rowIsDirty == s[m].rowIsDirty {
      assert TornAt(t1, t, e, m);
    }
  }

  /** Deleting a row under the root keeps every attached element in the root's tree. */
  lemma RowDeletedKeepsRooted(s: seq<Node>, t: seq<Node>, e: NodeId, root: NodeId)
    requires WellFormed(s) && WellFormed(t) && e < |s| && Parent(s, e).Some?
    requires Rooted(s, root) && RowDeleted(s, t, e)
    ensures Rooted(t, root)
  {
    assert !IsAncestorOrSelf(s, e, root) by {
      assert s[root].parent.None? && s[e].parent.Some?;
    }
    forall m | 0 <= m < |t| ensures AttachedBelow(t, root, m) {
      if t[m].parent.Some? {
        assert !IsAncestorOrSelf(s, e, m);
        assert AttachedBelow(s, root, m);
        forall y | 0 <= y < |s| && IsAncestorOrSelf(s, y, m) ensures t[y].parent == s[y].parent {
          if IsAncestorOrSelf(s, e, y) {
            AncestorTransitive(s, e, y, m);
          }
        }
        AncestryAvoiding(s, t, root, m);
      }
    }
  }
  /**
   * The whole of model_row_deleted of the earlier adapter on the elements:
   * the row is deleted, everything stays under the root, and the root's rows
   * lose exactly e's subtree.
   */
  lemma DetachedRowDeleted(s: seq<Node>, t1: seq<Node>, t: seq<Node>, root: NodeId, e: NodeId)
    requires WellFormed(s) && WellFormed(t1) && WellFormed(t) && e < |s| && Parent(s, e).Some?
    requires t1 == RowEdits.RemoveFromParent(s, e) && TornDown(t1, t, e) && Rooted(s, root)
    ensures RowDeleted(s, t, e) && Rooted(t, root) && Below(t1, e) == Below(s, e)
    ensures forall x :: 0 <= x < |s| ==>
              (x in Flatten(t, root) <==> x in Flatten(s, root) && !IsAncestorOrSelf(s, e, x))
  {
    DetachThenTearDown(s, t1, t, e);
    RowDeletedKeepsRooted(s, t, e, root);
    BelowAfterDetach(s, t1, e);
    forall x | 0 <= x < |s|
      ensures x in Flatten(t, root) <==> x in Flatten(s, root) && !IsAncestorOrSelf(s, e, x)
    {
      RowDeletedListing(s, t, root, e, x);
    }
  }

  // ----- descendant counts ------------------------------------------------

  /** Counts are kept at every element that is neither in n's subtree nor above n. */
  predicate CountsKeptOff(s: seq<Node>, t: seq<Node>, n: NodeId)
    requires WellFormed(s) && n < |s|
  {
    |t| == |s| &&
    forall m :: 0 <= m < |s| && !IsAncestorOrSelf(s, n, m) && !IsAncestorOrSelf(s, m, n) ==>
      t[m].descendantCount == s[m].descendantCount
  }

  /** Tearing the next child c of n down touches no count off n's subtree and n's ancestors. */
  lemma CountsKeptOffStep(s: seq<Node>, u: seq<Node>, t: seq<Node>, n: NodeId, i: nat)
    requires WellFormed(s) && WellFormed(u) && n < |s| && i < |Children(s, n)|
    requires PartlyTorn(s, u, Children(s, n)[..i]) && CountsKeptOff(s, u, n)
    requires CountsKeptOff(u, t, Children(s, n)[i])
    ensures CountsKeptOff(s, t, n)
  {
    var cs := Children(s, n);
    var c := cs[i];
    TornOffNextSibling(s, u, n, i);
    ChildNotBelowDone(s, n, i);
    assert forall y :: 0 <= y < |s| && IsAncestorOrSelf(s, y, c) ==> u[y].parent == s[y].parent by {
      forall y | 0 <= y < |s| && IsAncestorOrSelf(s, y, c) ensures u[y].parent == s[y].parent {
        assert PartlyTornAt(s, u, cs[..i], y);
        if BelowDone(s, cs[..i], y) {
          var j :| 0 <= j < i && StrictlyBelow(s, cs[..i][j], y);
          AncestorTransitive(s, cs[j], y, c);
          assert false;
        }
      }
    }
    forall m | 0 <= m < |s| && !IsAncestorOrSelf(s, n, m) && !IsAncestorOrSelf(s, m, n)
      ensures t[m].descendantCount == s[m].descendantCount
    {
      SubtreeKept(s, u, c, m);
      if IsAncestorOrSelf(s, c, m) {
        ChildIsBelow(s, n, c, m);
      }
      AncestryAvoiding(s, u, m, c);
      assert !IsAncestorOrSelf(s, m, c) by {
        assert Parent(s, c) == Some(n);
      }
    }
  }

  /** Freeing n's sequence after its children were torn down touches no count off n's subtree and n's ancestors. */
  lemma CountsKeptOffFinish(s: seq<Node>, s1: seq<Node>, n: NodeId)
    requires WellFormed(s) && WellFormed(s1) && n < |s|
    requires PartlyTorn(s, s1, Children(s, n)) && CountsKeptOff(s, s1, n)
    ensures CountsKeptOff(s, RowEdits.RemoveAllChildren(s1, n), n)
  {
    var cs := Children(s, n);
    forall y | 0 <= y < |s| && IsAncestorOrSelf(s, y, n) ensures s1[y].parent == s[y].parent {
      assert PartlyTornAt(s, s1, cs, y);
      if BelowDone(s, cs, y) {
        var j :| 0 <= j < |cs| && StrictlyBelow(s, cs[j], y);
        ChildIsBelow(s, n, cs[j], cs[j]);
        AncestorIsOlder(s, n, cs[j]);
        AncestorIsOlder(s, cs[j], y);
        AncestorIsOlder(s, y, n);
        assert false;
      }
    }
    forall m | 0 <= m < |s| ensures IsAncestorOrSelf(s1, m, n) == IsAncestorOrSelf(s, m, n) {
      AncestryAvoiding(s, s1, m, n);
    }
  }

  /** removeFromParent lowers the count of e's former parent and of everything above it by one. */
  lemma RemoveFromParentCounts(s: seq<Node>, e: NodeId)
    requires WellFormed(s) && e < |s| && Parent(s, e).Some?
    ensures var t1 := RowEdits.RemoveFromParent(s, e);
            forall m :: 0 <= m < |s| ==>
              t1[m].descendantCount ==
                s[m].descendantCount - (if IsAncestorOrSelf(s, m, Parent(s, e).value) then 1 else 0)
  {
    var p := Parent(s, e).value;
    var k := PositionIn(Children(s, p), e);
    assert RowEdits.RemoveFromParent(s, e) == RowEdits.RemoveChild(s, p, e);
    assert RowEdits.RemoveChild(s, p, e) == RowEdits.RemoveChildAtIndex(s, p, k);
  }

  /**
   * The counts model_row_deleted of the earlier adapter leaves outside e's
   * subtree: e's former parent and everything above it lose one, for e alone
   * and not for the elements below e, and every other element keeps its count.
   */
  predicate CountsAfterDetach(s: seq<Node>, t: seq<Node>, e: NodeId)
    requires WellFormed(s) && e < |s| && Parent(s, e).Some?
  {
    |t| == |s| &&
    forall m :: 0 <= m < |s| && !IsAncestorOrSelf(s, e, m) ==>
      t[m].descendantCount ==
        s[m].descendantCount - (if IsAncestorOrSelf(s, m, Parent(s, e).value) then 1 else 0)
  }

  /** Taking e out of its parent and then tearing e down leaves those counts. */
  lemma DetachedCounts(s: seq<Node>, t1: seq<Node>, t: seq<Node>, e: NodeId)
    requires WellFormed(s) && WellFormed(t1) && e < |s| && Parent(s, e).Some?
    requires t1 == RowEdits.RemoveFromParent(s, e) && CountsKeptOff(t1, t, e)
    ensures CountsAfterDetach(s, t, e)
  {
    RemoveFromParentCounts(s, e);
    forall m | 0 <= m < |s| && !IsAncestorOrSelf(s, e, m) ensures t[m].descendantCount == t1[m].descendantCount {
      DetachedAncestry(s, t1, e, m);
      assert !IsAncestorOrSelf(t1, m, e) by {
        assert IsAncestorOrSelf(s, e, e);
        assert t1[e].parent.None?;
      }
    }
  }

  /**
   * So the earlier order breaks the count invariant whenever the deleted row
   * has children: e's former parent still counts the rows that were below e.
   */
  lemma DetachedMiscounts(s: seq<Node>, t: seq<Node>, e: NodeId)
    requires WellFormed(s) && WellFormed(t) && e < |s| && Parent(s, e).Some?
    requires RowDeleted(s, t, e) && CountsAfterDetach(s, t, e)
    requires Counted(s) && s[e].children.Some?
    ensures !CountedAt(t, Parent(s, e).value) && !Counted(t)
  {
    var p := Parent(s, e).value;
    var cs := Children(s, p);
    var k := PositionIn(cs, e);
    var rest := cs[..k] + cs[k + 1..];
    assert Children(t, p) == rest;
    SiblingsKeepCounts(s, t, e, rest);
    RowEdits.SpanSumSameCounts(s, t, rest);
    RowEdits.SpanSumRemoveAt(s, cs, k);
    assert CountedAt(s, p);
    ParentCountedAbove(s, e);
    assert !IsAncestorOrSelf(s, e, p) by {
      if IsAncestorOrSelf(s, e, p) {
        AncestorIsOlder(s, e, p);
      }
    }
    assert IsAncestorOrSelf(s, p, p);
    assert t[p].descendantCount == s[p].descendantCount - 1;
  }

  /** Under the count invariant a row with children counts more than nothing. */
  lemma ParentCountedAbove(s: seq<Node>, e: NodeId)
    requires WellFormed(s) && e < |s| && Counted(s) && s[e].children.Some?
    ensures s[e].descendantCount > 0
  {
    assert CountedAt(s, e) && NodeWellFormed(s, e);
    AllCountsNonNegative(s);
    SpanSumLowerBound(s, Children(s, e));
  }

  /** e's siblings are neither in e's subtree nor above e's parent, so their counts stay. */
  lemma SiblingsKeepCounts(s: seq<Node>, t: seq<Node>, e: NodeId, rest: seq<NodeId>)
    requires WellFormed(s) && e < |s| && Parent(s, e).Some? && CountsAfterDetach(s, t, e)
    requires forall i :: 0 <= i < |rest| ==> rest[i] in Children(s, Parent(s, e).value) && rest[i] != e
    ensures forall i :: 0 <= i < |rest| ==> rest[i] < |s| && t[rest[i]].descendantCount == s[rest[i]].descendantCount
  {
    var p := Parent(s, e).value;
    forall i | 0 <= i < |rest| ensures rest[i] < |s| && t[rest[i]].descendantCount == s[rest[i]].descendantCount {
      var x := rest[i];
      ChildIsBelow(s, p, x, x);
      AncestorIsOlder(s, p, x);
      if IsAncestorOrSelf(s, x, p) {
        AncestorIsOlder(s, x, p);
      }
      if IsAncestorOrSelf(s, e, x) {
        assert Parent(s, x) == Some(p);
        AncestorIsOlder(s, e, p);
      }
    }
  }
}

=== FILE: legacy_tree_view.dfy ===
/**
 * The earlier GailTreeView adapter (atk-cocoa): a fake root row element that
 * always exists, with one row element per materialised row below it; the
 * tree element's accessibility children (row and column elements), with the
 * visible rows and columns gathered from them; and an array of column
 * elements, one per tree view column.  Its row element calls mean what the
 * row element methods of the RowElements module say.
 */
module LegacyTreeView {
  import opened Wrappers
  import opened TreePaths
  import opened RowTree
  import RowEdits
  import opened RowElements
  import opened ViewState
  import opened TreeColumns
  import opened LegacyOrder
  import opened LegacyColumns
  import opened LegacyTeardown

  /** The path a row reference gives: a NULL reference gives no path, which has depth 0. */
  function RowPath(row: Option<Path>): Path
  {
    if row.Some? then row.value else []
  }

  /**
   * Filing a fresh detached element under the parent its path picks, at the
   * path's last index, keeps every attached element under the root; when
   * that index is within the parent's children, the element is found at its path.
   */
  lemma InsertUnderParentFor(s: seq<Node>, root: NodeId, path: Path, c: NodeId)
    requires WellFormed(s) && Rooted(s, root) && root < c && c + 1 == |s| && s[c].parent.None?
    requires ParentFor(s, root, path).Some?
    ensures var p := ParentFor(s, root, path).value;
            var idx: int := if path == [] then -1 else path[|path| - 1];
            p < c && Rooted(RowEdits.InsertChild(s, p, c, idx), root) &&
            (path != [] && path[|path| - 1] <= |Children(s, p)| ==>
               FindRow(RowEdits.InsertChild(s, p, c, idx), root, path) == Some(c))
  {
    var p := ParentFor(s, root, path).value;
    ParentForIsBelow(s, root, path);
    AncestorIsOlder(s, root, p);
    InsertKeepsRooted(s, root, p, c, if path == [] then -1 else path[|path| - 1]);
    if path != [] && path[|path| - 1] <= |Children(s, p)| {
      InsertedRowIsFound(s, root, path, c);
    }
  }

  class LegacyGailTreeView {
    const rows: RowForest
    /** rowRootNode: made by real_initialize and never dropped. */
    const rowRoot: NodeId
    /** The column array; NULL once the adapter is finalised. */
    var columns: Option<seq<ColumnElement>>
    /** The tree element's accessibility children. */
    var children: seq<Element>
    /** What gather_visible_rows_and_columns last set as the visible rows and columns. */
    var visibleRows: seq<Element>
    var visibleColumns: seq<Element>

    /** Every attached element lies below the root, and every column element is a child of the tree. */
    ghost predicate Valid()
      reads this, rows
    {
      WellFormed(rows.nodes) && Rooted(rows.nodes, rowRoot) &&
      (columns.Some? ==> forall c :: c in columns.value ==> ColumnItem(c) in children)
    }

    /** real_initialize: an empty column array and a fresh root element without a row. */
    constructor ()
      ensures Valid() && fresh(rows) && rows.nodes == [RowEdits.NewNode(None)] && rowRoot == 0
      ensures columns == Some([]) && children == [] && visibleRows == [] && visibleColumns == []
    {
      var forest := new RowForest();
      var root := forest.NewRow(None);
      rows := forest;
      rowRoot := root;
      columns := Some([]);
      children := [];
      visibleRows := [];
      visibleColumns := [];
      new;
      assert AttachedBelow(rows.nodes, rowRoot, 0);
    }

    /**
     * find_row_element_for_path, which is get_row_from_row_map: childAtPath:
     * on the root with the path's string finds the row the path leads to,
     * and nothing for the empty path.  A found row is in the root's rows.
     */
    function FindRowElementForPath(path: Path): (r: Option<NodeId>)
      requires Valid()
      reads this, rows
      ensures r == FindRow(rows.nodes, rowRoot, path)
      ensures r.Some? ==> rows.nodes[r.value].parent.Some? && r.value in Flatten(rows.nodes, rowRoot)
    {
      ChildAtPathOfFormat(rows.nodes, rowRoot, path);
      FoundRowIsListed(rows.nodes, rowRoot, path);
      ChildAtPath(rows.nodes, rowRoot, FormatPath(path))
    }

    /**
     * add_row_to_row_map: a row deeper than the top level goes below the
     * element its parent path leads to, and nowhere when there is none; any
     * other row goes below the root.  The element is inserted at the last
     * index of its path; once inserted within its parent's range it is found
     * at its path.
     */
    method AddRowToRowMap(element: NodeId) returns (parent: Option<NodeId>)
      requires Valid() && element + 1 == |rows.nodes| && rowRoot < element
      requires rows.nodes[element].parent.None?
      modifies rows
      ensures Valid()
      ensures var path := RowPath(old(rows.nodes)[element].row);
              parent == ParentFor(old(rows.nodes), rowRoot, path) &&
              (parent.None? ==> rows.nodes == old(rows.nodes)) &&
              (parent.Some? ==>
                 parent.value < element &&
                 rows.nodes == RowEdits.InsertChild(old(rows.nodes), parent.value, element,
                                                    if path == [] then -1 else path[|path| - 1]))
      ensures var path := RowPath(old(rows.nodes)[element].row);
              parent.Some? && path != [] && path[|path| - 1] <= |Children(old(rows.nodes), parent.value)| ==>
                FindRow(rows.nodes, rowRoot, path) == Some(element)
    {
      var path := RowPath(rows.nodes[element].row);
      ghost var s := rows.nodes;
      var target: Option<NodeId>;
      if |path| > 1 {
        var parentPath := ParentPath(path);
        ChildAtPathOfFormat(rows.nodes, rowRoot, parentPath);
        target := ChildAtPath(rows.nodes, rowRoot, FormatPath(parentPath));
      } else {
        target := Some(rowRoot);
      }
      assert target == ParentFor(s, rowRoot, path);
      if target.None? {
        return None;
      }
      var idx := LastPathIndex(FormatPath(path));
      LastPathIndexOfFormat(path);
      InsertUnderParentFor(s, rowRoot, path, element);
      rows.InsertChild(target.value, element, idx);
      parent := target;
    }

    /**
     * remove_all_children: every child's subtree is torn down in turn and
     * the child's row element leaves the tree element's children, then n's
     * sequence is freed.  Everything strictly below n is then detached and
     * childless, and its row elements are no longer children of the tree.
     */
    method RemoveAllChildren(n: NodeId)
      requires rows.Valid() && n < |rows.nodes|
      modifies this, rows
      decreases |rows.nodes| - n
      ensures rows.Valid() && TornDown(old(rows.nodes), rows.nodes, n) && CountsKeptOff(old(rows.nodes), rows.nodes, n)
      ensures children == DropRows(old(children), Below(old(rows.nodes), n))
      ensures columns == old(columns) && visibleRows == old(visibleRows) && visibleColumns == old(visibleColumns)
    {
      ghost var s := rows.nodes;
      ghost var c0 := children;
      var cs := Children(rows.nodes, n);
      PartlyTornStart(s);
      TornBelowStart(s);
      DropRowsNothing(c0);
      var i := 0;
      while i < |cs|
        invariant 0 <= i <= |cs|
        invariant rows.Valid() && PartlyTorn(s, rows.nodes, cs[..i]) && CountsKeptOff(s, rows.nodes, n)
        invariant children == DropRows(c0, TornBelow(s, cs[..i]))
        invariant columns == old(columns) && visibleRows == old(visibleRows) && visibleColumns == old(visibleColumns)
      {
        ghost var u := rows.nodes;
        ghost var before := TornBelow(s, cs[..i]);
        var child := cs[i];
        RemoveAllChildren(child);
        ghost var below := Below(u, child);
        children := DropRows(children, {child});
        TearDownStep(s, u, rows.nodes, n, i);
        CountsKeptOffStep(s, u, rows.nodes, n, i);
        TornBelowStep(s, u, n, i);
        DropRowsTwice(c0, before, below);
        DropRowsTwice(c0, before + below, {child});
        i := i + 1;
      }
      assert cs[..|cs|] == cs;
      ghost var s1 := rows.nodes;
      rows.RemoveAllChildren(n);
      RemoveAllChildrenFinishes(s, s1, n);
      CountsKeptOffFinish(s, s1, n);
      TornBelowAll(s, n);
    }

    /**
     * model_row_deleted: the row found at path leaves its parent, its row
     * element leaves the tree element's children, and its subtree is torn
     * down.  The links end up as deleting the row by tearing down first
     * leaves them, and the root's rows are those listed before less the
     * deleted row and everything below it.  The counts do not: the row's
     * former parent and everything above it count one row fewer, for the
     * deleted row alone (LegacyTeardown.DetachedMiscounts).
     */
    method ModelRowDeleted(path: Path)
      requires Valid()
      modifies this, rows
      ensures Valid()
      ensures columns == old(columns) && visibleRows == old(visibleRows) && visibleColumns == old(visibleColumns)
      ensures old(FindRowElementForPath(path)).None? ==> rows.nodes == old(rows.nodes) && children == old(children)
      ensures old(FindRowElementForPath(path)).Some? ==>
                var e := old(FindRowElementForPath(path)).value;
                RowDeleted(old(rows.nodes), rows.nodes, e) && CountsAfterDetach(old(rows.nodes), rows.nodes, e) &&
                children == DropRows(old(children), {e} + Below(old(rows.nodes), e)) &&
                forall x :: 0 <= x < |rows.nodes| ==>
                  (x in Flatten(rows.nodes, rowRoot) <==>
                   x in Flatten(old(rows.nodes), rowRoot) && !IsAncestorOrSelf(old(rows.nodes), e, x))
    {
      var rowElement := FindRowElementForPath(path);
      if rowElement.None? {
        return;
      }
      var e := rowElement.value;
      ghost var s := rows.nodes;
      ghost var c0 := children;
      rows.RemoveFromParent(e);
      ghost var t1 := rows.nodes;
      children := DropRows(children, {e});
      RemoveAllChildren(e);
      DetachedRowDeleted(s, t1, rows.nodes, rowRoot, e);
      DetachedCounts(s, t1, rows.nodes, e);
      DropRowsTwice(c0, {e}, Below(t1, e));
      DropRowsKeepsNonRows(c0, {e} + Below(s, e));
    }

    /**
     * model_rows_reordered: the root for the empty path, otherwise the row
     * found at path, takes its children in the new order, and nothing
     * happens when no row is found; the root's rows stay the same set.
     */
    method ModelRowsReordered(path: Path, order: seq<int>)
      requires Valid()
      requires var target := if |path| > 0 then FindRowElementForPath(path) else Some(rowRoot);
               target.Some? ==>
                 |Children(rows.nodes, target.value)| <= |order| &&
                 RowEdits.OrderDistinct(order, |Children(rows.nodes, target.value)|)
      modifies rows
      ensures Valid()
      ensures var target := if |path| > 0 then old(FindRowElementForPath(path)) else Some(rowRoot);
              (target.None? ==> rows.nodes == old(rows.nodes)) &&
              (target.Some? ==>
                 rows.nodes == RowEdits.ReorderChildren(old(rows.nodes), target.value, order) &&
                 forall x :: 0 <= x < |rows.nodes| ==>
                   (x in Flatten(rows.nodes, rowRoot) <==> x in Flatten(old(rows.nodes), rowRoot)))
    {
      var parentElement := if |path| > 0 then FindRowElementForPath(path) else Some(rowRoot);
      if parentElement.None? {
        return;
      }
      ReorderKeepsRooted(rows.nodes, rowRoot, parentElement.value, order);
      rows.ReorderChildrenToNewIndicies(parentElement.value, order);
    }

    // ----- the tree element's children ----------------------------------------------

    /** sort_child_elements: the children are put in row_column_index_sort order, none gained or lost. */
    method SortChildElements()
      requires Valid()
      modifies this
      ensures Valid() && Sorted(children) && multiset(children) == multiset(old(children))
      ensures columns == old(columns) && visibleRows == old(visibleRows) && visibleColumns == old(visibleColumns)
    {
      var sorted: seq<Element> := [];
      var i := 0;
      while i < |children|
        invariant 0 <= i <= |children|
        invariant Sorted(sorted) && multiset(sorted) == multiset(children[..i])
        invariant unchanged(this)
      {
        InsertSorted(sorted, children[i]);
        sorted := Insert(sorted, children[i]);
        assert children[..i + 1] == children[..i] + [children[i]];
        i := i + 1;
      }
      assert children[..|children|] == children;
      SameMembers(children, sorted);
      children := sorted;
    }

    /**
     * gather_visible_rows_and_columns: the row children, in order, become
     * the visible rows and the column children the visible columns; after a
     * sort the children are exactly the visible rows followed by the rest.
     */
    method GatherVisibleRowsAndColumns()
      requires Valid()
      modifies this
      ensures Valid() && visibleRows == Rows(children) && visibleColumns == Columns(children)
      ensures children == old(children) && columns == old(columns)
      ensures Sorted(children) ==> children == visibleRows + NonRows(children)
    {
      var foundRows: seq<Element> := [];
      var foundColumns: seq<Element> := [];
      var i := 0;
      while i < |children|
        invariant 0 <= i <= |children|
        invariant foundRows == Rows(children[..i]) && foundColumns == Columns(children[..i])
      {
        var e := children[i];
        assert children[..i + 1][..i] == children[..i];
        if e.RowItem? {
          foundRows := foundRows + [e];
        } else if e.ColumnItem? {
          foundColumns := foundColumns + [e];
        }
        i := i + 1;
      }
      assert children[..|children|] == children;
      visibleRows := foundRows;
      visibleColumns := foundColumns;
      if Sorted(children) {
        SortedSplits(children);
      }
    }

    // ----- the column array --------------------------------------------------------------

    /**
     * The first half of columns_changed: each element of the column array
     * leaves the tree element's children, then the array is emptied.
     */
    method RemoveColumnElements()
      modifies this
      ensures columns == if old(columns).None? then None else Some([])
      ensures children == if old(columns).None? then old(children) else RemoveEach(old(children), Items(old(columns).value))
      ensures visibleRows == old(visibleRows) && visibleColumns == old(visibleColumns)
    {
      if columns.Some? {
        var realColumns := columns.value;
        var k := 0;
        while k < |realColumns|
          invariant 0 <= k <= |realColumns|
          invariant children == RemoveEach(old(children), Items(realColumns)[..k])
          invariant columns == old(columns) && visibleRows == old(visibleRows) && visibleColumns == old(visibleColumns)
        {
          assert Items(realColumns)[..k + 1][..k] == Items(realColumns)[..k];
          children := Without(children, ColumnItem(realColumns[k]));
          k := k + 1;
        }
        assert Items(realColumns)[..k] == Items(realColumns);
        columns := Some([]);
      }
    }

    /**
     * The second half of columns_changed: one element per tree view
     * column, numbered in order, goes into the (emptied) array, if there is
     * one, and joins the children.
     */
    method AddColumnElements(tv: seq<ColumnId>)
      requires columns.None? || columns == Some([])
      modifies this
      ensures columns == if old(columns).None? then None else Some(Numbered(tv))
      ensures children == old(children) + Items(Numbered(tv))
      ensures visibleRows == old(visibleRows) && visibleColumns == old(visibleColumns)
    {
      var idx := 0;
      while idx < |tv|
        invariant 0 <= idx <= |tv|
        invariant columns == if old(columns).None? then None else Some(Numbered(tv[..idx]))
        invariant children == old(children) + Items(Numbered(tv[..idx]))
        invariant visibleRows == old(visibleRows) && visibleColumns == old(visibleColumns)
      {
        var tc := ColumnElement(tv[idx], idx);
        NumberedSnoc(tv, idx);
        if columns.Some? {
          columns := Some(columns.value + [tc]);
        }
        children := children + [ColumnItem(tc)];
        idx := idx + 1;
      }
      assert tv[..|tv|] == tv;
    }

    /**
     * columns_changed: with an array, each old column element leaves the
     * tree element's children and the array is emptied; then one element
     * per tree view column, numbered in tree-view order, is added to the
     * array (a NULL array stays NULL) and to the children, which are sorted.
     */
    method ColumnsChanged(tv: seq<ColumnId>)
      requires Valid()
      modifies this
      ensures Valid() && Sorted(children)
      ensures visibleRows == old(visibleRows) && visibleColumns == old(visibleColumns)
      ensures columns == if old(columns).None? then None else Some(Numbered(tv))
      ensures forall x :: x in children <==>
                (x in old(children) && !(old(columns).Some? && x in Items(old(columns).value))) ||
                x in Items(Numbered(tv))
    {
      ghost var c0 := children;
      ghost var cols0 := columns;
      RemoveColumnElements();
      ghost var c1 := children;
      AddColumnElements(tv);
      NumberedListed(tv);
      ghost var c2 := children;
      SortChildElements();
      SameMembers(c2, children);
      forall x ensures x in children <==>
                (x in c0 && !(cols0.Some? && x in Items(cols0.value))) || x in Items(Numbered(tv))
      {
        if cols0.Some? {
          RemoveEachMembers(c0, Items(cols0.value), x);
        }
      }
    }

    /** find_column_element_for_column: the first array element that stands for column; none without an array. */
    method FindColumnElementForColumn(column: ColumnId) returns (r: Option<ColumnElement>)
      ensures r == if columns.None? then None else FirstMatch(columns.value, column)
    {
      var cols := if columns.Some? then columns.value else [];
      var i := 0;
      while i < |cols|
        invariant 0 <= i <= |cols|
        invariant FirstMatch(cols, column) == FirstMatch(cols[i..], column)
      {
        if cols[i].column == column {
          return Some(cols[i]);
        }
        assert cols[i..][1..] == cols[i + 1..];
        i := i + 1;
      }
      return None;
    }
  }
}

=== FILE: model_tree.dfy ===
/**
 * The GtkTreeModel and GtkTreeView state the tree view adapter reads: the
 * model's rows as an immutable tree, the set of expanded row paths, and the
 * rows check_visibility accepts.
 */
module ModelTree {
  import opened Wrappers
  import opened TreePaths

  /** A model row with the rows below it, in model order. */
  datatype ModelRow = ModelRow(children: seq<ModelRow>)

  /** The row at path p below a level of rows (the top level when level is the whole model). */
  function RowAt(level: seq<ModelRow>, p: Path): Option<ModelRow>
    decreases |p|
  {
    if p == [] || p[0] >= |level| then None
    else if |p| == 1 then Some(level[p[0]])
    else RowAt(level[p[0]].children, p[1..])
  }

  /** How many rows gtk_tree_model_iter_children and iter_next visit below path p (the top level for []). */
  function ChildCount(model: seq<ModelRow>, p: Path): nat
  {
    if p == [] then |model|
    else match RowAt(model, p)
      case None => 0
      case Some(row) => |row.children|
  }

  /**
   * check_visibility: a top-level row is visible; any other row is visible
   * when its parent is expanded and visible.
   */
  predicate CheckVisibility(p: Path, expanded: set<Path>)
    requires p != []
    decreases |p|
  {
    |p| == 1 || (ParentPath(p) in expanded && CheckVisibility(ParentPath(p), expanded))
  }

  /** A row is visible exactly when every proper ancestor path is expanded. */
  lemma {:induction false} CheckVisibilityMeans(p: Path, expanded: set<Path>)
    requires p != []
    ensures CheckVisibility(p, expanded) <==> forall k :: 1 <= k < |p| ==> p[..k] in expanded
    decreases |p|
  {
    if |p| > 1 {
      var q := ParentPath(p);
      CheckVisibilityMeans(q, expanded);
      assert forall k :: 1 <= k < |q| ==> q[..k] == p[..k];
      assert p[..|q|] == q;
    }
  }

  /** add_iter_rows_recursive descends into a row when it has children and is expanded. */
  predicate Opens(row: ModelRow, p: Path, expanded: set<Path>)
  {
    |row.children| > 0 && p in expanded
  }

  /** The paths add_iter_rows_recursive visits from the first row of level, in visiting order. */
  function VisibleRows(level: seq<ModelRow>, prefix: Path, expanded: set<Path>): seq<Path>
    decreases level, 1
  {
    VisibleFrom(level, prefix, expanded, 0)
  }

  /** The paths visited from sibling i of level onwards. */
  function VisibleFrom(level: seq<ModelRow>, prefix: Path, expanded: set<Path>, i: nat): seq<Path>
    decreases level, 0, |level| - i
  {
    if i >= |level| then []
    else
      var p := prefix + [i];
      assert level[i] in level;
      [p] + (if Opens(level[i], p, expanded) then VisibleRows(level[i].children, p, expanded) else [])
      + VisibleFrom(level, prefix, expanded, i + 1)
  }

  /** The paths visiting row i of level yields: the row itself, then the rows below it when it opens. */
  function Visit(level: seq<ModelRow>, prefix: Path, expanded: set<Path>, i: nat): seq<Path>
    requires i < |level|
  {
    var p := prefix + [i];
    assert level[i] in level;
    [p] + (if Opens(level[i], p, expanded) then VisibleRows(level[i].children, p, expanded) else [])
  }

  /** The paths visited for the first i rows of level. */
  function VisitedBefore(level: seq<ModelRow>, prefix: Path, expanded: set<Path>, i: nat): seq<Path>
    requires i <= |level|
  {
    if i == 0 then [] else VisitedBefore(level, prefix, expanded, i - 1) + Visit(level, prefix, expanded, i - 1)
  }

  /** What the first i rows yield, followed by what the rest yield, is the whole visiting order. */
  lemma {:induction false} VisitedThenRest(level: seq<ModelRow>, prefix: Path, expanded: set<Path>, i: nat)
    requires i <= |level|
    ensures VisitedBefore(level, prefix, expanded, i) + VisibleFrom(level, prefix, expanded, i) ==
              VisibleRows(level, prefix, expanded)
  {
    if i > 0 {
      var before := VisitedBefore(level, prefix, expanded, i - 1);
      var here := Visit(level, prefix, expanded, i - 1);
      var rest := VisibleFrom(level, prefix, expanded, i);
      VisitedThenRest(level, prefix, expanded, i - 1);
      assert VisibleFrom(level, prefix, expanded, i - 1) == here + rest;
      assert before + (here + rest) == before + here + rest;
    }
  }

  /** Once every row of level is visited, the paths visited are the whole visiting order. */
  lemma VisitedAll(level: seq<ModelRow>, prefix: Path, expanded: set<Path>)
    ensures VisitedBefore(level, prefix, expanded, |level|) == VisibleRows(level, prefix, expanded)
  {
    VisitedThenRest(level, prefix, expanded, |level|);
    assert VisibleFrom(level, prefix, expanded, |level|) == [];
  }

  /** q lies strictly below prefix, names a row of level, and every path between them is expanded. */
  predicate ShownBelow(level: seq<ModelRow>, prefix: Path, expanded: set<Path>, q: Path)
  {
    |prefix| < |q| && q[..|prefix|] == prefix && RowAt(level, q[|prefix|..]).Some? &&
    forall k :: |prefix| < k < |q| ==> q[..k] in expanded
  }

  lemma {:induction false} VisibleFromMembers(level: seq<ModelRow>, prefix: Path, expanded: set<Path>, i: nat, q: Path)
    ensures q in VisibleFrom(level, prefix, expanded, i) <==>
              ShownBelow(level, prefix, expanded, q) && q[|prefix|] >= i
    decreases level, |level| - i
  {
    if i < |level| {
      var p := prefix + [i];
      assert level[i] in level;
      VisibleFromMembers(level, prefix, expanded, i + 1, q);
      VisibleFromMembers(level[i].children, p, expanded, 0, q);
      var n := |prefix|;
      if ShownBelow(level, prefix, expanded, q) && q[n] == i && q != p {
        ShownBelowRow(level, prefix, expanded, i, q);
      }
      if ShownBelow(level[i].children, p, expanded, q) && Opens(level[i], p, expanded) {
        ShownBelowParent(level, prefix, expanded, i, q);
      }
      if q == p {
        assert q[|prefix|..] == [i];
      }
    }
  }

  /** A path shown strictly below row i of level is shown below that row's children, and the row opens. */
  lemma ShownBelowRow(level: seq<ModelRow>, prefix: Path, expanded: set<Path>, i: nat, q: Path)
    requires i < |level| && ShownBelow(level, prefix, expanded, q)
    requires q[|prefix|] == i && q != prefix + [i]
    ensures ShownBelow(level[i].children, prefix + [i], expanded, q) && Opens(level[i], prefix + [i], expanded)
  {
    var n := |prefix|;
    var p := prefix + [i];
    var r := q[n..];
    assert r[0] == i && |r| > 1;
    assert q[n + 1..] == r[1..];
    assert q[..n + 1] == p;
    assert RowAt(level[i].children, r[1..]).Some?;
    assert p in expanded;
  }

  /** A path shown below the children of an open row i is shown below level, under i. */
  lemma ShownBelowParent(level: seq<ModelRow>, prefix: Path, expanded: set<Path>, i: nat, q: Path)
    requires i < |level| && ShownBelow(level[i].children, prefix + [i], expanded, q)
    requires Opens(level[i], prefix + [i], expanded)
    ensures ShownBelow(level, prefix, expanded, q) && q[|prefix|] == i
  {
    var n := |prefix|;
    var p := prefix + [i];
    assert q[..n] == p[..n] == prefix;
    assert q[n] == p[n] == i;
    assert q[n..] == [i] + q[n + 1..];
    assert q[n + 1..] == q[|p|..];
    forall k | n < k < |q| ensures q[..k] in expanded {
      if k == n + 1 {
        assert q[..k] == p;
      }
    }
  }

  /** add_iter_rows_recursive visits from the first row exactly the rows check_visibility accepts. */
  lemma VisibleRowsAreVisible(model: seq<ModelRow>, expanded: set<Path>, q: Path)
    ensures q in VisibleRows(model, [], expanded) <==>
              q != [] && RowAt(model, q).Some? && CheckVisibility(q, expanded)
  {
    VisibleFromMembers(model, [], expanded, 0, q);
    if q != [] {
      CheckVisibilityMeans(q, expanded);
      assert q[0..] == q;
    }
  }
}

=== FILE: row_edits.dfy ===
/**
 * The edits the row element methods make to the state, as functions of the
 * state before them, and what each edit keeps: the links stay well formed,
 * and the descendant-count invariant survives exactly when the row that is
 * added or removed has no materialised descendants of its own.
 */
module RowEdits {
  import opened Wrappers
  import opened TreePaths
  import opened RowTree

  function Adjusted(node: Node, delta: int): Node
  {
    node.(descendantCount := node.descendantCount + delta)
  }

  /** adjustDescendantCountBy: applied to n: n and each of its ancestors move by delta. */
  function Bump(nodes: seq<Node>, n: NodeId, delta: int): (r: seq<Node>)
    requires WellFormed(nodes) && n < |nodes|
    ensures SameLinks(nodes, r) && WellFormed(r)
    ensures forall m :: 0 <= m < |r| ==>
              r[m] == (if IsAncestorOrSelf(nodes, m, n) then Adjusted(nodes[m], delta) else nodes[m])
  {
    var r := seq(|nodes|, m requires 0 <= m < |nodes| =>
                  if IsAncestorOrSelf(nodes, m, n) then Adjusted(nodes[m], delta) else nodes[m]);
    WellFormedSameLinks(nodes, r);
    r
  }

  /** Every count is right except n's, which is delta short of the sum over its children. */
  predicate CountedExcept(nodes: seq<Node>, n: NodeId, delta: int)
    requires WellFormed(nodes) && n < |nodes|
  {
    (forall m :: 0 <= m < |nodes| && m != n ==> CountedAt(nodes, m)) &&
    nodes[n].descendantCount + delta == SpanSum(nodes, Children(nodes, n))
  }

  /** Changing one count by delta changes a sum it takes part in by delta. */
  lemma {:induction false} SpanSumAdjustOne(nodes: seq<Node>, cs: seq<NodeId>, n: NodeId, delta: int)
    requires n < |nodes| && NoDup(cs)
    requires forall i :: 0 <= i < |cs| ==> cs[i] < |nodes|
    ensures SpanSum(nodes[n := Adjusted(nodes[n], delta)], cs) ==
            SpanSum(nodes, cs) + (if n in cs then delta else 0)
  {
    if cs != [] {
      NoDupTail(cs);
      SpanSumAdjustOne(nodes, cs[1..], n, delta);
      assert n in cs <==> n == cs[0] || n in cs[1..];
    }
  }

  /** After moving n's own count by delta, the only wrong count left is its parent's. */
  lemma AdjustOneCount(nodes: seq<Node>, n: NodeId, delta: int)
    requires WellFormed(nodes) && n < |nodes| && CountedExcept(nodes, n, delta)
    ensures var a := nodes[n := Adjusted(nodes[n], delta)];
            WellFormed(a) &&
            (nodes[n].parent.None? ==> Counted(a)) &&
            (nodes[n].parent.Some? ==> nodes[n].parent.value < n && CountedExcept(a, nodes[n].parent.value, delta))
  {
    var a := nodes[n := Adjusted(nodes[n], delta)];
    assert SameLinks(nodes, a);
    WellFormedSameLinks(nodes, a);
    var q := Parent(nodes, n);
    forall m | 0 <= m < |a| && (q.None? || m != q.value)
      ensures CountedAt(a, m)
    {
      var cs := Children(nodes, m);
      ChildrenNoDup(nodes, m);
      SpanSumAdjustOne(nodes, cs, n, delta);
      if n in cs {
        assert false;
      }
      if m != n {
        assert CountedAt(nodes, m);
      }
    }
    if q.Some? {
      var p := q.value;
      ChildrenNoDup(nodes, p);
      SpanSumAdjustOne(nodes, Children(nodes, p), n, delta);
      assert CountedAt(nodes, p);
    }
  }

  /** One step of the walk: adjusting n, then bumping from its parent, is bumping from n. */
  lemma BumpStep(nodes: seq<Node>, n: NodeId, delta: int)
    requires WellFormed(nodes) && n < |nodes|
    ensures var a := nodes[n := Adjusted(nodes[n], delta)];
            WellFormed(a) &&
            (nodes[n].parent.None? ==> Bump(nodes, n, delta) == a) &&
            (nodes[n].parent.Some? ==> nodes[n].parent.value < n &&
                                       Bump(a, nodes[n].parent.value, delta) == Bump(nodes, n, delta))
  {
    var a := nodes[n := Adjusted(nodes[n], delta)];
    assert SameLinks(nodes, a);
    WellFormedSameLinks(nodes, a);
    var q := Parent(nodes, n);
    if q.None? {
      forall m | 0 <= m < |nodes| ensures IsAncestorOrSelf(nodes, m, n) == (m == n) { }
      assert Bump(nodes, n, delta) == a;
    } else {
      var p := q.value;
      forall m | 0 <= m < |nodes|
        ensures Bump(a, p, delta)[m] == Bump(nodes, n, delta)[m]
      {
        AncestorsSameLinks(nodes, a, m, p);
        if m == n && IsAncestorOrSelf(nodes, m, p) {
          AncestorIsOlder(nodes, m, p);
        }
      }
    }
  }

  /**
   * The walk adjustDescendantCountBy: makes repairs a state whose only wrong
   * count is n's, short by delta.
   */
  lemma {:induction false} BumpRestoresCount(nodes: seq<Node>, n: NodeId, delta: int)
    requires WellFormed(nodes) && n < |nodes| && CountedExcept(nodes, n, delta)
    ensures Counted(Bump(nodes, n, delta))
    decreases n
  {
    AdjustOneCount(nodes, n, delta);
    BumpStep(nodes, n, delta);
    if nodes[n].parent.Some? {
      BumpRestoresCount(nodes[n := Adjusted(nodes[n], delta)], nodes[n].parent.value, delta);
    }
  }

  // ----- initWithDelegate:treeRow:treeView: ----------------------------------

  /** A freshly initialised element: no sequence, no parent, no descendants, dirty. */
  function NewNode(row: Option<Path>): Node
  {
    Node(None, None, 0, true, row)
  }

  /** Allocating an element gives it the next handle and leaves every other element as it was. */
  function AddRow(nodes: seq<Node>, row: Option<Path>): (r: seq<Node>)
    requires WellFormed(nodes)
    ensures WellFormed(r) && |r| == |nodes| + 1 && r[..|nodes|] == nodes && r[|nodes|] == NewNode(row)
    ensures forall m :: 0 <= m < |nodes| ==> Children(r, m) == Children(nodes, m)
    ensures Children(r, |nodes|) == [] && r[|nodes|].parent.None?
  {
    var r := nodes + [NewNode(row)];
    forall m | 0 <= m < |r| ensures NodeWellFormed(r, m) {
      if m < |nodes| {
        assert NodeWellFormed(nodes, m);
        if r[m].parent.Some? {
          assert NodeWellFormed(nodes, r[m].parent.value);
        }
      }
    }
    r
  }

  /** A new element has no descendants, so the counts stay right. */
  lemma AddRowKeepsCounts(nodes: seq<Node>, row: Option<Path>)
    requires WellFormed(nodes) && Counted(nodes)
    ensures Counted(AddRow(nodes, row))
  {
    var r := AddRow(nodes, row);
    forall m | 0 <= m < |r| ensures CountedAt(r, m) {
      if m < |nodes| {
        assert CountedAt(nodes, m);
        SpanSumSameCounts(nodes, r, Children(nodes, m));
      }
    }
  }

  // ----- insertChild:atIndex: / appendChild: -------------------------------

  /** g_sequence_get_iter_at_pos: a position outside the sequence gives the end. */
  function InsertPosition(count: nat, idx: int): (pos: nat)
    ensures pos <= count
    ensures pos == idx || (pos == count && !(0 <= idx < count))
  {
    if 0 <= idx < count then idx else count
  }

  /** Links child c into p's sequence at pos and points c at p; counts are untouched. */
  function Attach(nodes: seq<Node>, p: NodeId, c: NodeId, pos: nat): (r: seq<Node>)
    requires WellFormed(nodes) && p < c < |nodes| && nodes[c].parent.None?
    requires pos <= |Children(nodes, p)|
    ensures WellFormed(r) && |r| == |nodes|
    ensures var cs := Children(nodes, p);
            Children(r, p) == cs[..pos] + [c] + cs[pos..]
    ensures r[c].parent == Some(p)
    ensures forall m :: 0 <= m < |r| && m != p && m != c ==> r[m] == nodes[m]
    ensures forall m :: 0 <= m < |r| ==> r[m].descendantCount == nodes[m].descendantCount
    ensures forall m :: 0 <= m < |r| ==> Children(r, m) == if m == p then Children(r, p) else Children(nodes, m)
  {
    var cs := Children(nodes, p);
    var ncs := cs[..pos] + [c] + cs[pos..];
    var r := nodes[p := nodes[p].(children := Some(ncs))][c := nodes[c].(parent := Some(p))];
    AttachWellFormed(nodes, p, c, pos, r);
    r
  }

  lemma AttachWellFormed(nodes: seq<Node>, p: NodeId, c: NodeId, pos: nat, r: seq<Node>)
    requires WellFormed(nodes) && p < c < |nodes| && nodes[c].parent.None?
    requires pos <= |Children(nodes, p)|
    requires var cs := Children(nodes, p);
             r == nodes[p := nodes[p].(children := Some(cs[..pos] + [c] + cs[pos..]))][c := nodes[c].(parent := Some(p))]
    ensures WellFormed(r)
  {
    var cs := Children(nodes, p);
    var ncs := cs[..pos] + [c] + cs[pos..];
    DetachedIsUnlisted(nodes, c);
    assert c !in cs;
    ChildrenNoDup(nodes, p);
    InsertedNoDup(cs, pos, c);
    assert forall x :: x in cs ==> x in ncs by {
      forall x | x in cs ensures x in ncs {
        var i :| 0 <= i < |cs| && cs[i] == x;
        if i < pos { assert ncs[i] == x; } else { assert ncs[i + 1] == x; }
      }
    }
    forall i | 0 <= i < |ncs| ensures p < ncs[i] < |r| && r[ncs[i]].parent == Some(p) {
      if i < pos { assert ncs[i] == cs[i]; }
      else if i > pos { assert ncs[i] == cs[i - 1]; }
    }
    forall m | 0 <= m < |r| ensures NodeWellFormed(r, m) {
      assert NodeWellFormed(nodes, m);
      if m != p && m != c {
        AttachKeepsOther(nodes, p, c, r, m);
      } else if m == p {
        if r[p].parent.Some? {
          var g := r[p].parent.value;
          assert NodeWellFormed(nodes, g);
        }
      } else {
        if r[c].children.Some? {
          var ms := r[c].children.value;
          forall i | 0 <= i < |ms| ensures r[ms[i]] == nodes[ms[i]] {
            assert c < ms[i];
          }
        }
      }
    }
  }

  /** A detached element is in nobody's sequence: its parent pointer would name the owner. */
  lemma DetachedIsUnlisted(nodes: seq<Node>, c: NodeId)
    requires WellFormed(nodes) && c < |nodes| && nodes[c].parent.None?
    ensures forall m, i :: 0 <= m < |nodes| && nodes[m].children.Some? && 0 <= i < |nodes[m].children.value| ==>
              nodes[m].children.value[i] != c
  {
    forall m, i | 0 <= m < |nodes| && nodes[m].children.Some? && 0 <= i < |nodes[m].children.value|
      ensures nodes[m].children.value[i] != c
    {
      assert NodeWellFormed(nodes, m);
    }
  }

  /** Putting an element that is not yet there into a sequence without repeats keeps it without repeats. */
  lemma InsertedNoDup(cs: seq<NodeId>, pos: nat, c: NodeId)
    requires NoDup(cs) && c !in cs && pos <= |cs|
    ensures NoDup(cs[..pos] + [c] + cs[pos..])
  {
    var ncs := cs[..pos] + [c] + cs[pos..];
    NoDupElim(cs);
    forall i, j | 0 <= i < j < |ncs| ensures ncs[i] != ncs[j] {
      if i < pos && j > pos {
        assert ncs[i] == cs[i] && ncs[j] == cs[j - 1];
      } else if i < pos && j == pos {
        assert ncs[i] == cs[i];
      } else if i == pos {
        assert ncs[j] == cs[j - 1];
      } else if j < pos {
        assert ncs[i] == cs[i] && ncs[j] == cs[j];
      } else {
        assert ncs[i] == cs[i - 1] && ncs[j] == cs[j - 1];
      }
    }
    NoDupIntro(ncs);
  }

  /** An element other than p and c keeps its links, and so its well-formedness. */
  lemma AttachKeepsOther(nodes: seq<Node>, p: NodeId, c: NodeId, r: seq<Node>, m: NodeId)
    requires WellFormed(nodes) && p < c < |nodes| && m < |nodes| && m != p && m != c
    requires forall x, i :: 0 <= x < |nodes| && nodes[x].children.Some? && 0 <= i < |nodes[x].children.value| ==>
               nodes[x].children.value[i] != c
    requires |r| == |nodes| && r[m] == nodes[m]
    requires forall x :: 0 <= x < |r| && x != c ==> r[x].parent == nodes[x].parent
    requires forall x :: 0 <= x < |r| && x != p ==> r[x].children == nodes[x].children
    requires r[p].children.Some?
    requires nodes[p].children.Some? ==> forall x :: x in nodes[p].children.value ==> x in r[p].children.value
    ensures NodeWellFormed(r, m)
  {
    assert NodeWellFormed(nodes, m);
    if r[m].parent.Some? {
      var g := r[m].parent.value;
      assert NodeWellFormed(nodes, g);
    }
    if r[m].children.Some? {
      var ms := r[m].children.value;
      forall i | 0 <= i < |ms| ensures r[ms[i]].parent == nodes[ms[i]].parent {
        assert ms[i] != c;
      }
    }
  }

  /**
   * insertChild:atIndex:: the child goes in at idx, or at the end when idx is
   * outside the sequence, it points back at p, and p and every ancestor of p
   * count one more descendant.
   */
  function InsertChild(nodes: seq<Node>, p: NodeId, c: NodeId, idx: int): (r: seq<Node>)
    requires WellFormed(nodes) && p < c < |nodes| && nodes[c].parent.None?
    ensures WellFormed(r) && |r| == |nodes|
    ensures var cs := Children(nodes, p);
            var pos := InsertPosition(|cs|, idx);
            Children(r, p) == cs[..pos] + [c] + cs[pos..]
    ensures r[c].parent == Some(p)
  {
    var linked := Attach(nodes, p, c, InsertPosition(|Children(nodes, p)|, idx));
    var r := Bump(linked, p, 1);
    WellFormedSameLinks(linked, r);
    r
  }

  /**
   * What insertChild:atIndex: leaves alone: every other sequence, every other
   * parent pointer, every row path and dirty flag; only p and its ancestors
   * count one more descendant.
   */
  lemma InsertChildFrame(nodes: seq<Node>, p: NodeId, c: NodeId, idx: int)
    requires WellFormed(nodes) && p < c < |nodes| && nodes[c].parent.None?
    ensures var r := InsertChild(nodes, p, c, idx);
            (forall m :: 0 <= m < |r| && m != p ==> Children(r, m) == Children(nodes, m)) &&
            (forall m :: 0 <= m < |r| && m != c ==> r[m].parent == nodes[m].parent) &&
            (forall m :: 0 <= m < |r| ==> r[m].row == nodes[m].row && r[m].rowIsDirty == nodes[m].rowIsDirty) &&
            forall m :: 0 <= m < |r| ==>
              r[m].descendantCount == nodes[m].descendantCount + (if IsAncestorOrSelf(nodes, m, p) then 1 else 0)
  {
    var linked := Attach(nodes, p, c, InsertPosition(|Children(nodes, p)|, idx));
    forall m | 0 <= m < |nodes| ensures IsAncestorOrSelf(linked, m, p) == IsAncestorOrSelf(nodes, m, p) {
      AncestryKeptBelow(nodes, linked, m, p, c);
    }
  }

  /** Ancestry of elements older than c does not see a change to c's parent pointer. */
  lemma {:induction false} AncestryKeptBelow(s: seq<Node>, t: seq<Node>, a: NodeId, m: NodeId, c: NodeId)
    requires WellFormed(s) && WellFormed(t) && |s| <= |t| && m < c <= |s|
    requires forall x :: 0 <= x < c ==> t[x].parent == s[x].parent
    ensures IsAncestorOrSelf(t, a, m) == IsAncestorOrSelf(s, a, m)
    decreases m
  {
    if Parent(s, m).Some? {
      AncestryKeptBelow(s, t, a, Parent(s, m).value, c);
    }
  }

  /** Inserting a row without descendants of its own keeps every count right. */
  lemma InsertChildKeepsCounts(nodes: seq<Node>, p: NodeId, c: NodeId, idx: int)
    requires WellFormed(nodes) && Counted(nodes) && p < c < |nodes| && nodes[c].parent.None?
    requires nodes[c].descendantCount == 0
    ensures Counted(InsertChild(nodes, p, c, idx))
  {
    var pos := InsertPosition(|Children(nodes, p)|, idx);
    var linked := Attach(nodes, p, c, pos);
    AttachLeavesOneShort(nodes, p, c, pos);
    BumpRestoresCount(linked, p, 1);
    forall m | 0 <= m < |nodes| ensures IsAncestorOrSelf(linked, m, p) == IsAncestorOrSelf(nodes, m, p) {
      AncestryKeptBelow(nodes, linked, m, p, c);
    }
    assert InsertChild(nodes, p, c, idx) == Bump(linked, p, 1);
  }

  /** Right after the pointers are set, only p's count is one short. */
  lemma AttachLeavesOneShort(nodes: seq<Node>, p: NodeId, c: NodeId, pos: nat)
    requires WellFormed(nodes) && Counted(nodes) && p < c < |nodes| && nodes[c].parent.None?
    requires nodes[c].descendantCount == 0 && pos <= |Children(nodes, p)|
    ensures CountedExcept(Attach(nodes, p, c, pos), p, 1)
  {
    var cs := Children(nodes, p);
    var linked := Attach(nodes, p, c, pos);
    var ncs := Children(linked, p);
    assert ncs == cs[..pos] + [c] + cs[pos..];
    SpanSumSameCounts(nodes, linked, ncs);
    SpanSumAppend(nodes, cs[..pos] + [c], cs[pos..]);
    SpanSumAppend(nodes, cs[..pos], [c]);
    SpanSumAppend(nodes, cs[..pos], cs[pos..]);
    assert cs[..pos] + cs[pos..] == cs;
    assert CountedAt(nodes, p);
    forall m | 0 <= m < |linked| && m != p ensures CountedAt(linked, m) {
      assert CountedAt(nodes, m);
      SpanSumSameCounts(nodes, linked, Children(nodes, m));
    }
  }

  lemma {:induction false} SpanSumSameCounts(s: seq<Node>, t: seq<Node>, cs: seq<NodeId>)
    requires forall i :: 0 <= i < |cs| ==>
               cs[i] < |s| && cs[i] < |t| && t[cs[i]].descendantCount == s[cs[i]].descendantCount
    ensures SpanSum(t, cs) == SpanSum(s, cs)
  {
    if cs != [] {
      SpanSumSameCounts(s, t, cs[1..]);
    }
  }

  // ----- removeChildAtIndex: / removeChild: / removeFromParent -------------

  /** Takes the element at position k out of p's sequence (freeing an emptied sequence) and clears its parent. */
  function DetachAt(nodes: seq<Node>, p: NodeId, k: nat): (r: seq<Node>)
    requires WellFormed(nodes) && p < |nodes| && k < |Children(nodes, p)|
    ensures WellFormed(r) && |r| == |nodes|
    ensures var cs := Children(nodes, p);
            Children(r, p) == cs[..k] + cs[k + 1..] &&
            (r[p].children.None? <==> |cs| == 1) &&
            r[cs[k]].parent.None? &&
            r[cs[k]].children == nodes[cs[k]].children &&
            forall m :: 0 <= m < |r| && m != p && m != cs[k] ==> r[m] == nodes[m]
    ensures forall m :: 0 <= m < |r| ==> r[m].descendantCount == nodes[m].descendantCount
    ensures forall m :: 0 <= m < |r| ==> r[m].row == nodes[m].row && r[m].rowIsDirty == nodes[m].rowIsDirty
  {
    var cs := Children(nodes, p);
    var x := cs[k];
    var rest := cs[..k] + cs[k + 1..];
    var r := nodes[p := nodes[p].(children := if rest == [] then None else Some(rest))][x := nodes[x].(parent := None)];
    DetachWellFormed(nodes, p, k, r);
    r
  }

  lemma DetachWellFormed(nodes: seq<Node>, p: NodeId, k: nat, r: seq<Node>)
    requires WellFormed(nodes) && p < |nodes| && k < |Children(nodes, p)|
    requires var cs := Children(nodes, p);
             var rest := cs[..k] + cs[k + 1..];
             r == nodes[p := nodes[p].(children := if rest == [] then None else Some(rest))][cs[k] := nodes[cs[k]].(parent := None)]
    ensures WellFormed(r)
  {
    var cs := Children(nodes, p);
    ChildrenNoDup(nodes, p);
    var x := cs[k];
    var rest := cs[..k] + cs[k + 1..];
    assert forall i :: 0 <= i < |rest| ==> rest[i] == if i < k then cs[i] else cs[i + 1];
    NoDupRemoveAt(cs, k);
    forall m | 0 <= m < |r| ensures NodeWellFormed(r, m) {
      assert NodeWellFormed(nodes, m);
      if r[m].parent.Some? {
        var g := r[m].parent.value;
        assert NodeWellFormed(nodes, g);
        if g == p {
          var i :| 0 <= i < |cs| && cs[i] == m;
          assert i != k;
          if i < k { assert rest[i] == m; } else { assert rest[i - 1] == m; }
        }
      }
      if r[m].children.Some? && m != p {
        var ms := r[m].children.value;
        forall i | 0 <= i < |ms| ensures r[ms[i]].parent == nodes[ms[i]].parent {
          assert nodes[ms[i]].parent == Some(m);
        }
      }
    }
  }

  /**
   * removeChildAtIndex:: nothing happens for a NULL sequence or an index
   * outside it; otherwise the element there leaves the sequence and points
   * nowhere, and p and every ancestor of p count one descendant fewer.
   */
  function RemoveChildAtIndex(nodes: seq<Node>, p: NodeId, idx: int): (r: seq<Node>)
    requires WellFormed(nodes) && p < |nodes|
    ensures WellFormed(r) && |r| == |nodes|
    ensures var cs := Children(nodes, p);
            if !(0 <= idx < |cs|) then r == nodes
            else
              Children(r, p) == cs[..idx] + cs[idx + 1..] &&
              (r[p].children.None? <==> |cs| == 1) &&
              r[cs[idx]].parent.None? &&
              (forall m :: 0 <= m < |r| && m != p ==> Children(r, m) == Children(nodes, m)) &&
              (forall m :: 0 <= m < |r| && m != cs[idx] ==> r[m].parent == nodes[m].parent) &&
              (forall m :: 0 <= m < |r| ==> r[m].row == nodes[m].row && r[m].rowIsDirty == nodes[m].rowIsDirty) &&
              (forall m :: 0 <= m < |r| ==>
                 r[m].descendantCount == nodes[m].descendantCount - (if IsAncestorOrSelf(nodes, m, p) then 1 else 0))
  {
    var cs := Children(nodes, p);
    if !(0 <= idx < |cs|) then nodes
    else
      var unlinked := DetachAt(nodes, p, idx);
      var r := Bump(unlinked, p, -1);
      RemoveAtCounts(nodes, p, idx, unlinked, r);
      r
  }

  /** Detaching the element at idx leaves p's ancestry alone, so the bump takes one from p and its ancestors. */
  lemma RemoveAtCounts(nodes: seq<Node>, p: NodeId, idx: nat, unlinked: seq<Node>, r: seq<Node>)
    requires WellFormed(nodes) && p < |nodes| && idx < |Children(nodes, p)|
    requires unlinked == DetachAt(nodes, p, idx) && r == Bump(unlinked, p, -1)
    ensures forall m :: 0 <= m < |r| ==>
              r[m].descendantCount == nodes[m].descendantCount - (if IsAncestorOrSelf(nodes, m, p) then 1 else 0)
  {
    var cs := Children(nodes, p);
    forall m | 0 <= m < |nodes| ensures IsAncestorOrSelf(unlinked, m, p) == IsAncestorOrSelf(nodes, m, p) {
      AncestryKeptBelow(nodes, unlinked, m, p, cs[idx]);
    }
  }

  /** Removing a row without descendants keeps every count right. */
  lemma RemoveChildAtIndexKeepsCounts(nodes: seq<Node>, p: NodeId, idx: int)
    requires WellFormed(nodes) && Counted(nodes) && p < |nodes|
    requires 0 <= idx < |Children(nodes, p)| ==> nodes[Children(nodes, p)[idx]].descendantCount == 0
    ensures Counted(RemoveChildAtIndex(nodes, p, idx))
  {
    var cs := Children(nodes, p);
    if 0 <= idx < |cs| {
      var unlinked := DetachAt(nodes, p, idx);
      var rest := Children(unlinked, p);
      SpanSumSameCounts(nodes, unlinked, rest);
      SpanSumAppend(nodes, cs[..idx], cs[idx..]);
      SpanSumAppend(nodes, cs[..idx], cs[idx + 1..]);
      assert cs[..idx] + cs[idx..] == cs;
      assert cs[idx..][1..] == cs[idx + 1..];
      assert CountedAt(nodes, p);
      forall m | 0 <= m < |unlinked| && m != p ensures CountedAt(unlinked, m) {
        assert CountedAt(nodes, m);
        SpanSumSameCounts(nodes, unlinked, Children(nodes, m));
      }
      assert CountedExcept(unlinked, p, -1);
      BumpRestoresCount(unlinked, p, -1);
      forall m | 0 <= m < |nodes| ensures IsAncestorOrSelf(unlinked, m, p) == IsAncestorOrSelf(nodes, m, p) {
        AncestryKeptBelow(nodes, unlinked, m, p, cs[idx]);
      }
      assert RemoveChildAtIndex(nodes, p, idx) == Bump(unlinked, p, -1);
    }
  }

  /**
   * removeChild:: the child's own position handle names where it sits in
   * p's sequence; removing it there is removeChildAtIndex: at that position.
   */
  function RemoveChild(nodes: seq<Node>, p: NodeId, c: NodeId): (r: seq<Node>)
    requires WellFormed(nodes) && c < |nodes| && nodes[c].parent == Some(p)
    ensures WellFormed(r) && |r| == |nodes|
    ensures p < c && c in Children(nodes, p) && c !in Children(r, p) && r[c].parent.None?
    ensures var cs := Children(nodes, p);
            var k := PositionIn(cs, c);
            Children(r, p) == cs[..k] + cs[k + 1..] && r == RemoveChildAtIndex(nodes, p, k)
  {
    assert Parent(nodes, c) == Some(p);
    var cs := Children(nodes, p);
    ChildrenNoDup(nodes, p);
    var k := PositionIn(cs, c);
    var r := RemoveChildAtIndex(nodes, p, k);
    NoDupRemoveAt(cs, k);
    r
  }

  /** removeFromParent: nothing for a parentless element, otherwise removeChild: on its parent. */
  function RemoveFromParent(nodes: seq<Node>, c: NodeId): (r: seq<Node>)
    requires WellFormed(nodes) && c < |nodes|
    ensures WellFormed(r) && |r| == |nodes| && r[c].parent.None?
    ensures nodes[c].parent.None? ==> r == nodes
    ensures Parent(nodes, c).Some? ==>
              var p := Parent(nodes, c).value;
              var cs := Children(nodes, p);
              var k := PositionIn(cs, c);
              Children(r, p) == cs[..k] + cs[k + 1..]
    ensures forall m :: 0 <= m < |r| && Some(m) != nodes[c].parent ==> Children(r, m) == Children(nodes, m)
    ensures forall m :: 0 <= m < |r| && m != c ==> r[m].parent == nodes[m].parent
    ensures forall m :: 0 <= m < |r| ==> r[m].row == nodes[m].row && r[m].rowIsDirty == nodes[m].rowIsDirty
  {
    match Parent(nodes, c)
    case None => nodes
    case Some(p) => RemoveChild(nodes, p, c)
  }

  // ----- removeAllChildren -------------------------------------------------

  /** Frees p's sequence; the destroy notify clears the parent of every element that was in it. */
  function DetachAll(nodes: seq<Node>, p: NodeId): (r: seq<Node>)
    requires WellFormed(nodes) && p < |nodes|
    ensures WellFormed(r) && |r| == |nodes|
    ensures r[p].children.None? && r[p].parent == nodes[p].parent
    ensures forall m :: 0 <= m < |r| && m != p ==> r[m].children == nodes[m].children
    ensures forall m :: 0 <= m < |r| ==>
              r[m].parent == (if m in Children(nodes, p) then None else nodes[m].parent)
    ensures forall m :: 0 <= m < |r| ==>
              r[m].descendantCount == nodes[m].descendantCount && r[m].row == nodes[m].row &&
              r[m].rowIsDirty == nodes[m].rowIsDirty
  {
    var r := seq(|nodes|, m requires 0 <= m < |nodes| =>
                  if m == p then nodes[m].(children := None)
                  else if nodes[m].parent == Some(p) then nodes[m].(parent := None)
                  else nodes[m]);
    DetachAllWellFormed(nodes, p, r);
    r
  }

  lemma DetachAllWellFormed(nodes: seq<Node>, p: NodeId, r: seq<Node>)
    requires WellFormed(nodes) && p < |nodes|
    requires r == seq(|nodes|, m requires 0 <= m < |nodes| =>
                       if m == p then nodes[m].(children := None)
                       else if nodes[m].parent == Some(p) then nodes[m].(parent := None)
                       else nodes[m])
    ensures WellFormed(r)
    ensures forall m :: 0 <= m < |r| ==> (m in Children(nodes, p) <==> nodes[m].parent == Some(p))
  {
    forall m | 0 <= m < |r| ensures NodeWellFormed(r, m) && (m in Children(nodes, p) <==> nodes[m].parent == Some(p)) {
      assert NodeWellFormed(nodes, m);
      if r[m].parent.Some? {
        assert NodeWellFormed(nodes, r[m].parent.value);
      }
      if r[m].children.Some? {
        var ms := r[m].children.value;
        forall i | 0 <= i < |ms| ensures r[ms[i]].parent == nodes[ms[i]].parent { }
      }
    }
  }

  lemma DetachAllKeepsAncestry(nodes: seq<Node>, p: NodeId)
    requires WellFormed(nodes) && p < |nodes|
    ensures forall m :: 0 <= m < |nodes| ==>
              IsAncestorOrSelf(DetachAll(nodes, p), m, p) == IsAncestorOrSelf(nodes, m, p)
  {
    var unlinked := DetachAll(nodes, p);
    forall x | 0 <= x < p + 1 ensures unlinked[x].parent == nodes[x].parent {
      assert NodeWellFormed(nodes, x);
    }
    forall m | 0 <= m < |nodes| ensures IsAncestorOrSelf(unlinked, m, p) == IsAncestorOrSelf(nodes, m, p) {
      AncestryKeptBelow(nodes, unlinked, m, p, p + 1);
    }
  }

  /**
   * removeAllChildren: nothing for a NULL sequence; otherwise every element
   * of it is detached, the sequence becomes NULL, and p and its ancestors
   * count as many descendants fewer as p had direct children.
   */
  function RemoveAllChildren(nodes: seq<Node>, p: NodeId): (r: seq<Node>)
    requires WellFormed(nodes) && p < |nodes|
    ensures WellFormed(r) && |r| == |nodes|
    ensures nodes[p].children.None? ==> r == nodes
    ensures r[p].children.None?
    ensures forall m :: 0 <= m < |r| && m != p ==> r[m].children == nodes[m].children
    ensures forall m :: 0 <= m < |r| ==>
              r[m].parent == (if m in Children(nodes, p) then None else nodes[m].parent)
    ensures forall m :: 0 <= m < |r| ==>
              r[m].descendantCount == nodes[m].descendantCount -
                (if IsAncestorOrSelf(nodes, m, p) then |Children(nodes, p)| else 0)
  {
    if nodes[p].children.None? then nodes
    else
      var unlinked := DetachAll(nodes, p);
      var r := Bump(unlinked, p, -|Children(nodes, p)|);
      DetachAllKeepsAncestry(nodes, p);
      r
  }

  /** removeAllChildren touches no row reference and no dirty flag. */
  lemma RemoveAllChildrenKeepsRows(nodes: seq<Node>, p: NodeId)
    requires WellFormed(nodes) && p < |nodes|
    ensures var r := RemoveAllChildren(nodes, p);
            forall m :: 0 <= m < |r| ==> r[m].row == nodes[m].row && r[m].rowIsDirty == nodes[m].rowIsDirty
  {
    if nodes[p].children.Some? {
      var unlinked := DetachAll(nodes, p);
      assert RemoveAllChildren(nodes, p) == Bump(unlinked, p, -|Children(nodes, p)|);
    }
  }

  lemma DetachAllCountedExcept(nodes: seq<Node>, p: NodeId)
    requires WellFormed(nodes) && Counted(nodes) && p < |nodes|
    requires forall i :: 0 <= i < |Children(nodes, p)| ==> nodes[Children(nodes, p)[i]].descendantCount == 0
    ensures CountedExcept(DetachAll(nodes, p), p, -|Children(nodes, p)|)
  {
    var cs := Children(nodes, p);
    var unlinked := DetachAll(nodes, p);
    assert CountedAt(nodes, p);
    SpanSumLowerBound(nodes, cs);
    assert Children(unlinked, p) == [];
    forall m | 0 <= m < |unlinked| && m != p ensures CountedAt(unlinked, m) {
      assert CountedAt(nodes, m);
      assert Children(unlinked, m) == Children(nodes, m);
      SpanSumSameCounts(nodes, unlinked, Children(nodes, m));
    }
  }

  /** When no direct child has descendants of its own, removeAllChildren keeps every count right. */
  lemma RemoveAllChildrenKeepsCounts(nodes: seq<Node>, p: NodeId)
    requires WellFormed(nodes) && Counted(nodes) && p < |nodes|
    requires forall i :: 0 <= i < |Children(nodes, p)| ==> nodes[Children(nodes, p)[i]].descendantCount == 0
    ensures Counted(RemoveAllChildren(nodes, p))
  {
    if nodes[p].children.None? {
      assert RemoveAllChildren(nodes, p) == nodes;
    } else {
      var cs := Children(nodes, p);
      var unlinked := DetachAll(nodes, p);
      DetachAllCountedExcept(nodes, p);
      BumpRestoresCount(unlinked, p, -|cs|);
      assert RemoveAllChildren(nodes, p) == Bump(unlinked, p, -|cs|);
    }
  }

  // ----- reorderChildrenToNewIndicies: ---------------------------------------

  predicate OrderInRange(order: seq<int>, n: nat)
    requires n <= |order|
  {
    forall i :: 0 <= i < n ==> 0 <= order[i] < n
  }

  /** The new order a GtkTreeModel reports names each old position at most once. */
  predicate OrderDistinct(order: seq<int>, n: nat)
    requires n <= |order|
  {
    forall i, j :: 0 <= i < j < n ==> order[i] != order[j]
  }

  /** New child i is old child order[i]. */
  function Reordered(cs: seq<NodeId>, order: seq<int>): (r: seq<NodeId>)
    requires |cs| <= |order| && OrderInRange(order, |cs|)
    ensures |r| == |cs| && forall i :: 0 <= i < |cs| ==> r[i] == cs[order[i]]
  {
    seq(|cs|, i requires 0 <= i < |cs| => cs[order[i]])
  }

  /** Any k + 1 values below k (k at least 1) repeat one. */
  lemma {:induction false} RepeatBelow(s: seq<int>, k: nat)
    requires k >= 1 && |s| == k + 1 && forall i :: 0 <= i < |s| ==> 0 <= s[i] < k
    ensures exists a, b :: 0 <= a < b < |s| && s[a] == s[b]
    decreases |s|, 1
  {
    var top := k - 1;
    if k == 1 {
      assert s[0] == 0 == s[1];
    } else if i :| 0 <= i < |s| && s[i] == top {
      if j :| 0 <= j < |s| && j != i && s[j] == top {
        if i < j { assert s[i] == s[j]; } else { assert s[j] == s[i]; }
      } else {
        RepeatAfterDrop(s, k, i);
      }
    } else {
      RepeatInPrefix(s, k);
    }
  }

  /** The largest value k - 1 occurs once, at i: the other k values lie below k - 1. */
  lemma {:induction false} RepeatAfterDrop(s: seq<int>, k: nat, i: nat)
    requires k >= 2 && |s| == k + 1 && forall j :: 0 <= j < |s| ==> 0 <= s[j] < k
    requires i < |s| && s[i] == k - 1 && forall j :: 0 <= j < |s| && j != i ==> s[j] != k - 1
    ensures exists a, b :: 0 <= a < b < |s| && s[a] == s[b]
    decreases |s|, 0
  {
    var top := k - 1;
    var t := s[..i] + s[i + 1..];
    assert forall j :: 0 <= j < |t| ==> t[j] == if j < i then s[j] else s[j + 1];
    forall j | 0 <= j < |t| ensures 0 <= t[j] < top {
      if j < i { assert j != i; } else { assert j + 1 != i; }
    }
    RepeatBelow(t, top);
    var a, b :| 0 <= a < b < |t| && t[a] == t[b];
    if b < i { assert s[a] == s[b]; }
    else if a < i { assert s[a] == s[b + 1]; }
    else { assert s[a + 1] == s[b + 1]; }
  }

  /** The value k - 1 does not occur: the first k values lie below k - 1. */
  lemma {:induction false} RepeatInPrefix(s: seq<int>, k: nat)
    requires k >= 2 && |s| == k + 1 && forall j :: 0 <= j < |s| ==> 0 <= s[j] < k - 1
    ensures exists a, b :: 0 <= a < b < |s| && s[a] == s[b]
    decreases |s|, 0
  {
    var t := s[..k];
    forall j | 0 <= j < |t| ensures 0 <= t[j] < k - 1 {
      assert t[j] == s[j];
    }
    RepeatBelow(t, k - 1);
    var a, b :| 0 <= a < b < |t| && t[a] == t[b];
    assert s[a] == s[b];
  }

  /** n distinct positions below n name every position below n. */
  lemma OrderCoversRange(order: seq<int>, n: nat)
    requires n <= |order| && OrderInRange(order, n) && OrderDistinct(order, n)
    ensures forall v :: 0 <= v < n ==> v in order[..n]
  {
    forall v | 0 <= v < n ensures v in order[..n] {
      if n == 1 {
        assert order[..n][0] == order[0];
      } else if v !in order[..n] {
        // close the gap at v: n distinct values below n - 1
        var s := seq(n, i requires 0 <= i < n => if order[i] > v then order[i] - 1 else order[i]);
        forall i | 0 <= i < n ensures 0 <= s[i] < n - 1 {
          assert order[..n][i] == order[i];
        }
        forall i, j | 0 <= i < j < n ensures s[i] != s[j] {
          assert order[..n][i] == order[i] && order[..n][j] == order[j];
        }
        RepeatBelow(s, n - 1);
        assert false;
      }
    }
  }

  lemma MultisetRemoveAt(a: seq<NodeId>, b: seq<NodeId>, j: nat)
    requires a != [] && multiset(a) == multiset(b) && j < |b| && b[j] == a[0]
    ensures multiset(a[1..]) == multiset(b[..j] + b[j + 1..])
  {
    var x := a[0];
    var b' := b[..j] + b[j + 1..];
    assert a == [x] + a[1..];
    assert b == b[..j] + [x] + b[j + 1..];
    assert multiset(a) == multiset(a[1..]) + multiset{x};
    assert multiset(b) == multiset(b') + multiset{x};
    assert multiset(a[1..]) == multiset(a) - multiset{x};
    assert multiset(b') == multiset(b) - multiset{x};
  }

  lemma SpanSumRemoveAt(nodes: seq<Node>, b: seq<NodeId>, j: nat)
    requires j < |b| && forall i :: 0 <= i < |b| ==> b[i] < |nodes|
    ensures SpanSum(nodes, b) == 1 + nodes[b[j]].descendantCount + SpanSum(nodes, b[..j] + b[j + 1..])
  {
    assert b == (b[..j] + [b[j]]) + b[j + 1..];
    SpanSumAppend(nodes, b[..j] + [b[j]], b[j + 1..]);
    SpanSumAppend(nodes, b[..j], [b[j]]);
    SpanSumAppend(nodes, b[..j], b[j + 1..]);
  }

  lemma {:induction false} SpanSumPermutation(nodes: seq<Node>, a: seq<NodeId>, b: seq<NodeId>)
    requires multiset(a) == multiset(b)
    requires forall i :: 0 <= i < |a| ==> a[i] < |nodes|
    ensures forall i :: 0 <= i < |b| ==> b[i] < |nodes|
    ensures SpanSum(nodes, a) == SpanSum(nodes, b)
  {
    forall i | 0 <= i < |b| ensures b[i] < |nodes| {
      assert b[i] in multiset(a);
    }
    if a != [] {
      assert a[0] in multiset(a);
      assert a[0] in b;
      var j :| 0 <= j < |b| && b[j] == a[0];
      MultisetRemoveAt(a, b, j);
      SpanSumPermutation(nodes, a[1..], b[..j] + b[j + 1..]);
      SpanSumRemoveAt(nodes, b, j);
    }
  }

  lemma {:induction false} NoDupMultiplicity(a: seq<NodeId>)
    requires NoDup(a)
    ensures forall y :: multiset(a)[y] == if y in a then 1 else 0
  {
    if a != [] {
      NoDupTail(a);
      NoDupMultiplicity(a[1..]);
      assert a == [a[0]] + a[1..];
      forall y ensures multiset(a)[y] == if y in a then 1 else 0 {
        assert y in a <==> y == a[0] || y in a[1..];
      }
    }
  }

  lemma NoDupSameMembers(a: seq<NodeId>, b: seq<NodeId>)
    requires NoDup(a) && NoDup(b) && forall x :: x in a <==> x in b
    ensures multiset(a) == multiset(b)
  {
    NoDupMultiplicity(a);
    NoDupMultiplicity(b);
    assert forall y :: multiset(a)[y] == multiset(b)[y];
  }

  /** The reordered sequence holds the same elements, each once. */
  lemma ReorderedIsPermutation(cs: seq<NodeId>, order: seq<int>)
    requires |cs| <= |order| && OrderInRange(order, |cs|) && OrderDistinct(order, |cs|) && NoDup(cs)
    ensures NoDup(Reordered(cs, order))
    ensures forall x :: x in Reordered(cs, order) <==> x in cs
    ensures multiset(Reordered(cs, order)) == multiset(cs)
  {
    var r := Reordered(cs, order);
    OrderCoversRange(order, |cs|);
    forall x | x in cs ensures x in r {
      var v :| 0 <= v < |cs| && cs[v] == x;
      assert v in order[..|cs|];
      var i :| 0 <= i < |cs| && order[..|cs|][i] == v;
      assert r[i] == x;
    }
    forall i, j | 0 <= i < j < |r| ensures r[i] != r[j] {
      assert order[i] != order[j];
      NoDupAt(cs, order[i], order[j]);
    }
    NoDupIntro(r);
    NoDupSameMembers(r, cs);
  }

  /**
   * reorderChildrenToNewIndicies: with the parent links kept: a NULL
   * sequence, or an index that reaches past the end, leaves everything as it
   * was; otherwise new child i is old child order[i] and nothing else, no
   * count included, changes.
   */
  function ReorderChildren(nodes: seq<Node>, p: NodeId, order: seq<int>): (r: seq<Node>)
    requires WellFormed(nodes) && p < |nodes| && |Children(nodes, p)| <= |order|
    requires OrderDistinct(order, |Children(nodes, p)|)
    ensures WellFormed(r) && |r| == |nodes|
    ensures var cs := Children(nodes, p);
            if nodes[p].children.None? || !OrderInRange(order, |cs|) then r == nodes
            else
              Children(r, p) == Reordered(cs, order) &&
              multiset(Children(r, p)) == multiset(cs) &&
              r[p] == nodes[p].(children := Some(Reordered(cs, order))) &&
              forall m :: 0 <= m < |r| && m != p ==> r[m] == nodes[m]
  {
    var cs := Children(nodes, p);
    if nodes[p].children.None? || !OrderInRange(order, |cs|) then nodes
    else
      var r := nodes[p := nodes[p].(children := Some(Reordered(cs, order)))];
      ChildrenNoDup(nodes, p);
      ReorderedIsPermutation(cs, order);
      ReorderWellFormed(nodes, p, order, r);
      r
  }

  lemma ReorderWellFormed(nodes: seq<Node>, p: NodeId, order: seq<int>, r: seq<Node>)
    requires WellFormed(nodes) && p < |nodes| && nodes[p].children.Some?
    requires |Children(nodes, p)| <= |order| && OrderDistinct(order, |Children(nodes, p)|)
    requires OrderInRange(order, |Children(nodes, p)|)
    requires r == nodes[p := nodes[p].(children := Some(Reordered(Children(nodes, p), order)))]
    ensures WellFormed(r)
  {
    var cs := Children(nodes, p);
    ChildrenNoDup(nodes, p);
    ReorderedIsPermutation(cs, order);
    forall m | 0 <= m < |r| ensures NodeWellFormed(r, m) {
      assert NodeWellFormed(nodes, m);
      if r[m].parent.Some? {
        assert NodeWellFormed(nodes, r[m].parent.value);
      }
    }
  }

  /** Reordering changes no sum, so every count stays right. */
  lemma ReorderChildrenKeepsCounts(nodes: seq<Node>, p: NodeId, order: seq<int>)
    requires WellFormed(nodes) && Counted(nodes) && p < |nodes| && |Children(nodes, p)| <= |order|
    requires OrderDistinct(order, |Children(nodes, p)|)
    ensures Counted(ReorderChildren(nodes, p, order))
  {
    var cs := Children(nodes, p);
    var r := ReorderChildren(nodes, p, order);
    if nodes[p].children.Some? && OrderInRange(order, |cs|) {
      forall m | 0 <= m < |r| ensures CountedAt(r, m) {
        assert CountedAt(nodes, m);
        SpanSumSameCounts(nodes, r, Children(nodes, m));
        if m == p {
          SpanSumPermutation(nodes, cs, Children(r, p));
          SpanSumSameCounts(nodes, r, Children(r, p));
        }
      }
    }
  }

  /**
   * reorderChildrenToNewIndicies: as written: after building the new
   * sequence it frees the old one, whose destroy notify (remove_child) sets
   * the parent of every element in it to nil, although each of them is in
   * the new sequence.
   */
  function ReorderChildrenAsWritten(nodes: seq<Node>, p: NodeId, order: seq<int>): seq<Node>
    requires WellFormed(nodes) && p < |nodes| && |Children(nodes, p)| <= |order|
  {
    var cs := Children(nodes, p);
    if nodes[p].children.None? || !OrderInRange(order, |cs|) then nodes
    else seq(|nodes|, m requires 0 <= m < |nodes| =>
               if m == p then nodes[p].(children := Some(Reordered(cs, order)))
               else if nodes[m].parent == Some(p) then nodes[m].(parent := None)
               else nodes[m])
  }

  /**
   * As written, every reordered child is still in p's sequence but reports no
   * parent, so the links are no longer well formed: the children look like
   * tree roots to accessibilityIndex (-1) and to removeFromParent (no-op).
   */
  lemma ReorderAsWrittenOrphansChildren(nodes: seq<Node>, p: NodeId, order: seq<int>)
    requires WellFormed(nodes) && p < |nodes| && |Children(nodes, p)| <= |order|
    requires nodes[p].children.Some? && OrderInRange(order, |Children(nodes, p)|)
    ensures var r := ReorderChildrenAsWritten(nodes, p, order);
            var cs := Children(nodes, p);
            |r| == |nodes| &&
            r[p].children == Some(Reordered(cs, order)) &&
            (forall i :: 0 <= i < |cs| ==> r[cs[i]].parent.None?) &&
            !WellFormed(r)
  {
    var r := ReorderChildrenAsWritten(nodes, p, order);
    var cs := Children(nodes, p);
    assert NodeWellFormed(nodes, p);
    var x := Reordered(cs, order)[0];
    assert r[x].parent.None?;
    assert !NodeWellFormed(r, p);
  }
}

=== FILE: row_elements.dfy ===
/**
 * The row element methods that change or walk the tree, as a class holding
 * every element's fields.  Each method is specified by the RowEdits or
 * RowTree function it must agree with; what those functions keep (the links,
 * the descendant-count invariant, the flatten position) is proved there.
 */
module RowElements {
  import opened Wrappers
  import opened TreePaths
  import opened RowTree
  import RowEdits

  class RowForest {
    /** The fields of every element allocated so far; the handle of an element is its index. */
    var nodes: seq<Node>

    ghost predicate Valid()
      reads this
    {
      WellFormed(nodes)
    }

    constructor ()
      ensures Valid() && nodes == []
    {
      nodes := [];
    }

    /** initWithDelegate:treeRow:treeView:: no sequence, no parent, count 0, row dirty. */
    method NewRow(row: Option<Path>) returns (id: NodeId)
      requires Valid()
      modifies this
      ensures Valid() && nodes == RowEdits.AddRow(old(nodes), row) && id == |old(nodes)|
      ensures Counted(old(nodes)) ==> Counted(nodes)
    {
      id := |nodes|;
      if Counted(nodes) {
        RowEdits.AddRowKeepsCounts(nodes, row);
      }
      nodes := nodes + [RowEdits.NewNode(row)];
      assert nodes == RowEdits.AddRow(old(nodes), row);
    }

    /** setRowIsDirty: touches the flag and nothing else. */
    method SetRowIsDirty(n: NodeId, dirty: bool)
      requires Valid() && n < |nodes|
      modifies this
      ensures Valid() && SameLinks(old(nodes), nodes)
      ensures nodes == old(nodes)[n := old(nodes)[n].(rowIsDirty := dirty)]
      ensures Counted(old(nodes)) ==> Counted(nodes)
    {
      var before := nodes;
      nodes := nodes[n := nodes[n].(rowIsDirty := dirty)];
      WellFormedSameLinks(before, nodes);
      if Counted(before) {
        forall m | 0 <= m < |nodes| ensures CountedAt(nodes, m) {
          assert CountedAt(before, m);
          RowEdits.SpanSumSameCounts(before, nodes, Children(before, m));
        }
      }
    }

    /** adjustDescendantCountBy:: adds count to n's own count, then recurses into the parent. */
    method AdjustDescendantCountBy(n: NodeId, count: int)
      requires Valid() && n < |nodes|
      modifies this
      ensures Valid() && nodes == RowEdits.Bump(old(nodes), n, count)
      decreases n
    {
      var parent := nodes[n].parent;
      RowEdits.BumpStep(nodes, n, count);
      nodes := nodes[n := RowEdits.Adjusted(nodes[n], count)];
      if parent.Some? {
        AdjustDescendantCountBy(parent.value, count);
      }
    }

    /** The length of n's sequence, 0 for a NULL one. */
    function ChildCount(n: NodeId): (k: nat)
      requires Valid() && n < |nodes|
      reads this
      ensures k == |Children(nodes, n)|
    {
      if nodes[n].children.None? then 0 else |nodes[n].children.value|
    }

    /**
     * insertChild:atIndex:: the sequence is created when NULL, the child goes
     * in before the iterator at idx (the end iterator when idx is outside the
     * sequence), points at p, and p's count is adjusted by one.
     */
    method InsertChild(p: NodeId, c: NodeId, idx: int)
      requires Valid() && p < c < |nodes| && nodes[c].parent.None?
      modifies this
      ensures Valid() && nodes == RowEdits.InsertChild(old(nodes), p, c, idx)
    {
      var cs := if nodes[p].children.None? then [] else nodes[p].children.value;
      var pos := RowEdits.InsertPosition(|cs|, idx);
      nodes := nodes[p := nodes[p].(children := Some(cs[..pos] + [c] + cs[pos..]))][c := nodes[c].(parent := Some(p))];
      assert nodes == RowEdits.Attach(old(nodes), p, c, pos);
      AdjustDescendantCountBy(p, 1);
    }

    /** appendChild:: the same as inserting at the current child count. */
    method AppendChild(p: NodeId, c: NodeId)
      requires Valid() && p < c < |nodes| && nodes[c].parent.None?
      modifies this
      ensures Valid() && nodes == RowEdits.InsertChild(old(nodes), p, c, |Children(old(nodes), p)|)
      ensures Children(nodes, p) == Children(old(nodes), p) + [c]
    {
      var cs := if nodes[p].children.None? then [] else nodes[p].children.value;
      nodes := nodes[p := nodes[p].(children := Some(cs + [c]))][c := nodes[c].(parent := Some(p))];
      assert cs[..|cs|] + [c] + cs[|cs|..] == cs + [c];
      assert nodes == RowEdits.Attach(old(nodes), p, c, |cs|);
      AdjustDescendantCountBy(p, 1);
      assert Children(nodes, p) == cs[..|cs|] + [c] + cs[|cs|..];
    }

    /** Takes the element at position k out of p's sequence, freeing an emptied sequence. */
    method DetachAt(p: NodeId, k: nat)
      requires Valid() && p < |nodes| && k < |Children(nodes, p)|
      modifies this
      ensures Valid() && nodes == RowEdits.DetachAt(old(nodes), p, k)
    {
      var cs := nodes[p].children.value;
      assert cs == Children(nodes, p);
      var child := cs[k];
      var rest := cs[..k] + cs[k + 1..];
      nodes := nodes[p := nodes[p].(children := if rest == [] then None else Some(rest))];
      nodes := nodes[child := nodes[child].(parent := None)];
      assert nodes == RowEdits.DetachAt(old(nodes), p, k);
    }

    /**
     * removeChildAtIndex:: nothing for a NULL sequence or when idx gives the
     * end iterator; otherwise the element there loses its parent and leaves
     * the sequence, and p's count is adjusted by minus one.
     */
    method RemoveChildAtIndex(p: NodeId, idx: int)
      requires Valid() && p < |nodes|
      modifies this
      ensures Valid() && nodes == RowEdits.RemoveChildAtIndex(old(nodes), p, idx)
    {
      if nodes[p].children.None? {
        return;
      }
      if !(0 <= idx < |nodes[p].children.value|) {
        return;
      }
      DetachAt(p, idx);
      AdjustDescendantCountBy(p, -1);
    }

    /** removeChild:: removes c at the position its own iterator marks. */
    method RemoveChild(p: NodeId, c: NodeId)
      requires Valid() && c < |nodes| && nodes[c].parent == Some(p)
      modifies this
      ensures Valid() && nodes == RowEdits.RemoveChild(old(nodes), p, c)
    {
      assert Parent(nodes, c) == Some(p);
      var k := PositionIn(nodes[p].children.value, c);
      DetachAt(p, k);
      AdjustDescendantCountBy(p, -1);
    }

    /** removeFromParent: nothing for a parentless element. */
    method RemoveFromParent(c: NodeId)
      requires Valid() && c < |nodes|
      modifies this
      ensures Valid() && nodes == RowEdits.RemoveFromParent(old(nodes), c)
    {
      var parent := nodes[c].parent;
      if parent.None? {
        return;
      }
      RemoveChild(parent.value, c);
    }

    /**
     * removeAllChildren: frees p's sequence, whose destroy notify clears the
     * parent of each element in it, then adjusts p's count by minus the
     * number of elements the sequence held.
     */
    method RemoveAllChildren(p: NodeId)
      requires Valid() && p < |nodes|
      modifies this
      ensures Valid() && nodes == RowEdits.RemoveAllChildren(old(nodes), p)
    {
      if nodes[p].children.None? {
        return;
      }
      var cs := nodes[p].children.value;
      assert cs == Children(nodes, p);
      var childCount := |cs|;
      var i := 0;
      while i < childCount
        invariant 0 <= i <= childCount && |nodes| == |old(nodes)|
        invariant forall m :: 0 <= m < |nodes| ==>
                    nodes[m] == if m in cs[..i] then old(nodes)[m].(parent := None) else old(nodes)[m]
      {
        nodes := nodes[cs[i] := nodes[cs[i]].(parent := None)];
        i := i + 1;
      }
      assert cs[..i] == cs;
      nodes := nodes[p := nodes[p].(children := None)];
      RowEdits.DetachAllWellFormed(old(nodes), p, RowEdits.DetachAll(old(nodes), p));
      assert nodes == RowEdits.DetachAll(old(nodes), p);
      AdjustDescendantCountBy(p, -childCount);
    }

    /**
     * reorderChildrenToNewIndicies: with the parent links kept (see
     * RowEdits.ReorderChildrenAsWritten for the code as written): copies old
     * child order[i] to new position i, giving up at the first index that
     * reaches past the end, and installs the copy when every index was good.
     */
    method ReorderChildrenToNewIndicies(p: NodeId, order: seq<int>)
      requires Valid() && p < |nodes| && |Children(nodes, p)| <= |order|
      requires RowEdits.OrderDistinct(order, |Children(nodes, p)|)
      modifies this
      ensures Valid() && nodes == RowEdits.ReorderChildren(old(nodes), p, order)
    {
      if nodes[p].children.None? {
        return;
      }
      var cs := nodes[p].children.value;
      assert cs == Children(nodes, p);
      var copy: seq<NodeId> := [];
      var i := 0;
      while i < |cs|
        invariant 0 <= i <= |cs| && |copy| == i
        invariant forall j :: 0 <= j < i ==> 0 <= order[j] < |cs| && copy[j] == cs[order[j]]
      {
        if !(0 <= order[i] < |cs|) {
          assert !RowEdits.OrderInRange(order, |cs|);
          assert nodes == RowEdits.ReorderChildren(old(nodes), p, order);
          return;
        }
        copy := copy + [cs[order[i]]];
        i := i + 1;
      }
      assert copy == RowEdits.Reordered(cs, order);
      nodes := nodes[p := nodes[p].(children := Some(copy))];
      assert nodes == RowEdits.ReorderChildren(old(nodes), p, order);
    }

    /**
     * indexInParent: 0 without a parent; the last index of the row path when
     * no sibling has descendants; otherwise walks back from the element's
     * iterator adding 1 + descendantCount for every earlier sibling.
     */
    method IndexInParent(x: NodeId) returns (idx: int)
      requires Valid() && x < |nodes|
      ensures idx == RowTree.IndexInParent(nodes, x)
      ensures Counted(nodes) && PathsAgree(nodes) && nodes[x].parent.Some? ==>
                var cs := Children(nodes, nodes[x].parent.value);
                idx == SpanSum(nodes, cs[..PositionIn(cs, x)])
    {
      var parent := Parent(nodes, x);
      if parent.None? {
        return 0;
      }
      var p := parent.value;
      if Counted(nodes) && PathsAgree(nodes) {
        IndexInParentIsPrefixSum(nodes, x);
      }
      if !ChildrenHaveDescendants(nodes, p) {
        if nodes[x].row.None? {
          return 0;
        }
        idx := LastPathIndex(FormatPath(nodes[x].row.value));
        LastPathIndexOfFormat(nodes[x].row.value);
        return;
      }
      var cs := nodes[p].children.value;
      var k := PositionIn(cs, x);
      idx := 0;
      var i := k;
      while i > 0
        invariant 0 <= i <= k && idx == SpanSum(nodes, cs[i..k])
      {
        i := i - 1;
        assert cs[i..k][1..] == cs[i + 1..k];
        idx := idx + 1 + nodes[cs[i]].descendantCount;
      }
      assert cs[..k] == cs[0..k];
    }

    /**
     * accessibilityIndex: -1 at the parentless root, otherwise the parent's
     * index plus indexInParent plus one; with the counts and row paths right,
     * the element's position in the flattened tree of its root.
     */
    method AccessibilityIndex(x: NodeId) returns (r: int)
      requires Valid() && x < |nodes|
      ensures r == RowTree.AccessibilityIndex(nodes, x)
      ensures Counted(nodes) && PathsAgree(nodes) && nodes[x].parent.Some? ==>
                0 <= r < |Flatten(nodes, Top(nodes, x))| && Flatten(nodes, Top(nodes, x))[r] == x
      decreases x
    {
      var parent := Parent(nodes, x);
      if parent.None? {
        return -1;
      }
      var parentIndex := AccessibilityIndex(parent.value);
      var inParent := IndexInParent(x);
      r := parentIndex + inParent + 1;
      if Counted(nodes) && PathsAgree(nodes) {
        AccessibilityIndexIsFlattenPosition(nodes, x);
      }
    }

    /**
     * recursiveFlattenTreeIntoArray:addingSelf:: appends n when asked, then
     * each child's subtree, child first, in sibling order.
     */
    method RecursiveFlattenTreeIntoArray(n: NodeId, arr: seq<NodeId>, addSelf: bool) returns (out: seq<NodeId>)
      requires Valid() && n < |nodes|
      ensures out == arr + (if addSelf then [n] else []) + Flatten(nodes, n)
      decreases |nodes| - n
    {
      out := arr;
      if addSelf {
        out := out + [n];
      }
      if nodes[n].children.None? {
        return;
      }
      var cs := nodes[n].children.value;
      assert cs == Children(nodes, n);
      ghost var start := out;
      var i := 0;
      while i < |cs|
        invariant 0 <= i <= |cs| && out == start + Preorder(nodes, cs[..i], n)
      {
        out := RecursiveFlattenTreeIntoArray(cs[i], out, true);
        PreorderSnoc(nodes, cs, n, i);
        AppendRun(start, Preorder(nodes, cs[..i], n), cs[i], Flatten(nodes, cs[i]));
        i := i + 1;
      }
      assert cs[..i] == cs;
    }

    /**
     * flattenTree: nil for a NULL sequence, otherwise every descendant in
     * pre-order without n itself; with the counts right there are exactly
     * descendantCount of them.
     */
    method FlattenTree(n: NodeId) returns (flat: Option<seq<NodeId>>)
      requires Valid() && n < |nodes|
      ensures flat.None? <==> nodes[n].children.None?
      ensures flat.Some? ==> flat.value == Flatten(nodes, n)
      ensures flat.Some? && Counted(nodes) ==> |flat.value| == nodes[n].descendantCount > 0
    {
      if nodes[n].children.None? {
        return None;
      }
      var arr := RecursiveFlattenTreeIntoArray(n, [], false);
      flat := Some(arr);
      if Counted(nodes) {
        FlattenLength(nodes, n);
        assert NodeWellFormed(nodes, n);
        assert |Preorder(nodes, Children(nodes, n), n)| > 0;
      }
    }
  }
}

=== FILE: row_tree.dfy ===
/**
 * The state of the ACAccessibilityTreeRowElement objects of one process, as a
 * value: the element with handle n is nodes[n].  Handles are allocation
 * order, and a row element is always created before any child is inserted
 * under it, so every child has a larger handle than its parent.
 *
 * This module holds the definitions the row element code is specified
 * against (child lookup, the descendant-count invariant, pre-order
 * flattening, indexInParent and accessibilityIndex) and the lemmas about
 * them; RowElements holds the class whose methods change the state.
 */
module RowTree {
  import opened Wrappers
  import opened TreePaths

  type NodeId = nat

  /** One row element: its _children, _parent, _descendantCount, _rowIsDirty and _row. */
  datatype Node = Node(
    children: Option<seq<NodeId>>,  // None is a NULL GSequence
    parent: Option<NodeId>,         // None is nil
    descendantCount: int,
    rowIsDirty: bool,
    row: Option<Path>)              // current path of the row reference; None for the fake root

  /** No element of s occurs twice. */
  predicate NoDup(s: seq<NodeId>)
  {
    forall i, j {:trigger DistinctAt(s, i, j)} :: 0 <= i < j < |s| ==> DistinctAt(s, i, j)
  }

  /**
   * s[i] and s[j] differ.  NoDup quantifies over this term rather than over
   * pairs of indexings, so a proof draws on it only for the pairs it names.
   */
  predicate DistinctAt(s: seq<NodeId>, i: int, j: int)
  {
    0 <= i < |s| && 0 <= j < |s| && s[i] != s[j]
  }

  lemma NoDupAt(s: seq<NodeId>, i: int, j: int)
    requires NoDup(s) && 0 <= i < |s| && 0 <= j < |s| && i != j
    ensures s[i] != s[j]
  {
    if i < j {
      assert DistinctAt(s, i, j);
    } else {
      assert DistinctAt(s, j, i);
    }
  }

  /**
   * The links the element code keeps consistent: a parent is older than its
   * child and lists it; a child sequence is never empty (it is freed when its
   * last element goes), holds no element twice, and every element in it points
   * back at its owner.
   */
  predicate NodeWellFormed(nodes: seq<Node>, n: NodeId)
    requires n < |nodes|
  {
    (nodes[n].parent.Some? ==>
       var p := nodes[n].parent.value;
       p < n && nodes[p].children.Some? && n in nodes[p].children.value) &&
    (nodes[n].children.Some? ==>
       var cs := nodes[n].children.value;
       cs != [] && NoDup(cs) &&
       forall i :: 0 <= i < |cs| ==> n < cs[i] < |nodes| && nodes[cs[i]].parent == Some(n))
  }

  predicate WellFormed(nodes: seq<Node>)
  {
    forall n :: 0 <= n < |nodes| ==> NodeWellFormed(nodes, n)
  }

  lemma NoDupIntro(s: seq<NodeId>)
    requires forall i, j :: 0 <= i < j < |s| ==> s[i] != s[j]
    ensures NoDup(s)
  {
    forall i, j | 0 <= i < j < |s| ensures DistinctAt(s, i, j) { }
  }

  lemma NoDupElim(s: seq<NodeId>)
    requires NoDup(s)
    ensures forall i, j :: 0 <= i < j < |s| ==> s[i] != s[j]
  {
    forall i, j | 0 <= i < j < |s| ensures s[i] != s[j] {
      assert DistinctAt(s, i, j);
    }
  }

  lemma NoDupTail(s: seq<NodeId>)
    requires NoDup(s) && s != []
    ensures NoDup(s[1..]) && s[0] !in s[1..]
  {
    NoDupElim(s);
    var t := s[1..];
    assert forall i :: 0 <= i < |t| ==> t[i] == s[i + 1];
    NoDupIntro(t);
  }

  /** Removing the element at k leaves no duplicate and no trace of that element. */
  lemma NoDupRemoveAt(s: seq<NodeId>, k: nat)
    requires NoDup(s) && k < |s|
    ensures NoDup(s[..k] + s[k + 1..]) && s[k] !in s[..k] + s[k + 1..]
  {
    NoDupElim(s);
    var t := s[..k] + s[k + 1..];
    assert forall i :: 0 <= i < |t| ==> t[i] == if i < k then s[i] else s[i + 1];
    NoDupIntro(t);
  }

  /** The children of n in order; empty for a NULL sequence. */
  function Children(nodes: seq<Node>, n: NodeId): (cs: seq<NodeId>)
    requires WellFormed(nodes) && n < |nodes|
    ensures forall i :: 0 <= i < |cs| ==> n < cs[i] < |nodes| && nodes[cs[i]].parent == Some(n)
  {
    assert NodeWellFormed(nodes, n);
    if nodes[n].children.Some? then nodes[n].children.value else []
  }

  /** No element is listed twice among n's children. */
  lemma ChildrenNoDup(nodes: seq<Node>, n: NodeId)
    requires WellFormed(nodes) && n < |nodes|
    ensures NoDup(Children(nodes, n))
  {
    assert NodeWellFormed(nodes, n);
  }

  function Parent(nodes: seq<Node>, n: NodeId): (p: Option<NodeId>)
    requires WellFormed(nodes) && n < |nodes|
    ensures p == nodes[n].parent
    ensures p.Some? ==> p.value < n && n in Children(nodes, p.value)
  {
    assert NodeWellFormed(nodes, n);
    nodes[n].parent
  }

  /** Position of x in cs. */
  function PositionIn(cs: seq<NodeId>, x: NodeId): (k: nat)
    requires x in cs
    ensures k < |cs| && cs[k] == x && x !in cs[..k]
  {
    if cs[0] == x then 0 else 1 + PositionIn(cs[1..], x)
  }

  /** Σ (1 + descendantCount) over the elements of cs. */
  function SpanSum(nodes: seq<Node>, cs: seq<NodeId>): int
    requires forall i :: 0 <= i < |cs| ==> cs[i] < |nodes|
  {
    if cs == [] then 0 else 1 + nodes[cs[0]].descendantCount + SpanSum(nodes, cs[1..])
  }

  /** The invariant adjustDescendantCountBy: maintains: each count is Σ (1 + count) over the children. */
  predicate CountedAt(nodes: seq<Node>, n: NodeId)
    requires WellFormed(nodes) && n < |nodes|
  {
    nodes[n].descendantCount == SpanSum(nodes, Children(nodes, n))
  }

  predicate Counted(nodes: seq<Node>)
    requires WellFormed(nodes)
  {
    forall n :: 0 <= n < |nodes| ==> CountedAt(nodes, n)
  }

  /** childrenHaveDescendants: a non-NULL sequence whose owner counts more descendants than children. */
  predicate ChildrenHaveDescendants(nodes: seq<Node>, n: NodeId)
    requires n < |nodes|
  {
    nodes[n].children.Some? && nodes[n].descendantCount != |nodes[n].children.value|
  }

  /**
   * Under the count invariant childrenHaveDescendants answers whether some
   * child has descendants of its own.
   */
  lemma ChildrenHaveDescendantsMeans(nodes: seq<Node>, n: NodeId)
    requires WellFormed(nodes) && Counted(nodes) && n < |nodes|
    ensures var cs := Children(nodes, n);
            ChildrenHaveDescendants(nodes, n) <==> exists i :: 0 <= i < |cs| && nodes[cs[i]].descendantCount > 0
  {
    var cs := Children(nodes, n);
    assert CountedAt(nodes, n);
    forall i | 0 <= i < |cs| ensures nodes[cs[i]].descendantCount >= 0 {
      CountsNonNegative(nodes, cs[i]);
    }
    SpanSumLowerBound(nodes, cs);
  }

  /** Pre-order list of the subtrees rooted at cs: each element, then its own subtree, in sibling order. */
  function Preorder(nodes: seq<Node>, cs: seq<NodeId>, ghost lo: nat): seq<NodeId>
    requires WellFormed(nodes)
    requires forall i :: 0 <= i < |cs| ==> lo < cs[i] < |nodes|
    decreases |nodes| - lo, |cs|
  {
    if cs == [] then []
    else [cs[0]] + Preorder(nodes, Children(nodes, cs[0]), cs[0]) + Preorder(nodes, cs[1..], lo)
  }

  /** What recursiveFlattenTreeIntoArray:addingSelf:NO appends for n: its descendants in pre-order. */
  function Flatten(nodes: seq<Node>, n: NodeId): seq<NodeId>
    requires WellFormed(nodes) && n < |nodes|
  {
    Preorder(nodes, Children(nodes, n), n)
  }

  /** childAtIndex: nil for a NULL sequence or an index outside it. */
  function ChildAtIndex(nodes: seq<Node>, n: NodeId, idx: int): (r: Option<NodeId>)
    requires WellFormed(nodes) && n < |nodes|
    ensures r.Some? <==> 0 <= idx < |Children(nodes, n)|
    ensures r.Some? ==> r.value == Children(nodes, n)[idx] && r.value < |nodes|
  {
    var cs := Children(nodes, n);
    if 0 <= idx < |cs| then Some(cs[idx]) else None
  }

  /**
   * childAtPath: atoi of the text before the first ':' selects a child, and
   * the rest of the string, if any, is looked up from that child; a missing
   * child anywhere gives nil.
   */
  function ChildAtPath(nodes: seq<Node>, n: NodeId, path: Option<string>): (r: Option<NodeId>)
    requires WellFormed(nodes) && n < |nodes|
    ensures r.Some? ==> r.value < |nodes| && nodes[r.value].parent.Some?
    decreases if path.None? then 0 else |path.value|
  {
    match path
    case None => None
    case Some(s) =>
      var (segment, rest) := SplitFirstSegment(s);
      var child := ChildAtIndex(nodes, n, Atoi(segment));
      match rest
      case None => child
      case Some(more) =>
        if child.None? then None else ChildAtPath(nodes, child.value, rest)
  }

  /** The element a path of child positions leads to from n. */
  function Lookup(nodes: seq<Node>, n: NodeId, p: Path): (r: Option<NodeId>)
    requires WellFormed(nodes) && n < |nodes|
    requires p != []
    ensures r.Some? ==> n < r.value < |nodes| && nodes[r.value].parent.Some?
    decreases |p|
  {
    var child := ChildAtIndex(nodes, n, p[0]);
    if |p| == 1 || child.None? then child else Lookup(nodes, child.value, p[1..])
  }

  /** childAtPath on the string of a path follows the path's positions one by one. */
  lemma {:induction false} ChildAtPathOfFormat(nodes: seq<Node>, n: NodeId, p: Path)
    requires WellFormed(nodes) && n < |nodes|
    ensures ChildAtPath(nodes, n, FormatPath(p)) == if p == [] then None else Lookup(nodes, n, p)
    decreases |p|
  {
    if p != [] {
      SplitJoinPath(p);
      if |p| > 1 {
        var child := ChildAtIndex(nodes, n, p[0]);
        if child.Some? {
          ChildAtPathOfFormat(nodes, child.value, p[1..]);
        }
      }
    }
  }

  /** a is n or one of n's ancestors. */
  predicate IsAncestorOrSelf(nodes: seq<Node>, a: NodeId, n: NodeId)
    requires WellFormed(nodes) && n < |nodes|
    decreases n
  {
    a == n || (Parent(nodes, n).Some? && IsAncestorOrSelf(nodes, a, Parent(nodes, n).value))
  }

  /** The parentless element above n: the fake root when n is in a tree view's row tree. */
  function Top(nodes: seq<Node>, n: NodeId): (t: NodeId)
    requires WellFormed(nodes) && n < |nodes|
    ensures t <= n && nodes[t].parent.None? && IsAncestorOrSelf(nodes, t, n)
    decreases n
  {
    if Parent(nodes, n).None? then n else Top(nodes, Parent(nodes, n).value)
  }

  /**
   * indexInParent: 0 without a parent; when no sibling has descendants, the
   * last index of the row's path (0 if the row reference is gone); otherwise
   * Σ (1 + descendantCount) over the siblings before this element.  The
   * source reads the last index back from the path's string form;
   * TreePaths.LastPathIndexOfFormat shows that this gives the path's last
   * index (-1 for the empty path), which is what is written here.
   */
  function IndexInParent(nodes: seq<Node>, x: NodeId): int
    requires WellFormed(nodes) && x < |nodes|
  {
    match Parent(nodes, x)
    case None => 0
    case Some(p) =>
      if !ChildrenHaveDescendants(nodes, p) then
        (if nodes[x].row.None? then 0
         else var row := nodes[x].row.value; if row == [] then -1 else row[|row| - 1])
      else
        var cs := Children(nodes, p);
        SpanSum(nodes, cs[..PositionIn(cs, x)])
  }

  /** accessibilityIndex: -1 at a parentless element, otherwise parent's index + indexInParent + 1. */
  function AccessibilityIndex(nodes: seq<Node>, x: NodeId): int
    requires WellFormed(nodes) && x < |nodes|
    decreases x
  {
    match Parent(nodes, x)
    case None => -1
    case Some(p) => AccessibilityIndex(nodes, p) + IndexInParent(nodes, x) + 1
  }

  /** Every attached row's path ends with its position among its siblings. */
  predicate RowAgrees(nodes: seq<Node>, x: NodeId)
    requires WellFormed(nodes) && x < |nodes|
  {
    match Parent(nodes, x)
    case None => true
    case Some(p) =>
      var cs := Children(nodes, p);
      nodes[x].row.Some? && nodes[x].row.value != [] &&
      nodes[x].row.value[|nodes[x].row.value| - 1] == PositionIn(cs, x)
  }

  predicate PathsAgree(nodes: seq<Node>)
    requires WellFormed(nodes)
  {
    forall x :: 0 <= x < |nodes| ==> RowAgrees(nodes, x)
  }

  /** Two states with the same links: only counts, dirty flags or row paths may differ. */
  predicate SameLinks(s: seq<Node>, t: seq<Node>)
  {
    |s| == |t| &&
    forall m :: 0 <= m < |s| ==> t[m].children == s[m].children && t[m].parent == s[m].parent
  }

  lemma WellFormedSameLinks(s: seq<Node>, t: seq<Node>)
    requires WellFormed(s) && SameLinks(s, t)
    ensures WellFormed(t)
    ensures forall m :: 0 <= m < |t| ==> Children(t, m) == Children(s, m)
  {
    forall m | 0 <= m < |t| ensures NodeWellFormed(t, m) {
      assert NodeWellFormed(s, m);
    }
  }

  // ----- ancestry ----------------------------------------------------------

  lemma {:induction false} AncestorIsOlder(nodes: seq<Node>, a: NodeId, m: NodeId)
    requires WellFormed(nodes) && m < |nodes| && IsAncestorOrSelf(nodes, a, m)
    ensures a <= m
    decreases m
  {
    if a != m {
      AncestorIsOlder(nodes, a, Parent(nodes, m).value);
    }
  }

  lemma {:induction false} AncestorsSameLinks(s: seq<Node>, t: seq<Node>, a: NodeId, m: NodeId)
    requires WellFormed(s) && SameLinks(s, t) && m < |s|
    ensures WellFormed(t)
    ensures IsAncestorOrSelf(t, a, m) == IsAncestorOrSelf(s, a, m)
    decreases m
  {
    WellFormedSameLinks(s, t);
    if Parent(s, m).Some? {
      AncestorsSameLinks(s, t, a, Parent(s, m).value);
    }
  }

  // ----- sums and lengths -------------------------------------------------

  lemma {:induction false} SpanSumAppend(nodes: seq<Node>, a: seq<NodeId>, b: seq<NodeId>)
    requires forall i :: 0 <= i < |a| ==> a[i] < |nodes|
    requires forall i :: 0 <= i < |b| ==> b[i] < |nodes|
    ensures SpanSum(nodes, a + b) == SpanSum(nodes, a) + SpanSum(nodes, b)
  {
    if a == [] {
      assert a + b == b;
    } else {
      assert (a + b)[1..] == a[1..] + b;
      SpanSumAppend(nodes, a[1..], b);
    }
  }

  /** With no negative counts, the sum is at least the number of elements, and exactly that only when all counts are 0. */
  lemma {:induction false} SpanSumLowerBound(nodes: seq<Node>, cs: seq<NodeId>)
    requires forall i :: 0 <= i < |cs| ==> cs[i] < |nodes| && nodes[cs[i]].descendantCount >= 0
    ensures SpanSum(nodes, cs) >= |cs|
    ensures SpanSum(nodes, cs) == |cs| <==> forall i :: 0 <= i < |cs| ==> nodes[cs[i]].descendantCount == 0
  {
    if cs != [] {
      SpanSumLowerBound(nodes, cs[1..]);
      assert forall i :: 1 <= i < |cs| ==> cs[1..][i - 1] == cs[i];
    }
  }

  /** Under the count invariant no count is negative. */
  lemma {:induction false} CountsNonNegative(nodes: seq<Node>, n: NodeId)
    requires WellFormed(nodes) && Counted(nodes) && n < |nodes|
    ensures nodes[n].descendantCount >= 0
    decreases |nodes| - n
  {
    var cs := Children(nodes, n);
    forall i | 0 <= i < |cs| ensures nodes[cs[i]].descendantCount >= 0 {
      CountsNonNegative(nodes, cs[i]);
    }
    assert CountedAt(nodes, n);
    SpanSumLowerBound(nodes, cs);
  }

  lemma AllCountsNonNegative(nodes: seq<Node>)
    requires WellFormed(nodes) && Counted(nodes)
    ensures forall n :: 0 <= n < |nodes| ==> nodes[n].descendantCount >= 0
  {
    forall n | 0 <= n < |nodes| ensures nodes[n].descendantCount >= 0 {
      CountsNonNegative(nodes, n);
    }
  }

  /** Under the count invariant the pre-order list of cs is exactly as long as the sum over cs. */
  lemma {:induction false} PreorderLength(nodes: seq<Node>, cs: seq<NodeId>, lo: nat)
    requires WellFormed(nodes) && Counted(nodes)
    requires forall i :: 0 <= i < |cs| ==> lo < cs[i] < |nodes|
    ensures |Preorder(nodes, cs, lo)| == SpanSum(nodes, cs)
    decreases |nodes| - lo, |cs|
  {
    if cs != [] {
      assert CountedAt(nodes, cs[0]);
      PreorderLength(nodes, Children(nodes, cs[0]), cs[0]);
      PreorderLength(nodes, cs[1..], lo);
    }
  }

  /** descendantCount is the length of flattenTree's list. */
  lemma FlattenLength(nodes: seq<Node>, n: NodeId)
    requires WellFormed(nodes) && Counted(nodes) && n < |nodes|
    ensures |Flatten(nodes, n)| == nodes[n].descendantCount
  {
    assert CountedAt(nodes, n);
    PreorderLength(nodes, Children(nodes, n), n);
  }

  /** A non-empty run of siblings: the first, its subtree, then the pre-order list of the rest. */
  lemma PreorderUnfold(nodes: seq<Node>, cs: seq<NodeId>, lo: nat)
    requires WellFormed(nodes) && cs != []
    requires forall i :: 0 <= i < |cs| ==> lo < cs[i] < |nodes|
    ensures Preorder(nodes, cs, lo) == [cs[0]] + Flatten(nodes, cs[0]) + Preorder(nodes, cs[1..], lo)
  {
  }

  /** The pre-order list of h followed by more siblings: h, its subtree, then the rest. */
  lemma PreorderCons(nodes: seq<Node>, h: NodeId, rest: seq<NodeId>, lo: nat)
    requires WellFormed(nodes) && lo < h < |nodes|
    requires forall i :: 0 <= i < |rest| ==> lo < rest[i] < |nodes|
    ensures Preorder(nodes, [h] + rest, lo) == [h] + Flatten(nodes, h) + Preorder(nodes, rest, lo)
  {
    var cs := [h] + rest;
    assert cs[0] == h;
    assert cs[1..] == rest;
  }

  lemma AppendRun(a: seq<NodeId>, b: seq<NodeId>, x: NodeId, c: seq<NodeId>)
    ensures a + (b + [x] + c) == a + b + [x] + c
  {
  }

  lemma AppendAssoc(a: seq<NodeId>, b: seq<NodeId>, c: seq<NodeId>)
    ensures a + (b + c) == a + b + c
  {
  }

  lemma TailOfAppend(a: seq<NodeId>, b: seq<NodeId>)
    requires a != []
    ensures (a + b)[0] == a[0] && (a + b)[1..] == a[1..] + b
  {
  }

  lemma {:induction false} PreorderAppend(nodes: seq<Node>, a: seq<NodeId>, b: seq<NodeId>, lo: nat)
    requires WellFormed(nodes)
    requires forall i :: 0 <= i < |a| ==> lo < a[i] < |nodes|
    requires forall i :: 0 <= i < |b| ==> lo < b[i] < |nodes|
    ensures Preorder(nodes, a + b, lo) == Preorder(nodes, a, lo) + Preorder(nodes, b, lo)
    decreases |a|
  {
    if a == [] {
      assert a + b == b;
    } else {
      var ab := a + b;
      TailOfAppend(a, b);
      PreorderUnfold(nodes, ab, lo);
      PreorderAppend(nodes, a[1..], b, lo);
      PreorderUnfold(nodes, a, lo);
    }
  }

  // ----- accessibilityIndex is the pre-order position ---------------------

  /** Extending a run of siblings by one extends its pre-order list by that sibling and its subtree. */
  lemma PreorderSnoc(nodes: seq<Node>, cs: seq<NodeId>, lo: nat, i: nat)
    requires WellFormed(nodes)
    requires forall j :: 0 <= j < |cs| ==> lo < cs[j] < |nodes|
    requires i < |cs|
    ensures Preorder(nodes, cs[..i + 1], lo) == Preorder(nodes, cs[..i], lo) + [cs[i]] + Flatten(nodes, cs[i])
  {
    var pre := cs[..i];
    var x := cs[i];
    assert cs[..i + 1] == pre + [x];
    forall j | 0 <= j < |pre| ensures lo < pre[j] < |nodes| {
      assert pre[j] == cs[j];
    }
    PreorderAppend(nodes, pre, [x], lo);
    PreorderSingle(nodes, x, lo);
  }

  lemma PreorderSingle(nodes: seq<Node>, x: NodeId, lo: nat)
    requires WellFormed(nodes) && lo < x < |nodes|
    ensures Preorder(nodes, [x], lo) == [x] + Flatten(nodes, x)
  {
    PreorderCons(nodes, x, [], lo);
    assert [x] + [] == [x];
  }

  /**
   * Inside the pre-order list of cs, the run of cs[k] and its subtree starts
   * at the sum over the siblings before cs[k].
   */
  lemma PreorderRunAt(nodes: seq<Node>, cs: seq<NodeId>, lo: nat, k: nat, j: nat)
    requires WellFormed(nodes) && Counted(nodes)
    requires forall i :: 0 <= i < |cs| ==> lo < cs[i] < |nodes|
    requires k < |cs| && j < 1 + |Flatten(nodes, cs[k])|
    ensures 0 <= SpanSum(nodes, cs[..k]) + j < |Preorder(nodes, cs, lo)|
    ensures Preorder(nodes, cs, lo)[SpanSum(nodes, cs[..k]) + j] == ([cs[k]] + Flatten(nodes, cs[k]))[j]
  {
    SlicesInRange(nodes, cs, lo, k, cs[..k], cs[k + 1..]);
    var before := Preorder(nodes, cs[..k], lo);
    var run := [cs[k]] + Flatten(nodes, cs[k]);
    var after := Preorder(nodes, cs[k + 1..], lo);
    PreorderSplitAt(nodes, cs, lo, k);
    PrefixPreorderLength(nodes, cs, lo, k);
    IndexInSplit(Preorder(nodes, cs, lo), before, run, after, SpanSum(nodes, cs[..k]), j);
  }

  lemma SlicesInRange(nodes: seq<Node>, cs: seq<NodeId>, lo: nat, k: nat, pre: seq<NodeId>, post: seq<NodeId>)
    requires forall i :: 0 <= i < |cs| ==> lo < cs[i] < |nodes|
    requires k < |cs| && pre == cs[..k] && post == cs[k + 1..]
    ensures forall i :: 0 <= i < |pre| ==> lo < pre[i] < |nodes|
    ensures forall i :: 0 <= i < |post| ==> lo < post[i] < |nodes|
  {
    forall i | 0 <= i < |post| ensures lo < post[i] < |nodes| {
      assert post[i] == cs[k + 1 + i];
    }
  }

  lemma PrefixPreorderLength(nodes: seq<Node>, cs: seq<NodeId>, lo: nat, k: nat)
    requires WellFormed(nodes) && Counted(nodes)
    requires forall i :: 0 <= i < |cs| ==> lo < cs[i] < |nodes|
    requires k <= |cs|
    ensures |Preorder(nodes, cs[..k], lo)| == SpanSum(nodes, cs[..k])
  {
    var pre := cs[..k];
    forall i | 0 <= i < |pre| ensures lo < pre[i] < |nodes| {
      assert pre[i] == cs[i];
    }
    PreorderLength(nodes, pre, lo);
  }

  lemma IndexInSplit(whole: seq<NodeId>, a: seq<NodeId>, b: seq<NodeId>, c: seq<NodeId>, n: int, j: nat)
    requires whole == a + b + c && |a| == n && j < |b|
    ensures 0 <= n + j < |whole| && whole[n + j] == b[j]
  {
    IndexInMiddle(a, b, c, j);
  }

  /** The pre-order list of cs around cs[k]: the siblings before it, its run, the siblings after it. */
  lemma PreorderSplitAt(nodes: seq<Node>, cs: seq<NodeId>, lo: nat, k: nat)
    requires WellFormed(nodes)
    requires forall i :: 0 <= i < |cs| ==> lo < cs[i] < |nodes|
    requires k < |cs|
    ensures Preorder(nodes, cs, lo) ==
              Preorder(nodes, cs[..k], lo) + ([cs[k]] + Flatten(nodes, cs[k])) + Preorder(nodes, cs[k + 1..], lo)
  {
    var right := cs[k..];
    TakeDropAt(cs, k);
    PreorderAppend(nodes, cs[..k], right, lo);
    PreorderUnfold(nodes, right, lo);
  }

  lemma TakeDropAt(cs: seq<NodeId>, k: nat)
    requires k < |cs|
    ensures cs == cs[..k] + cs[k..] && cs[k..] != [] && cs[k..][0] == cs[k] && cs[k..][1..] == cs[k + 1..]
  {
  }

  lemma IndexInMiddle(a: seq<NodeId>, b: seq<NodeId>, c: seq<NodeId>, j: nat)
    requires j < |b|
    ensures |a| + j < |a + b + c| && (a + b + c)[|a| + j] == b[j]
  {
  }

  lemma LeafPrefixSum(nodes: seq<Node>, cs: seq<NodeId>, k: nat)
    requires forall i :: 0 <= i < |cs| ==> cs[i] < |nodes| && nodes[cs[i]].descendantCount == 0
    requires k <= |cs|
    ensures SpanSum(nodes, cs[..k]) == k
  {
    var pre := cs[..k];
    assert forall i :: 0 <= i < |pre| ==> pre[i] == cs[i];
    SpanSumLowerBound(nodes, pre);
  }

  /** Under the invariant and agreeing paths, indexInParent is the sum over the preceding siblings. */
  lemma IndexInParentIsPrefixSum(nodes: seq<Node>, x: NodeId)
    requires WellFormed(nodes) && Counted(nodes) && PathsAgree(nodes)
    requires x < |nodes| && nodes[x].parent.Some?
    ensures var cs := Children(nodes, Parent(nodes, x).value);
            x in cs && IndexInParent(nodes, x) == SpanSum(nodes, cs[..PositionIn(cs, x)])
  {
    var p := Parent(nodes, x).value;
    var cs := Children(nodes, p);
    var k := PositionIn(cs, x);
    if !ChildrenHaveDescendants(nodes, p) {
      assert RowAgrees(nodes, x);
      var row := nodes[x].row.value;
      assert row != [] && row[|row| - 1] == k;
      LeafSiblingsSum(nodes, p, k);
    }
  }

  /** When no child of p has descendants, the sum over the first k children is k. */
  lemma LeafSiblingsSum(nodes: seq<Node>, p: NodeId, k: nat)
    requires WellFormed(nodes) && Counted(nodes) && p < |nodes|
    requires !ChildrenHaveDescendants(nodes, p) && k <= |Children(nodes, p)|
    ensures SpanSum(nodes, Children(nodes, p)[..k]) == k
  {
    var cs := Children(nodes, p);
    assert CountedAt(nodes, p);
    forall i | 0 <= i < |cs| ensures nodes[cs[i]].descendantCount >= 0 {
      CountsNonNegative(nodes, cs[i]);
    }
    SpanSumLowerBound(nodes, cs);
    LeafPrefixSum(nodes, cs, k);
  }

  /**
   * Above a row, its whole pre-order run ([x] followed by its flattened
   * subtree) sits in the top element's flattened list starting at x's
   * accessibilityIndex.
   */
  lemma {:induction false} SubtreeRunAtAccessibilityIndex(nodes: seq<Node>, x: NodeId, j: nat)
    requires WellFormed(nodes) && Counted(nodes) && PathsAgree(nodes)
    requires x < |nodes| && nodes[x].parent.Some?
    requires j < 1 + |Flatten(nodes, x)|
    ensures 0 <= AccessibilityIndex(nodes, x) + j < |Flatten(nodes, Top(nodes, x))|
    ensures Flatten(nodes, Top(nodes, x))[AccessibilityIndex(nodes, x) + j] == ([x] + Flatten(nodes, x))[j]
    decreases x
  {
    var p := nodes[x].parent.value;
    var i := 1 + IndexInParent(nodes, x) + j;
    RunInParentRun(nodes, x, j);
    if nodes[p].parent.Some? {
      SubtreeRunAtAccessibilityIndex(nodes, p, i);
    }
    RunStepUp(nodes, x, j);
  }

  /** One step of SubtreeRunAtAccessibilityIndex: from the parent's run to x's. */
  lemma RunStepUp(nodes: seq<Node>, x: NodeId, j: nat)
    requires WellFormed(nodes) && Counted(nodes) && PathsAgree(nodes)
    requires x < |nodes| && nodes[x].parent.Some?
    requires j < 1 + |Flatten(nodes, x)|
    requires var p := nodes[x].parent.value;
             var i := 1 + IndexInParent(nodes, x) + j;
             p < |nodes| && 0 <= i < 1 + |Flatten(nodes, p)| && nodes[p].parent.Some? ==>
               0 <= AccessibilityIndex(nodes, p) + i < |Flatten(nodes, Top(nodes, p))| &&
               Flatten(nodes, Top(nodes, p))[AccessibilityIndex(nodes, p) + i] == ([p] + Flatten(nodes, p))[i]
    ensures 0 <= AccessibilityIndex(nodes, x) + j < |Flatten(nodes, Top(nodes, x))|
    ensures Flatten(nodes, Top(nodes, x))[AccessibilityIndex(nodes, x) + j] == ([x] + Flatten(nodes, x))[j]
  {
    var p := nodes[x].parent.value;
    var i := 1 + IndexInParent(nodes, x) + j;
    RunInParentRun(nodes, x, j);
    var at := AccessibilityIndex(nodes, x) + j;
    assert at == AccessibilityIndex(nodes, p) + i;
    assert Top(nodes, x) == Top(nodes, p);
    if nodes[p].parent.None? {
      assert Top(nodes, p) == p && at == i - 1;
    }
  }

  /** The run of x sits in its parent's run right after the indexInParent elements before it. */
  lemma RunInParentRun(nodes: seq<Node>, x: NodeId, j: nat)
    requires WellFormed(nodes) && Counted(nodes) && PathsAgree(nodes)
    requires x < |nodes| && nodes[x].parent.Some?
    requires j < 1 + |Flatten(nodes, x)|
    ensures var p := nodes[x].parent.value;
            p < x && 0 <= IndexInParent(nodes, x) && 1 + IndexInParent(nodes, x) + j < 1 + |Flatten(nodes, p)| &&
            ([p] + Flatten(nodes, p))[1 + IndexInParent(nodes, x) + j] == ([x] + Flatten(nodes, x))[j]
  {
    var p := Parent(nodes, x).value;
    var cs := Children(nodes, p);
    var k := PositionIn(cs, x);
    IndexInParentIsPrefixSum(nodes, x);
    var at := SpanSum(nodes, cs[..k]);
    var f := Flatten(nodes, p);
    assert f == Preorder(nodes, cs, p);
    PreorderRunAt(nodes, cs, p, k, j);
    PrefixPreorderLength(nodes, cs, p, k);
    assert f[at + j] == ([x] + Flatten(nodes, x))[j];
    assert ([p] + f)[1 + at + j] == f[at + j];
  }

  /**
   * accessibilityIndex of an attached row is its position in the flattened
   * list of the tree it belongs to (the fake root's flattenTree).
   */
  lemma AccessibilityIndexIsFlattenPosition(nodes: seq<Node>, x: NodeId)
    requires WellFormed(nodes) && Counted(nodes) && PathsAgree(nodes)
    requires x < |nodes| && nodes[x].parent.Some?
    ensures 0 <= AccessibilityIndex(nodes, x) < |Flatten(nodes, Top(nodes, x))|
    ensures Flatten(nodes, Top(nodes, x))[AccessibilityIndex(nodes, x)] == x
  {
    var run := [x] + Flatten(nodes, x);
    assert run[0] == x;
    SubtreeRunAtAccessibilityIndex(nodes, x, 0);
  }
}

=== FILE: subtrees.dfy ===
/**
 * What the pre-order list and the path lookup of the row tree contain, and
 * which parts of the state they depend on.  These are the facts the tree
 * view relies on when it tears a subtree down or builds the tree row by row.
 */
module Subtrees {
  import opened Wrappers
  import opened TreePaths
  import opened RowTree

  lemma {:induction false} AncestorTransitive(nodes: seq<Node>, a: NodeId, b: NodeId, x: NodeId)
    requires WellFormed(nodes) && b < |nodes| && x < |nodes|
    requires IsAncestorOrSelf(nodes, a, b) && IsAncestorOrSelf(nodes, b, x)
    ensures IsAncestorOrSelf(nodes, a, x)
    decreases x
  {
    if x != b {
      AncestorTransitive(nodes, a, b, Parent(nodes, x).value);
    }
  }

  /** A proper descendant of a lies below exactly one child of a. */
  lemma {:induction false} BelowSomeChild(nodes: seq<Node>, a: NodeId, x: NodeId)
    requires WellFormed(nodes) && a < |nodes| && x < |nodes|
    requires IsAncestorOrSelf(nodes, a, x) && x != a
    ensures exists k :: 0 <= k < |Children(nodes, a)| && IsAncestorOrSelf(nodes, Children(nodes, a)[k], x)
    decreases x
  {
    var p := Parent(nodes, x).value;
    if p == a {
      var k := PositionIn(Children(nodes, a), x);
      assert IsAncestorOrSelf(nodes, Children(nodes, a)[k], x);
    } else {
      BelowSomeChild(nodes, a, p);
      var k :| 0 <= k < |Children(nodes, a)| && IsAncestorOrSelf(nodes, Children(nodes, a)[k], p);
      assert IsAncestorOrSelf(nodes, Children(nodes, a)[k], x);
    }
  }

  lemma ChildIsBelow(nodes: seq<Node>, a: NodeId, c: NodeId, x: NodeId)
    requires WellFormed(nodes) && a < |nodes| && c < |nodes| && x < |nodes|
    requires c in Children(nodes, a) && IsAncestorOrSelf(nodes, c, x)
    ensures IsAncestorOrSelf(nodes, a, x) && x != a
  {
    assert IsAncestorOrSelf(nodes, a, c);
    AncestorTransitive(nodes, a, c, x);
    if x == a {
      AncestorIsOlder(nodes, c, x);
    }
  }

  /** The pre-order list of a run of siblings holds exactly the elements at or below one of them. */
  lemma {:induction false} PreorderMembers(nodes: seq<Node>, cs: seq<NodeId>, lo: nat, x: NodeId)
    requires WellFormed(nodes) && x < |nodes|
    requires forall i :: 0 <= i < |cs| ==> lo < cs[i] < |nodes|
    ensures x in Preorder(nodes, cs, lo) <==> exists j :: 0 <= j < |cs| && IsAncestorOrSelf(nodes, cs[j], x)
    decreases |nodes| - lo, |cs|
  {
    if cs != [] {
      var c := cs[0];
      PreorderUnfold(nodes, cs, lo);
      PreorderMembers(nodes, Children(nodes, c), c, x);
      PreorderMembers(nodes, cs[1..], lo, x);
      SelfOrBelowChild(nodes, c, x);
      SomeAboveSplit(nodes, cs, x);
    }
  }

  /** c is x or above it exactly when x is c or lies at or below one of c's children. */
  lemma SelfOrBelowChild(nodes: seq<Node>, c: NodeId, x: NodeId)
    requires WellFormed(nodes) && c < |nodes| && x < |nodes|
    ensures var kids := Children(nodes, c);
            IsAncestorOrSelf(nodes, c, x) <==>
              x == c || exists k :: 0 <= k < |kids| && IsAncestorOrSelf(nodes, kids[k], x)
  {
    var kids := Children(nodes, c);
    if IsAncestorOrSelf(nodes, c, x) && x != c {
      BelowSomeChild(nodes, c, x);
    }
    if exists k :: 0 <= k < |kids| && IsAncestorOrSelf(nodes, kids[k], x) {
      var k :| 0 <= k < |kids| && IsAncestorOrSelf(nodes, kids[k], x);
      ChildIsBelow(nodes, c, kids[k], x);
    }
  }

  /** Some element of a non-empty run is at or above x: the first one, or one of the rest. */
  lemma SomeAboveSplit(nodes: seq<Node>, cs: seq<NodeId>, x: NodeId)
    requires WellFormed(nodes) && x < |nodes| && cs != []
    ensures (exists j :: 0 <= j < |cs| && IsAncestorOrSelf(nodes, cs[j], x)) <==>
            IsAncestorOrSelf(nodes, cs[0], x) || exists j :: 0 <= j < |cs[1..]| && IsAncestorOrSelf(nodes, cs[1..][j], x)
  {
    var rest := cs[1..];
    if exists j :: 0 <= j < |cs| && IsAncestorOrSelf(nodes, cs[j], x) {
      var j :| 0 <= j < |cs| && IsAncestorOrSelf(nodes, cs[j], x);
      if j > 0 {
        assert rest[j - 1] == cs[j];
      }
    }
    if exists j :: 0 <= j < |rest| && IsAncestorOrSelf(nodes, rest[j], x) {
      var j :| 0 <= j < |rest| && IsAncestorOrSelf(nodes, rest[j], x);
      assert cs[j + 1] == rest[j];
    }
  }

  /** flattenTree lists exactly the proper descendants of n. */
  lemma FlattenMembers(nodes: seq<Node>, n: NodeId, x: NodeId)
    requires WellFormed(nodes) && n < |nodes| && x < |nodes|
    ensures x in Flatten(nodes, n) <==> x != n && IsAncestorOrSelf(nodes, n, x)
  {
    var cs := Children(nodes, n);
    PreorderMembers(nodes, cs, n, x);
    if x != n && IsAncestorOrSelf(nodes, n, x) {
      BelowSomeChild(nodes, n, x);
    }
    if exists j :: 0 <= j < |cs| && IsAncestorOrSelf(nodes, cs[j], x) {
      var j :| 0 <= j < |cs| && IsAncestorOrSelf(nodes, cs[j], x);
      ChildIsBelow(nodes, n, cs[j], x);
    }
  }

  /** An element without a parent is listed in no element's flattened tree. */
  lemma DetachedNotListed(nodes: seq<Node>, n: NodeId, x: NodeId)
    requires WellFormed(nodes) && n < |nodes| && x < |nodes| && nodes[x].parent.None?
    ensures x !in Flatten(nodes, n)
  {
    FlattenMembers(nodes, n, x);
  }

  /** The element a path leads to from r lies below r. */
  lemma {:induction false} LookupIsBelow(nodes: seq<Node>, r: NodeId, p: Path)
    requires WellFormed(nodes) && r < |nodes| && p != []
    ensures Lookup(nodes, r, p).Some? ==>
              Lookup(nodes, r, p).value != r && IsAncestorOrSelf(nodes, r, Lookup(nodes, r, p).value)
    decreases |p|
  {
    var child := ChildAtIndex(nodes, r, p[0]);
    if child.Some? {
      ChildIsBelow(nodes, r, child.value, child.value);
      if |p| > 1 {
        LookupIsBelow(nodes, child.value, p[1..]);
        var x := Lookup(nodes, child.value, p[1..]);
        if x.Some? {
          ChildIsBelow(nodes, r, child.value, x.value);
        }
      }
    }
  }

  /** A lookup that reaches x reads only the children of elements older than x. */
  lemma {:induction false} LookupFrame(s: seq<Node>, t: seq<Node>, r: NodeId, p: Path, x: NodeId)
    requires WellFormed(s) && WellFormed(t) && r < |s| <= |t| && p != []
    requires Lookup(s, r, p) == Some(x)
    requires forall m :: 0 <= m < x ==> Children(t, m) == Children(s, m)
    ensures Lookup(t, r, p) == Some(x)
    decreases |p|
  {
    assert Children(t, r) == Children(s, r);
    if |p| > 1 {
      LookupFrame(s, t, ChildAtIndex(s, r, p[0]).value, p[1..], x);
    }
  }

  /**
   * A pre-order list over elements newer than lo reads only the children of
   * elements newer than lo, all of which lie below the elements it starts from.
   */
  lemma {:induction false} PreorderFrame(s: seq<Node>, t: seq<Node>, cs: seq<NodeId>, lo: nat)
    requires WellFormed(s) && WellFormed(t) && |s| <= |t|
    requires forall m :: lo < m < |s| ==> Children(t, m) == Children(s, m)
    requires forall i :: 0 <= i < |cs| ==> lo < cs[i] < |s|
    ensures Preorder(t, cs, lo) == Preorder(s, cs, lo)
    decreases |s| - lo, |cs|
  {
    if cs != [] {
      PreorderFrame(s, t, Children(s, cs[0]), cs[0]);
      PreorderFrame(s, t, cs[1..], lo);
    }
  }

  /**
   * Ancestry above x survives any change of parent pointers that only
   * detaches elements outside x's subtree.
   */
  lemma {:induction false} SubtreeKept(s: seq<Node>, t: seq<Node>, x: NodeId, m: NodeId)
    requires WellFormed(s) && WellFormed(t) && |s| == |t| && m < |s|
    requires forall y :: 0 <= y < |s| ==>
               t[y].parent == s[y].parent || (t[y].parent.None? && !IsAncestorOrSelf(s, x, y))
    ensures IsAncestorOrSelf(t, x, m) == IsAncestorOrSelf(s, x, m)
    decreases m
  {
    if m != x && t[m].parent == s[m].parent && t[m].parent.Some? {
      SubtreeKept(s, t, x, Parent(s, m).value);
    }
  }

  /** Two elements above a third are ordered by ancestry. */
  lemma {:induction false} AncestorsComparable(nodes: seq<Node>, a: NodeId, b: NodeId, x: NodeId)
    requires WellFormed(nodes) && a < |nodes| && b < |nodes| && x < |nodes|
    requires IsAncestorOrSelf(nodes, a, x) && IsAncestorOrSelf(nodes, b, x)
    ensures IsAncestorOrSelf(nodes, a, b) || IsAncestorOrSelf(nodes, b, a)
    decreases x
  {
    if x != a && x != b {
      AncestorsComparable(nodes, a, b, Parent(nodes, x).value);
    }
  }

  /** The subtrees of two different siblings share no element. */
  lemma SiblingSubtreesDisjoint(nodes: seq<Node>, p: NodeId, i: nat, j: nat, x: NodeId)
    requires WellFormed(nodes) && p < |nodes| && x < |nodes|
    requires i < |Children(nodes, p)| && j < |Children(nodes, p)| && i != j
    ensures !(IsAncestorOrSelf(nodes, Children(nodes, p)[i], x) && IsAncestorOrSelf(nodes, Children(nodes, p)[j], x))
  {
    var cs := Children(nodes, p);
    ChildrenNoDup(nodes, p);
    NoDupAt(cs, i, j);
    if IsAncestorOrSelf(nodes, cs[i], x) && IsAncestorOrSelf(nodes, cs[j], x) {
      AncestorsComparable(nodes, cs[i], cs[j], x);
      if IsAncestorOrSelf(nodes, cs[i], cs[j]) {
        assert Parent(nodes, cs[j]) == Some(p);
        AncestorIsOlder(nodes, cs[i], p);
      } else {
        assert Parent(nodes, cs[i]) == Some(p);
        AncestorIsOlder(nodes, cs[j], p);
      }
      assert false;
    }
  }

  /** Looking up one more position continues from the element the shorter path reaches. */
  lemma {:induction false} LookupSnoc(nodes: seq<Node>, r: NodeId, q: Path, k: nat)
    requires WellFormed(nodes) && r < |nodes| && q != []
    ensures Lookup(nodes, r, q + [k]) ==
              match Lookup(nodes, r, q)
              case None => None
              case Some(x) => ChildAtIndex(nodes, x, k)
    decreases |q|
  {
    var child := ChildAtIndex(nodes, r, q[0]);
    assert (q + [k])[0] == q[0];
    if |q| == 1 {
      assert (q + [k])[1..] == [k];
    } else if child.Some? {
      assert (q + [k])[1..] == q[1..] + [k];
      LookupSnoc(nodes, child.value, q[1..], k);
    }
  }

  /** Appending to a sequence does not move the elements already in it. */
  lemma {:induction false} PositionInSnoc(cs: seq<NodeId>, y: NodeId, x: NodeId)
    requires x in cs
    ensures PositionIn(cs + [y], x) == PositionIn(cs, x)
  {
    if cs[0] != x {
      assert (cs + [y])[1..] == cs[1..] + [y];
      PositionInSnoc(cs[1..], y, x);
    }
  }

  /** Below a parentless element, that element is the top. */
  lemma {:induction false} TopOfDescendant(nodes: seq<Node>, a: NodeId, x: NodeId)
    requires WellFormed(nodes) && a < |nodes| && x < |nodes|
    requires nodes[a].parent.None? && IsAncestorOrSelf(nodes, a, x)
    ensures Top(nodes, x) == a
    decreases x
  {
    if x != a {
      TopOfDescendant(nodes, a, Parent(nodes, x).value);
    }
  }

  /** An element appended to a sequence that did not hold it sits at the end. */
  lemma {:induction false} PositionInLast(cs: seq<NodeId>, c: NodeId)
    requires c !in cs
    ensures PositionIn(cs + [c], c) == |cs|
  {
    if cs != [] {
      assert (cs + [c])[1..] == cs[1..] + [c];
      PositionInLast(cs[1..], c);
    }
  }
}

=== FILE: tree_columns.dfy ===
/**
 * The column elements of the tree view adapter: columns_changed rebuilds a
 * map from each tree view column to an accessibility element, numbering the
 * columns that have cell renderers in tree-view order.
 */
module TreeColumns {
  /** The identity of a GtkTreeViewColumn. */
  type ColumnId = nat

  /** A tree view column and whether its cell layout holds any renderer. */
  datatype TreeColumn = TreeColumn(id: ColumnId, hasRenderers: bool)

  /** An ACAccessibilityTreeColumnElement: the column it stands for and its index. */
  datatype ColumnElement = ColumnElement(column: ColumnId, index: nat)

  /** The columns columns_changed gives an element: those with renderers, in order. */
  function Kept(columns: seq<TreeColumn>): (r: seq<TreeColumn>)
    ensures |r| <= |columns|
  {
    if columns == [] then []
    else
      var last := columns[|columns| - 1];
      Kept(columns[..|columns| - 1]) + (if last.hasRenderers then [last] else [])
  }

  /** A column keeps an element exactly when it has renderers. */
  lemma {:induction false} KeptMembers(columns: seq<TreeColumn>, c: TreeColumn)
    ensures c in Kept(columns) <==> c in columns && c.hasRenderers
  {
    if columns != [] {
      var init := columns[..|columns| - 1];
      KeptMembers(init, c);
      assert columns == init + [columns[|columns| - 1]];
    }
  }

  /** An id is the id of a kept column exactly when some column with renderers carries it. */
  lemma KeptColumnIds(columns: seq<TreeColumn>, id: ColumnId)
    ensures (exists i :: 0 <= i < |Kept(columns)| && Kept(columns)[i].id == id) <==>
            (exists i :: 0 <= i < |columns| && columns[i].id == id && columns[i].hasRenderers)
  {
    var kept := Kept(columns);
    if exists i :: 0 <= i < |kept| && kept[i].id == id {
      var i :| 0 <= i < |kept| && kept[i].id == id;
      KeptMembers(columns, kept[i]);
      var j :| 0 <= j < |columns| && columns[j] == kept[i];
    }
    if exists i :: 0 <= i < |columns| && columns[i].id == id && columns[i].hasRenderers {
      var i :| 0 <= i < |columns| && columns[i].id == id && columns[i].hasRenderers;
      KeptMembers(columns, columns[i]);
      var j :| 0 <= j < |kept| && kept[j] == columns[i];
    }
  }

  predicate DistinctIds(columns: seq<TreeColumn>)
  {
    forall i, j :: 0 <= i < j < |columns| ==> columns[i].id != columns[j].id
  }

  /** Dropping columns keeps the ids distinct. */
  lemma {:induction false} KeptDistinct(columns: seq<TreeColumn>)
    requires DistinctIds(columns)
    ensures DistinctIds(Kept(columns))
  {
    if columns != [] {
      var init := columns[..|columns| - 1];
      var last := columns[|columns| - 1];
      KeptDistinct(init);
      KeptMembers(init, last);
      var k := Kept(init);
      forall i | 0 <= i < |k| ensures k[i].id != last.id {
        KeptMembers(init, k[i]);
        var j :| 0 <= j < |init| && init[j] == k[i];
      }
    }
  }

  /** The map columns_changed builds over the kept columns: the i-th maps to an element with index i. */
  function ColumnMapOf(kept: seq<TreeColumn>): map<ColumnId, ColumnElement>
  {
    if kept == [] then map[]
    else
      var last := kept[|kept| - 1];
      ColumnMapOf(kept[..|kept| - 1])[last.id := ColumnElement(last.id, |kept| - 1)]
  }

  /** Every element in a column map stands for the column it is filed under. */
  predicate Consistent(columnMap: map<ColumnId, ColumnElement>)
  {
    forall k :: k in columnMap ==> columnMap[k].column == k
  }

  /** One more column of the loop in columns_changed: a column with renderers is filed with the next index. */
  lemma ColumnMapStep(columns: seq<TreeColumn>, k: nat)
    requires k < |columns|
    ensures var c := columns[k];
            var kept := Kept(columns[..k]);
            Kept(columns[..k + 1]) == kept + (if c.hasRenderers then [c] else []) &&
            ColumnMapOf(Kept(columns[..k + 1])) ==
              if c.hasRenderers then ColumnMapOf(kept)[c.id := ColumnElement(c.id, |kept|)] else ColumnMapOf(kept)
  {
    assert columns[..k + 1][..k] == columns[..k];
    var kept := Kept(columns[..k]);
    if columns[k].hasRenderers {
      var next := kept + [columns[k]];
      assert Kept(columns[..k + 1]) == next;
      assert next[..|next| - 1] == kept && next[|next| - 1] == columns[k];
      assert ColumnMapOf(next) == ColumnMapOf(kept)[columns[k].id := ColumnElement(columns[k].id, |kept|)];
    } else {
      assert Kept(columns[..k + 1]) == kept;
    }
  }

  /** Whatever the columns, the rebuilt map files every element under its own column. */
  lemma {:induction false} ColumnMapConsistent(kept: seq<TreeColumn>)
    ensures Consistent(ColumnMapOf(kept))
  {
    if kept != [] {
      ColumnMapConsistent(kept[..|kept| - 1]);
    }
  }

  /**
   * The rebuilt map files exactly the kept columns, each under its own id with
   * its position among the kept columns as index.
   */
  lemma {:induction false} ColumnMapIndices(kept: seq<TreeColumn>)
    requires DistinctIds(kept)
    ensures Consistent(ColumnMapOf(kept))
    ensures forall k :: k in ColumnMapOf(kept) <==> exists i :: 0 <= i < |kept| && kept[i].id == k
    ensures forall i :: 0 <= i < |kept| ==> ColumnMapOf(kept)[kept[i].id] == ColumnElement(kept[i].id, i)
  {
    if kept != [] {
      var init := kept[..|kept| - 1];
      ColumnMapIndices(init);
      forall k | k in ColumnMapOf(kept) ensures exists i :: 0 <= i < |kept| && kept[i].id == k {
        if k != kept[|kept| - 1].id {
          var i :| 0 <= i < |init| && init[i].id == k;
          assert kept[i] == init[i];
        }
      }
      forall k | exists i :: 0 <= i < |kept| && kept[i].id == k ensures k in ColumnMapOf(kept) {
        var i :| 0 <= i < |kept| && kept[i].id == k;
        if i < |init| {
          assert init[i] == kept[i];
        }
      }
      forall i | 0 <= i < |kept| - 1 ensures ColumnMapOf(kept)[kept[i].id] == ColumnElement(kept[i].id, i) {
        assert init[i] == kept[i];
      }
    }
  }
}

=== FILE: tree_paths.dfy ===
/**
 * Tree paths and their string form.
 *
 * A GtkTreePath is a list of child positions; gtk_tree_path_to_string writes
 * it as decimal numbers joined by ':' ("2:0:5") and yields NULL for the empty
 * path.  The row tree reads such strings back in two ways: last_path_index
 * takes the number after the last ':', and childAtPath walks the segments from
 * the front, both through C's atoi.
 */
module TreePaths {
  import opened Wrappers

  type Path = seq<nat>

  predicate IsDigit(c: char) { '0' <= c <= '9' }

  /** isspace in the C locale: blank, tab, newline, vertical tab, form feed, return. */
  predicate IsSpace(c: char) { c == ' ' || '\t' <= c <= '\r' }

  predicate AllDigits(s: string) { forall i :: 0 <= i < |s| ==> IsDigit(s[i]) }

  function DigitChar(d: nat): (c: char)
    requires d < 10
    ensures IsDigit(c) && c as int - '0' as int == d
  {
    ('0' as int + d) as char
  }

  /** Decimal notation of n, most significant digit first, no leading zeros. */
  function Decimal(n: nat): (s: string)
    ensures |s| > 0 && AllDigits(s)
  {
    if n < 10 then [DigitChar(n)] else Decimal(n / 10) + [DigitChar(n % 10)]
  }

  /** The number a string of digits denotes. */
  function DigitsValue(s: string): nat
    requires AllDigits(s)
  {
    if s == [] then 0 else DigitsValue(s[..|s| - 1]) * 10 + (s[|s| - 1] as int - '0' as int)
  }

  lemma {:induction false} DecimalValue(n: nat)
    ensures DigitsValue(Decimal(n)) == n
  {
    if n >= 10 {
      DecimalValue(n / 10);
      var s := Decimal(n);
      assert s[..|s| - 1] == Decimal(n / 10);
    }
  }

  /** The longest prefix of s made of digits: the characters atoi consumes. */
  function DigitPrefix(s: string): (p: string)
    ensures |p| <= |s| && p == s[..|p|] && AllDigits(p)
    ensures |p| < |s| ==> !IsDigit(s[|p|])
  {
    if s != [] && IsDigit(s[0]) then [s[0]] + DigitPrefix(s[1..]) else []
  }

  /** What is left of s after its leading white space. */
  function SkipSpaces(s: string): (t: string)
    ensures |t| <= |s|
    ensures t != [] ==> !IsSpace(t[0])
  {
    if s != [] && IsSpace(s[0]) then SkipSpaces(s[1..]) else s
  }

  /**
   * C's atoi: leading white space, an optional sign, then as many digits as
   * follow; no digits at all give 0.  Values outside the C int range (where
   * atoi is undefined) are not modelled: the result is the exact integer.
   */
  function Atoi(s: string): int
  {
    var t := SkipSpaces(s);
    if t != [] && t[0] == '-' then -(DigitsValue(DigitPrefix(t[1..])) as int)
    else if t != [] && t[0] == '+' then DigitsValue(DigitPrefix(t[1..]))
    else DigitsValue(DigitPrefix(t))
  }

  lemma {:induction false} DigitPrefixOfDigits(d: string, rest: string)
    requires AllDigits(d)
    requires rest == [] || !IsDigit(rest[0])
    ensures DigitPrefix(d + rest) == d
  {
    if d != [] {
      assert (d + rest)[1..] == d[1..] + rest;
      DigitPrefixOfDigits(d[1..], rest);
    } else {
      assert d + rest == rest;
    }
  }

  /** atoi reads back every number that Decimal writes, whatever non-digit follows it. */
  lemma AtoiOfDecimal(n: nat, rest: string)
    requires rest == [] || !IsDigit(rest[0])
    ensures Atoi(Decimal(n) + rest) == n
  {
    var d := Decimal(n);
    var s := d + rest;
    assert s[0] == d[0] && IsDigit(d[0]);
    assert !IsSpace(s[0]) && s[0] != '-' && s[0] != '+';
    assert SkipSpaces(s) == s;
    DigitPrefixOfDigits(d, rest);
    DecimalValue(n);
  }

  /** The string of a non-empty path: its indices in decimal, joined by ':'. */
  function JoinPath(p: Path): (s: string)
    requires p != []
    ensures s != [] && IsDigit(s[0])
  {
    if |p| == 1 then Decimal(p[0]) else Decimal(p[0]) + ":" + JoinPath(p[1..])
  }

  /** gtk_tree_path_to_string: NULL for the empty path. */
  function FormatPath(p: Path): (s: Option<string>)
    ensures s.None? <==> p == []
  {
    if p == [] then None else Some(JoinPath(p))
  }

  /**
   * What follows the last ':' of s, or all of s when it has none: the text
   * last_path_index hands to atoi after strrchr.
   */
  function AfterLastColon(s: string): (r: string)
    ensures |r| <= |s| && r == s[|s| - |r|..] && ':' !in r
    ensures |r| < |s| ==> s[|s| - |r| - 1] == ':'
  {
    if s == [] then []
    else if s[|s| - 1] == ':' then []
    else AfterLastColon(s[..|s| - 1]) + [s[|s| - 1]]
  }

  /** last_path_index: -1 for NULL, otherwise atoi of the last segment. */
  function LastPathIndex(s: Option<string>): (r: int)
    ensures s.None? ==> r == -1
    ensures s.Some? && ':' !in s.value ==> r == Atoi(s.value)
    ensures s.Some? && ':' in s.value ==>
              exists k :: 0 <= k < |s.value| && s.value[k] == ':' && ':' !in s.value[k + 1..] && r == Atoi(s.value[k + 1..])
  {
    match s
    case None => -1
    case Some(t) => Atoi(AfterLastColon(t))
  }

  lemma {:induction false} AfterLastColonSkipsPrefix(x: string, y: string)
    ensures AfterLastColon(x + [':'] + y) == AfterLastColon(y)
    decreases |y|
  {
    if y == [] {
      assert x + [':'] + y == x + [':'];
      AfterLastColonSnoc(x, ':');
    } else {
      var y' := y[..|y| - 1];
      var c := y[|y| - 1];
      assert y == y' + [c];
      assert x + [':'] + y == (x + [':'] + y') + [c];
      AfterLastColonSkipsPrefix(x, y');
      AfterLastColonSnoc(x + [':'] + y', c);
      AfterLastColonSnoc(y', c);
    }
  }

  /** One more character: a ':' empties the last segment, anything else extends it. */
  lemma AfterLastColonSnoc(s: string, c: char)
    ensures AfterLastColon(s + [c]) == if c == ':' then [] else AfterLastColon(s) + [c]
  {
    var w := s + [c];
    assert w[|w| - 1] == c && w[..|w| - 1] == s;
  }

  lemma NoColonInDecimal(n: nat)
    ensures ':' !in Decimal(n)
  {
    var d := Decimal(n);
    forall i | 0 <= i < |d| ensures d[i] != ':' { assert IsDigit(d[i]); }
  }

  lemma AfterLastColonWithoutColon(s: string)
    requires ':' !in s
    ensures AfterLastColon(s) == s
  {
    var r := AfterLastColon(s);
    if |r| < |s| {
      assert false;
    }
  }

  lemma {:induction false} AfterLastColonOfJoin(p: Path)
    requires p != []
    ensures AfterLastColon(JoinPath(p)) == Decimal(p[|p| - 1])
  {
    if |p| > 1 {
      var tail := p[1..];
      AfterLastColonOfJoin(tail);
      assert tail[|tail| - 1] == p[|p| - 1];
      assert JoinPath(p) == Decimal(p[0]) + [':'] + JoinPath(tail);
      AfterLastColonSkipsPrefix(Decimal(p[0]), JoinPath(tail));
    } else {
      NoColonInDecimal(p[0]);
      AfterLastColonWithoutColon(Decimal(p[0]));
    }
  }

  /** last_path_index undoes gtk_tree_path_to_string on the last index of a path. */
  lemma LastPathIndexOfFormat(p: Path)
    ensures LastPathIndex(FormatPath(p)) == if p == [] then -1 else p[|p| - 1]
  {
    if p != [] {
      AfterLastColonOfJoin(p);
      AtoiOfDecimal(p[|p| - 1], []);
      assert Decimal(p[|p| - 1]) + [] == Decimal(p[|p| - 1]);
    }
  }

  /**
   * The split childAtPath makes: the text before the first ':' and, when
   * there is a ':', the text after it.
   */
  function SplitFirstSegment(s: string): (r: (string, Option<string>))
    ensures ':' !in r.0
    ensures s == r.0 + (if r.1.None? then [] else [':'] + r.1.value)
  {
    if s == [] then ([], None)
    else if s[0] == ':' then ([], Some(s[1..]))
    else
      var (seg, rest) := SplitFirstSegment(s[1..]);
      ([s[0]] + seg, rest)
  }

  lemma SplitFirstSegmentAtColon(x: string, y: string)
    requires ':' !in x
    ensures SplitFirstSegment(x + [':'] + y) == (x, Some(y))
  {
    var s := x + [':'] + y;
    var r := SplitFirstSegment(s);
    var seg := r.0;
    assert s[|x|] == ':';
    if r.1.None? {
      assert false;
    }
    assert s == seg + [':'] + r.1.value;
    assert s[|seg|] == ':';
    assert forall i :: 0 <= i < |x| ==> s[i] == x[i];
    assert forall i :: 0 <= i < |seg| ==> s[i] == seg[i];
    assert |seg| == |x|;
    assert seg == s[..|x|] == x;
    assert r.1.value == s[|x| + 1..] == y;
  }

  lemma SplitFirstSegmentNoColon(x: string)
    requires ':' !in x
    ensures SplitFirstSegment(x) == (x, None)
  {
    var r := SplitFirstSegment(x);
    if r.1.Some? {
      assert false;
    }
    assert r.0 + [] == r.0;
  }

  /** childAtPath's split of a formatted path yields its first index and the rest of the path. */
  lemma SplitJoinPath(p: Path)
    requires p != []
    ensures SplitFirstSegment(JoinPath(p)).0 == Decimal(p[0])
    ensures SplitFirstSegment(JoinPath(p)).1 == if |p| == 1 then None else Some(JoinPath(p[1..]))
    ensures Atoi(SplitFirstSegment(JoinPath(p)).0) == p[0]
  {
    var d := Decimal(p[0]);
    NoColonInDecimal(p[0]);
    if |p| == 1 {
      SplitFirstSegmentNoColon(d);
    } else {
      assert JoinPath(p) == d + [':'] + JoinPath(p[1..]);
      SplitFirstSegmentAtColon(d, JoinPath(p[1..]));
    }
    AtoiOfDecimal(p[0], []);
    assert d + [] == d;
  }

  /** gtk_tree_path_up on a path of depth at least one. */
  function ParentPath(p: Path): (q: Path)
    requires p != []
    ensures |q| == |p| - 1 && q + [p[|p| - 1]] == p
  {
    p[..|p| - 1]
  }
}

=== FILE: tree_view.dfy ===
/**
 * GailTreeView, the accessibility adapter of a GtkTreeView: it keeps a fake
 * root row element with one row element per materialised tree row below
 * it, a cache of the root's flattened rows, a dirty flag saying the cache is
 * stale, and a map from tree view columns to column elements.  The GTK
 * signal handlers edit that state; the class invariant says how the parts
 * fit together.
 */
module TreeView {
  import opened Wrappers
  import opened TreePaths
  import opened RowTree
  import RowEdits
  import opened RowElements
  import opened Subtrees
  import opened ModelTree
  import opened ViewState
  import opened TreeColumns
  import opened FirstBuild

  class GailTreeView {
    /** Every row element the adapter has made, with their links. */
    const rows: RowForest
    /** rowRootNode: the fake root row, NULL until the first add_rows and after destroy_root. */
    var rowRootNode: Option<NodeId>
    /** rowCache: the root's rows in flattened order, as last handed to the accessibility client. */
    var rowCache: Option<seq<NodeId>>
    var treeIsDirty: bool
    /** The pending idle source that refreshes the rows, 0 when none. */
    var rowUpdateId: nat
    var columnMap: Option<map<ColumnId, ColumnElement>>

    /**
     * The root and the cache exist together; without a root every element is
     * detached; with one, every attached element lies below it and a clean
     * cache is the root's flattened rows; every column element stands for
     * the column it is filed under.
     */
    ghost predicate Valid()
      reads this, rows
    {
      WellFormed(rows.nodes) && Counted(rows.nodes) &&
      (rowRootNode.Some? <==> rowCache.Some?) &&
      (match rowRootNode
       case None => AllDetached(rows.nodes)
       case Some(root) =>
         Rooted(rows.nodes, root) && (!treeIsDirty ==> rowCache.value == Flatten(rows.nodes, root))) &&
      (columnMap.Some? ==> Consistent(columnMap.value))
    }

    /** gail_tree_view_init and gail_tree_view_real_initialize: dirty, no root, an empty column map. */
    constructor ()
      ensures Valid() && fresh(rows) && rows.nodes == []
      ensures rowRootNode.None? && rowCache.None? && treeIsDirty && rowUpdateId == 0
      ensures columnMap == Some(map[])
    {
      rows := new RowForest();
      rowRootNode := None;
      rowCache := None;
      treeIsDirty := true;
      rowUpdateId := 0;
      columnMap := Some(map[]);
    }

    /** make_accessibility_element_for_row: a new, detached row element for the row at path. */
    method NewRowElement(path: Path) returns (element: NodeId)
      requires Valid()
      modifies rows
      ensures Valid() && rows.nodes == RowEdits.AddRow(old(rows.nodes), Some(path))
      ensures element == |old(rows.nodes)| && element + 1 == |rows.nodes|
      ensures rows.nodes[element].parent.None? && rows.nodes[element].children.None?
      ensures rowRootNode.Some? ==>
                Flatten(rows.nodes, rowRootNode.value) == Flatten(old(rows.nodes), rowRootNode.value)
    {
      match rowRootNode {
        case None => AddRowKeepsDetached(rows.nodes, Some(path));
        case Some(root) => AddRowKeepsRooted(rows.nodes, root, Some(path));
      }
      element := rows.NewRow(Some(path));
    }

    /**
     * get_row_from_row_map: the element the path leads to from the root; none
     * without a root or for the empty path.  A found row is in the root's
     * flattened rows.
     */
    function GetRowFromRowMap(path: Path): (r: Option<NodeId>)
      requires Valid()
      reads this, rows
      ensures r == match rowRootNode
                   case None => None
                   case Some(root) => FindRow(rows.nodes, root, path)
      ensures r.Some? ==> rowRootNode.Some? && r.value < |rows.nodes| && rows.nodes[r.value].parent.Some? &&
                          r.value in Flatten(rows.nodes, rowRootNode.value)
    {
      match rowRootNode
      case None => None
      case Some(root) =>
        ChildAtPathOfFormat(rows.nodes, root, path);
        FoundRowIsListed(rows.nodes, root, path);
        ChildAtPath(rows.nodes, root, FormatPath(path))
    }

    /**
     * add_row_to_row_map_with_path: a row deeper than the top level goes
     * below the element its parent path leads to, and nowhere (leaving the
     * dirty flag alone) when there is none; a top-level row goes below the
     * root.  The element is inserted at the last index of its path and the
     * cache becomes dirty.
     */
    method AddRowToRowMapWithPath(path: Path, element: NodeId) returns (parent: Option<NodeId>)
      requires Valid() && element + 1 == |rows.nodes|
      requires rows.nodes[element].parent.None? && rows.nodes[element].children.None?
      requires rowRootNode.Some? ==> rowRootNode.value < element
      modifies this, rows
      ensures Valid()
      ensures rowRootNode == old(rowRootNode) && rowCache == old(rowCache)
      ensures rowUpdateId == old(rowUpdateId) && columnMap == old(columnMap)
      ensures parent == match old(rowRootNode)
                        case None => None
                        case Some(root) => ParentFor(old(rows.nodes), root, path)
      ensures parent.Some? ==>
                parent.value < element &&
                rows.nodes == RowEdits.InsertChild(old(rows.nodes), parent.value, element,
                                                   if path == [] then -1 else path[|path| - 1])
      ensures parent.None? ==> rows.nodes == old(rows.nodes)
      ensures treeIsDirty == (old(treeIsDirty) || |path| <= 1 || parent.Some?)
    {
      var target: Option<NodeId>;
      if |path| > 1 {
        var parentPath := ParentPath(path);
        if rowRootNode.None? {
          return None;
        }
        ChildAtPathOfFormat(rows.nodes, rowRootNode.value, parentPath);
        target := ChildAtPath(rows.nodes, rowRootNode.value, FormatPath(parentPath));
        assert parentPath != [] && target == ParentFor(rows.nodes, rowRootNode.value, path);
        if target.None? {
          return None;
        }
      } else {
        target := rowRootNode;
      }
      var idx := LastPathIndex(FormatPath(path));
      LastPathIndexOfFormat(path);
      if target.Some? {
        var root := rowRootNode.value;
        ParentForIsBelow(rows.nodes, root, path);
        InsertFreshBelowRoot(rows.nodes, root, target.value, element, idx);
        rows.InsertChild(target.value, element, idx);
      }
      treeIsDirty := true;
      parent := target;
    }

    /**
     * add_row_to_tree: nothing without a root; otherwise add_row_to_row_map,
     * which does nothing for an element without a row path and otherwise
     * files the element under its path.
     */
    method AddRowToTree(child: NodeId)
      requires Valid() && child + 1 == |rows.nodes|
      requires rows.nodes[child].parent.None? && rows.nodes[child].children.None?
      requires rowRootNode.Some? ==> rowRootNode.value < child
      modifies this, rows
      ensures Valid()
      ensures rowRootNode == old(rowRootNode) && rowCache == old(rowCache)
      ensures rowUpdateId == old(rowUpdateId) && columnMap == old(columnMap)
      ensures old(rowRootNode).None? || old(rows.nodes)[child].row.None? ==>
                rows.nodes == old(rows.nodes) && treeIsDirty == old(treeIsDirty)
      ensures old(rowRootNode).Some? && old(rows.nodes)[child].row.Some? ==>
                var path := old(rows.nodes)[child].row.value;
                var parent := ParentFor(old(rows.nodes), old(rowRootNode).value, path);
                (parent.Some? ==>
                   parent.value < child &&
                   rows.nodes == RowEdits.InsertChild(old(rows.nodes), parent.value, child,
                                                      if path == [] then -1 else path[|path| - 1])) &&
                (parent.None? ==> rows.nodes == old(rows.nodes)) &&
                treeIsDirty == (old(treeIsDirty) || |path| <= 1 || parent.Some?)
    {
      if rowRootNode.None? {
        return;
      }
      var path := rows.nodes[child].row;
      if path.None? {
        return;
      }
      var _ := AddRowToRowMapWithPath(path.value, child);
    }

    /**
     * remove_row_from_row_map (and the row-map part of remove_row_from_tree):
     * the element leaves its parent and the cache becomes dirty.  Callers
     * only remove elements whose children are already gone.
     */
    method RemoveRowFromRowMap(row: NodeId)
      requires Valid() && row < |rows.nodes| && rows.nodes[row].children.None?
      modifies this, rows
      ensures Valid() && rows.nodes == RowEdits.RemoveFromParent(old(rows.nodes), row) && treeIsDirty
      ensures rowRootNode == old(rowRootNode) && rowCache == old(rowCache)
      ensures rowUpdateId == old(rowUpdateId) && columnMap == old(columnMap)
    {
      RawChildren(rows.nodes, row);
      assert CountedAt(rows.nodes, row);
      match Parent(rows.nodes, row) {
        case None =>
        case Some(p) =>
          RowEdits.RemoveChildAtIndexKeepsCounts(rows.nodes, p, PositionIn(Children(rows.nodes, p), row));
      }
      match rowRootNode {
        case None => RemoveKeepsDetached(rows.nodes, row);
        case Some(root) => RemoveLeafKeepsRooted(rows.nodes, root, row);
      }
      rows.RemoveFromParent(row);
      treeIsDirty := true;
    }

    /**
     * remove_all_children: cancels the pending row update, tears down the
     * subtree of every child (children first, each collected in order),
     * then takes each collected child out of the row map and frees the
     * element's sequence.  Every element strictly below n ends detached and
     * childless, n keeps its own parent, and nothing else changes; the cache
     * becomes dirty exactly when there was something to remove.
     */
    method RemoveAllChildren(n: NodeId)
      requires Valid() && n < |rows.nodes|
      modifies this, rows
      decreases |rows.nodes| - n
      ensures Valid() && TornDown(old(rows.nodes), rows.nodes, n)
      ensures rowRootNode == old(rowRootNode) && rowCache == old(rowCache) && columnMap == old(columnMap)
      ensures rowUpdateId == 0
      ensures treeIsDirty == (old(treeIsDirty) || old(rows.nodes)[n].children.Some?)
    {
      rowUpdateId := 0;
      ghost var s := rows.nodes;
      var cs := Children(rows.nodes, n);
      if cs == [] {
        TornDownLeaf(s, n);
        return;
      }
      // Tear down every child's subtree, collecting the children in order.
      PartlyTornStart(s);
      var i := 0;
      while i < |cs|
        invariant 0 <= i <= |cs|
        invariant Valid() && rowUpdateId == 0
        invariant rowRootNode == old(rowRootNode) && rowCache == old(rowCache) && columnMap == old(columnMap)
        invariant old(treeIsDirty) ==> treeIsDirty
        invariant PartlyTorn(s, rows.nodes, cs[..i])
      {
        ghost var u := rows.nodes;
        RemoveAllChildren(cs[i]);
        TearDownStep(s, u, rows.nodes, n, i);
        i := i + 1;
      }
      assert cs[..|cs|] == cs;
      RemoveCollectedChildren(s, n, cs);
    }

    /** The end of remove_all_children: the collected children leave the row map, then n's sequence is freed. */
    method RemoveCollectedChildren(ghost s: seq<Node>, n: NodeId, cs: seq<NodeId>)
      requires Valid() && WellFormed(s) && n < |s| && cs == Children(s, n) && cs != []
      requires PartlyTorn(s, rows.nodes, cs)
      modifies this, rows
      ensures Valid() && TornDown(s, rows.nodes, n) && treeIsDirty && rowUpdateId == old(rowUpdateId)
      ensures rowRootNode == old(rowRootNode) && rowCache == old(rowCache) && columnMap == old(columnMap)
    {
      ghost var s1 := rows.nodes;
      CollectedChildrenReady(s, s1, n);
      RemoveCollectedRows(n, cs);
      CollectedRemovedEnd(s1, rows.nodes, n);
      rows.RemoveAllChildren(n);
      TearDownFinish(s, s1, rows.nodes, n);
    }


    // ----- handlers that take rows away ---------------------------------------

    /**
     * destroy_root: with a root, everything below it is torn down, then the
     * root and the cache are dropped, leaving every element detached.
     */
    method DestroyRoot()
      requires Valid()
      modifies this, rows
      ensures Valid() && rowRootNode.None? && rowCache.None? && AllDetached(rows.nodes)
      ensures columnMap == old(columnMap)
      ensures old(rowRootNode).None? ==>
                rows.nodes == old(rows.nodes) && rowUpdateId == old(rowUpdateId) && treeIsDirty == old(treeIsDirty)
      ensures old(rowRootNode).Some? ==>
                var root := old(rowRootNode).value;
                TornDown(old(rows.nodes), rows.nodes, root) && rowUpdateId == 0 &&
                treeIsDirty == (old(treeIsDirty) || old(rows.nodes)[root].children.Some?)
    {
      if rowRootNode.Some? {
        var root := rowRootNode.value;
        ghost var s := rows.nodes;
        RemoveAllChildren(root);
        TornDownRootDetachesAll(s, rows.nodes, root);
        rowRootNode := None;
        rowCache := None;
      }
    }

    /**
     * The "model" branch of notify_gtk: the pending row update is cancelled,
     * the row tree is destroyed and the column map emptied; the rows are built
     * again from the new model by the next add_rows.
     */
    method ModelChanged()
      requires Valid()
      modifies this, rows
      ensures Valid() && rowRootNode.None? && rowCache.None? && rowUpdateId == 0 && AllDetached(rows.nodes)
      ensures columnMap == if old(columnMap).None? then None else Some(map[])
      ensures old(rowRootNode).None? ==> rows.nodes == old(rows.nodes)
      ensures old(rowRootNode).Some? ==> TornDown(old(rows.nodes), rows.nodes, old(rowRootNode).value)
    {
      rowUpdateId := 0;
      DestroyRoot();
      if columnMap.Some? {
        columnMap := Some(map[]);
      }
    }

    /** cleanup_caches: destroy_root, then the column map itself goes. */
    method CleanupCaches()
      requires Valid()
      modifies this, rows
      ensures Valid() && rowRootNode.None? && rowCache.None? && columnMap.None? && AllDetached(rows.nodes)
      ensures old(rowRootNode).None? ==> rows.nodes == old(rows.nodes)
      ensures old(rowRootNode).Some? ==> TornDown(old(rows.nodes), rows.nodes, old(rowRootNode).value)
    {
      DestroyRoot();
      columnMap := None;
    }

    /**
     * collapse_row_gtk: remove_all_children on the row found at path, which
     * stays where it is with nothing below it; with no row found only the
     * pending update is cancelled.
     */
    method CollapseRow(path: Path)
      requires Valid()
      modifies this, rows
      ensures Valid() && rowUpdateId == 0
      ensures rowRootNode == old(rowRootNode) && rowCache == old(rowCache) && columnMap == old(columnMap)
      ensures old(GetRowFromRowMap(path)).None? ==> rows.nodes == old(rows.nodes) && treeIsDirty == old(treeIsDirty)
      ensures old(GetRowFromRowMap(path)).Some? ==>
                var e := old(GetRowFromRowMap(path)).value;
                TornDown(old(rows.nodes), rows.nodes, e) &&
                GetRowFromRowMap(path) == Some(e) && Flatten(rows.nodes, e) == [] &&
                treeIsDirty == (old(treeIsDirty) || old(rows.nodes)[e].children.Some?)
    {
      var collapsed := GetRowFromRowMap(path);
      if collapsed.None? {
        rowUpdateId := 0;
        return;
      }
      ghost var s := rows.nodes;
      RemoveAllChildren(collapsed.value);
      TornDownKeepsLookup(s, rows.nodes, collapsed.value, rowRootNode.value, path);
    }

    /**
     * model_row_deleted: the row found at path loses its whole subtree and
     * leaves its parent; the root's rows are then exactly the ones listed
     * before, less the deleted row and everything below it.
     */
    method ModelRowDeleted(path: Path)
      requires Valid()
      modifies this, rows
      ensures Valid()
      ensures rowRootNode == old(rowRootNode) && rowCache == old(rowCache) && columnMap == old(columnMap)
      ensures old(GetRowFromRowMap(path)).None? ==>
                rows.nodes == old(rows.nodes) && treeIsDirty == old(treeIsDirty) && rowUpdateId == old(rowUpdateId)
      ensures old(GetRowFromRowMap(path)).Some? ==>
                var e := old(GetRowFromRowMap(path)).value;
                treeIsDirty && rowUpdateId == 0 && RowDeleted(old(rows.nodes), rows.nodes, e) &&
                forall x :: 0 <= x < |old(rows.nodes)| ==>
                  (x in Flatten(rows.nodes, rowRootNode.value) <==>
                   x in Flatten(old(rows.nodes), rowRootNode.value) && !IsAncestorOrSelf(old(rows.nodes), e, x))
    {
      if rowRootNode.None? {
        return;
      }
      var rowElement := GetRowFromRowMap(path);
      if rowElement.None? {
        return;
      }
      var e := rowElement.value;
      var root := rowRootNode.value;
      ghost var s := rows.nodes;
      RemoveAllChildren(e);
      ghost var t1 := rows.nodes;
      RemoveRowFromRowMap(e);
      RowDeletedFromRoot(s, t1, rows.nodes, root, e);
      treeIsDirty := true;
    }

    // ----- handlers that keep the rows ---------------------------------------

    /**
     * model_row_changed: the row found at path is marked dirty; no link
     * changes, so the root's rows and the cache stay as they were.
     */
    method ModelRowChanged(path: Path)
      requires Valid()
      modifies rows
      ensures Valid()
      ensures old(GetRowFromRowMap(path)).None? ==> rows.nodes == old(rows.nodes)
      ensures old(GetRowFromRowMap(path)).Some? ==>
                var x := old(GetRowFromRowMap(path)).value;
                rows.nodes == old(rows.nodes)[x := old(rows.nodes)[x].(rowIsDirty := true)]
      ensures rowRootNode.Some? ==> Flatten(rows.nodes, rowRootNode.value) == Flatten(old(rows.nodes), rowRootNode.value)
    {
      if rowRootNode.None? {
        return;
      }
      var row := GetRowFromRowMap(path);
      if row.None? {
        return;
      }
      ghost var s := rows.nodes;
      rows.SetRowIsDirty(row.value, true);
      SameLinksKeepRooted(s, rows.nodes, rowRootNode.value);
    }

    /**
     * model_rows_reordered: the root for the empty path, otherwise the row
     * found at path, takes its children in the new order, which marks the
     * cache dirty; the root's rows stay the same set.  GTK reports one
     * distinct old position per child.
     */
    method ModelRowsReordered(path: Path, order: seq<int>)
      requires Valid()
      requires var target := if path == [] then rowRootNode else GetRowFromRowMap(path);
               target.Some? ==>
                 |Children(rows.nodes, target.value)| <= |order| &&
                 RowEdits.OrderDistinct(order, |Children(rows.nodes, target.value)|)
      modifies this, rows
      ensures Valid()
      ensures rowRootNode == old(rowRootNode) && rowCache == old(rowCache)
      ensures rowUpdateId == old(rowUpdateId) && columnMap == old(columnMap)
      ensures var target := if path == [] then old(rowRootNode) else old(GetRowFromRowMap(path));
              (target.None? ==> rows.nodes == old(rows.nodes) && treeIsDirty == old(treeIsDirty)) &&
              (target.Some? ==>
                 treeIsDirty && rows.nodes == RowEdits.ReorderChildren(old(rows.nodes), target.value, order) &&
                 forall x :: 0 <= x < |rows.nodes| ==>
                   (x in Flatten(rows.nodes, rowRootNode.value) <==> x in Flatten(old(rows.nodes), rowRootNode.value)))
    {
      if rowRootNode.None? {
        return;
      }
      var parentElement := if path == [] then rowRootNode else GetRowFromRowMap(path);
      if parentElement.None? {
        return;
      }
      treeIsDirty := true;
      ReorderKeepsRooted(rows.nodes, rowRootNode.value, parentElement.value, order);
      RowEdits.ReorderChildrenKeepsCounts(rows.nodes, parentElement.value, order);
      rows.ReorderChildrenToNewIndicies(parentElement.value, order);
    }


    // ----- handlers that add rows ------------------------------------------------

    /**
     * expand_row_gtk: with a root and a row element at path, one new element
     * per model child of the row, in model order, is filed under the path
     * path + [i], which puts the new elements ahead of whatever the row held;
     * each new row is then found at its path, and the cache is dirty.
     */
    method ExpandRow(path: Path, model: seq<ModelRow>)
      requires Valid()
      modifies this, rows
      ensures Valid()
      ensures rowRootNode == old(rowRootNode) && rowCache == old(rowCache)
      ensures rowUpdateId == old(rowUpdateId) && columnMap == old(columnMap)
      ensures old(GetRowFromRowMap(path)).None? ==> rows.nodes == old(rows.nodes) && treeIsDirty == old(treeIsDirty)
      ensures old(GetRowFromRowMap(path)).Some? ==>
                var root := old(rowRootNode).value;
                var e := old(GetRowFromRowMap(path)).value;
                var k := ChildCount(model, path);
                treeIsDirty && path != [] &&
                ExpandedSoFar(old(rows.nodes), rows.nodes, root, path, e, k) &&
                forall i :: 0 <= i < k ==> FindRow(rows.nodes, root, path + [i]) == Some(|old(rows.nodes)| + i)
    {
      if rowRootNode.None? {
        return;
      }
      var expandedElement := GetRowFromRowMap(path);
      if expandedElement.None? {
        return;
      }
      var e := expandedElement.value;
      var root := rowRootNode.value;
      var k := ChildCount(model, path);
      assert path != [] && root < |rows.nodes| && e < |rows.nodes| && Lookup(rows.nodes, root, path) == Some(e);
      ExpandChildren(root, path, e, k);
    }

    /**
     * expand_row_gtk's loop and what follows it: k new elements, for
     * path + [0] ... path + [k - 1], head e's children, and the cache is dirty.
     */
    method ExpandChildren(root: NodeId, path: Path, e: NodeId, k: nat)
      requires Valid() && rowRootNode == Some(root) && path != [] && e < |rows.nodes|
      requires Lookup(rows.nodes, root, path) == Some(e)
      modifies this, rows
      ensures Valid() && rowRootNode == old(rowRootNode) && rowCache == old(rowCache)
      ensures rowUpdateId == old(rowUpdateId) && columnMap == old(columnMap)
      ensures treeIsDirty && ExpandedSoFar(old(rows.nodes), rows.nodes, root, path, e, k)
      ensures forall i :: 0 <= i < k ==> FindRow(rows.nodes, root, path + [i]) == Some(|old(rows.nodes)| + i)
    {
      ghost var s := rows.nodes;
      ExpandedNothingYet(s, root, path, e);
      var i := 0;
      while i < k
        invariant 0 <= i <= k
        invariant Valid() && rowRootNode == old(rowRootNode) && rowCache == old(rowCache)
        invariant rowUpdateId == old(rowUpdateId) && columnMap == old(columnMap)
        invariant ExpandedSoFar(s, rows.nodes, root, path, e, i)
      {
        ExpandChild(s, root, path, e, i);
        i := i + 1;
      }
      ExpandedRowsFound(s, rows.nodes, root, path, e, k);
      treeIsDirty := true;
    }

    /**
     * One turn of expand_row_gtk's loop: the element made for path + [i] is
     * inserted under e at index i, which extends the run of new children by one.
     */
    method ExpandChild(ghost s: seq<Node>, root: NodeId, path: Path, e: NodeId, i: nat)
      requires Valid() && rowRootNode == Some(root) && WellFormed(s) && root < |s| && path != [] && e < |s|
      requires ExpandedSoFar(s, rows.nodes, root, path, e, i)
      modifies this, rows
      ensures Valid() && rowRootNode == old(rowRootNode) && rowCache == old(rowCache)
      ensures rowUpdateId == old(rowUpdateId) && columnMap == old(columnMap) && treeIsDirty
      ensures ExpandedSoFar(s, rows.nodes, root, path, e, i + 1)
    {
      ghost var u := rows.nodes;
      ExpandStepParent(s, u, root, path, e, i);
      var element := NewRowElement(path + [i]);
      assert (path + [i])[|path + [i]| - 1] == i;
      AddRowToTree(element);
      ExpandStep(s, u, rows.nodes, root, path, e, i);
    }

    /**
     * gail_treeview_add_rows: the first call makes the fake root and, unless
     * the model is empty, builds an element for every visible row in
     * pre-order; those elements become the cache, which is the root's
     * flattened rows and carries the visible paths in order, and the cache is
     * clean.  Later calls re-flatten the root only when the cache is dirty.
     * Either way the cache is appended to a.
     */
    method AddRows(model: seq<ModelRow>, expanded: set<Path>, a: seq<NodeId>) returns (out: seq<NodeId>)
      requires Valid()
      modifies this, rows
      ensures Valid() && rowRootNode.Some? && rowUpdateId == old(rowUpdateId) && columnMap == old(columnMap)
      ensures rowCache.value == Flatten(rows.nodes, rowRootNode.value) && out == a + rowCache.value
      ensures old(rowRootNode).Some? ==>
                rowRootNode == old(rowRootNode) && rows.nodes == old(rows.nodes) && !treeIsDirty
      ensures old(rowRootNode).None? ==>
                rowRootNode == Some(|old(rows.nodes)|) && treeIsDirty == (old(treeIsDirty) && model == []) &&
                RowPaths(rows.nodes, rowCache.value) == Wrap(VisibleRows(model, [], expanded)) &&
                PathsAgree(rows.nodes)
    {
      if rowRootNode.None? {
        AddRowKeepsDetached(rows.nodes, None);
        var root := rows.NewRow(None);
        DetachedRoot(rows.nodes, root);
        rowRootNode := Some(root);
        rowCache := Some([]);
        if model == [] {
          assert VisibleRows(model, [], expanded) == [];
          out := a;
          return;
        }
        ghost var s := rows.nodes;
        var built := AddIterRowsRecursive(model, [], expanded, root, []);
        BuiltFromRoot(s, rows.nodes, root, VisibleRows(model, [], expanded), built);
        rowCache := Some(built);
        treeIsDirty := false;
      } else if treeIsDirty {
        var flat := rows.RecursiveFlattenTreeIntoArray(rowRootNode.value, [], false);
        rowCache := Some(flat);
        treeIsDirty := false;
      }
      out := a + rowCache.value;
    }

    /**
     * add_iter_rows_recursive over the rows of level, which lie below the
     * element e the prefix leads to: each row gets a new element, appended to
     * a and filed as e's next child, followed by the rows below it when it
     * has children and is expanded.  The new elements are e's flattened rows
     * and carry the level's visible paths in pre-order.
     */
    method AddIterRowsRecursive(level: seq<ModelRow>, prefix: Path, expanded: set<Path>, ghost e: NodeId,
                                a: seq<NodeId>) returns (out: seq<NodeId>)
      requires Valid() && rowRootNode.Some? && level != [] && e < |rows.nodes|
      requires Reaches(rows.nodes, rowRootNode.value, prefix, e) && Children(rows.nodes, e) == []
      modifies this, rows
      ensures Valid() && rowRootNode == old(rowRootNode) && rowCache == old(rowCache)
      ensures rowUpdateId == old(rowUpdateId) && columnMap == old(columnMap) && treeIsDirty
      ensures BuiltBelow(old(rows.nodes), rows.nodes, rowRootNode.value, prefix, e, VisibleRows(level, prefix, expanded))
      ensures Appended(a, out, |old(rows.nodes)|, |rows.nodes|)
      ensures PathsAgree(old(rows.nodes)) ==> PathsAgree(rows.nodes)
      decreases level, 1
    {
      ghost var s := rows.nodes;
      ghost var root := rowRootNode.value;
      BuildStart(s, root, prefix, e);
      out := a;
      AppendedNone(a, |s|);
      var i := 0;
      while i < |level|
        invariant 0 <= i <= |level|
        invariant Valid() && rowRootNode == old(rowRootNode) && rowCache == old(rowCache)
        invariant rowUpdateId == old(rowUpdateId) && columnMap == old(columnMap) && (i > 0 ==> treeIsDirty)
        invariant BuiltBelow(s, rows.nodes, root, prefix, e, VisitedBefore(level, prefix, expanded, i))
        invariant |Children(rows.nodes, e)| == i
        invariant Appended(a, out, |s|, |rows.nodes|)
        invariant PathsAgree(s) ==> PathsAgree(rows.nodes)
      {
        ghost var u := rows.nodes;
        ghost var before := out;
        out := AddIterRow(level, prefix, expanded, e, i, out);
        BuildNext(s, u, rows.nodes, root, prefix, e, VisitedBefore(level, prefix, expanded, i),
                  Visit(level, prefix, expanded, i));
        AppendedTwice(a, before, out, |s|, |u|, |rows.nodes|);
        i := i + 1;
      }
      VisitedAll(level, prefix, expanded);
    }

    /**
     * One turn of add_iter_rows_recursive's loop, for row i of level: the new
     * element for prefix + [i] is appended to a and becomes e's last child;
     * when the row has children and is expanded, the rows below it are built
     * under the new element.
     */
    method AddIterRow(level: seq<ModelRow>, prefix: Path, expanded: set<Path>, ghost e: NodeId, i: nat,
                      a: seq<NodeId>) returns (out: seq<NodeId>)
      requires Valid() && rowRootNode.Some? && i < |level| && e < |rows.nodes|
      requires Reaches(rows.nodes, rowRootNode.value, prefix, e) && |Children(rows.nodes, e)| == i
      modifies this, rows
      ensures Valid() && rowRootNode == old(rowRootNode) && rowCache == old(rowCache)
      ensures rowUpdateId == old(rowUpdateId) && columnMap == old(columnMap) && treeIsDirty
      ensures RowBuilt(old(rows.nodes), rows.nodes, e, Visit(level, prefix, expanded, i))
      ensures Appended(a, out, |old(rows.nodes)|, |rows.nodes|)
      ensures PathsAgree(old(rows.nodes)) ==> PathsAgree(rows.nodes)
      decreases level, 0
    {
      ghost var u := rows.nodes;
      var path := prefix + [i];
      var element := FileRowElement(prefix, e, i);
      out := a + [element];
      ghost var t1 := rows.nodes;
      if |level[i].children| > 0 && path in expanded {
        assert level[i] in level;
        ghost var out1 := out;
        out := AddIterRowsRecursive(level[i].children, path, expanded, element, out);
        BuildRowDone(u, t1, rows.nodes, rowRootNode.value, prefix, e, i, VisibleRows(level[i].children, path, expanded));
        assert Visit(level, prefix, expanded, i) == [path] + VisibleRows(level[i].children, path, expanded);
        AppendedOne(a, |u|, out1);
        AppendedTwice(a, out1, out, |u|, |t1|, |rows.nodes|);
      } else {
        BuildLeafDone(u, rows.nodes, rowRootNode.value, prefix, e, i);
        assert Visit(level, prefix, expanded, i) == [path];
        AppendedOne(a, |u|, out);
      }
    }

    /**
     * The first half of that turn: make_accessibility_element_for_row for
     * prefix + [i], then add_row_to_row_map_with_path, which files the new
     * element as e's last child, where prefix + [i] leads to it.
     */
    method FileRowElement(prefix: Path, ghost e: NodeId, i: nat) returns (element: NodeId)
      requires Valid() && rowRootNode.Some? && e < |rows.nodes|
      requires Reaches(rows.nodes, rowRootNode.value, prefix, e) && |Children(rows.nodes, e)| == i
      modifies this, rows
      ensures Valid() && rowRootNode == old(rowRootNode) && rowCache == old(rowCache)
      ensures rowUpdateId == old(rowUpdateId) && columnMap == old(columnMap) && treeIsDirty
      ensures element == |old(rows.nodes)| && RowFiled(old(rows.nodes), rows.nodes, rowRootNode.value, prefix, e, i)
      ensures PathsAgree(old(rows.nodes)) ==> PathsAgree(rows.nodes)
    {
      ghost var u := rows.nodes;
      ghost var root := rowRootNode.value;
      var path := prefix + [i];
      BuildParent(u, root, prefix, e, i);
      element := NewRowElement(path);
      assert path[|path| - 1] == i;
      var parent := AddRowToRowMapWithPath(path, element);
      FileStep(u, rows.nodes, root, prefix, e, i);
    }

    /**
     * gail_treeview_add_selected_rows: without a root or a widget nothing is
     * added; otherwise the element each selected path leads to is appended
     * in selection order, paths without an element being skipped.
     */
    method AddSelectedRows(selection: seq<Path>, hasWidget: bool, a: seq<NodeId>) returns (out: seq<NodeId>)
      requires Valid()
      ensures rowRootNode.None? || !hasWidget ==> out == a
      ensures rowRootNode.Some? && hasWidget ==> out == a + SelectedRows(rows.nodes, rowRootNode.value, selection)
      ensures forall x :: x in out[|a|..] ==> rowRootNode.Some? && x in Flatten(rows.nodes, rowRootNode.value)
    {
      out := a;
      if rowRootNode.None? || !hasWidget {
        return;
      }
      var root := rowRootNode.value;
      var k := 0;
      while k < |selection|
        invariant 0 <= k <= |selection|
        invariant out == a + SelectedRows(rows.nodes, root, selection[..k])
      {
        assert selection[..k + 1][..k] == selection[..k];
        var row := GetRowFromRowMap(selection[k]);
        if row.Some? {
          out := out + [row.value];
        }
        k := k + 1;
      }
      assert selection[..k] == selection;
      assert out[|a|..] == SelectedRows(rows.nodes, root, selection);
      SelectedRowsAreListed(rows.nodes, root, selection);
    }

    /**
     * gail_treeview_row_for_path: a dirty tree is rebuilt first (add_rows with
     * no list to fill; add_columns then adds to no list either), then the
     * element the path leads to is looked up.  A clean tree is left alone.
     */
    method RowForPath(path: Path, model: seq<ModelRow>, expanded: set<Path>) returns (r: Option<NodeId>)
      requires Valid()
      modifies this, rows
      ensures Valid() && r == GetRowFromRowMap(path)
      ensures rowUpdateId == old(rowUpdateId) && columnMap == old(columnMap)
      ensures !old(treeIsDirty) ==> rows.nodes == old(rows.nodes) && rowRootNode == old(rowRootNode) &&
                                    rowCache == old(rowCache) && !treeIsDirty
      ensures old(treeIsDirty) ==> rowRootNode.Some? && (treeIsDirty ==> model == [])
      ensures r.Some? && !treeIsDirty ==> r.value in rowCache.value
    {
      if treeIsDirty {
        var _ := AddRows(model, expanded, []);
      }
      r := GetRowFromRowMap(path);
    }

    /**
     * gail_treeview_get_column_element: no element while the column map is
     * gone; otherwise the one filed under the column, which stands for it.
     */
    function GetColumnElement(column: ColumnId): (r: Option<ColumnElement>)
      requires Valid()
      reads this, rows
      ensures columnMap.None? ==> r.None?
      ensures columnMap.Some? ==> (r.Some? <==> column in columnMap.value)
      ensures r.Some? ==> r.value.column == column && r.value == columnMap.value[column]
    {
      match columnMap
      case None => None
      case Some(m) => if column in m then Some(m[column]) else None
    }

    /**
     * columns_changed: while the column map exists it is emptied and refilled
     * with one element per column that has renderers, numbered in column
     * order; a destroyed map stays gone.  The refilled map files exactly
     * the columns with renderers (ColumnMapIndices: the i-th of them with index i).
     */
    method ColumnsChanged(columns: seq<TreeColumn>)
      requires Valid() && DistinctIds(columns)
      modifies this
      ensures Valid() && rowRootNode == old(rowRootNode) && rowCache == old(rowCache)
      ensures treeIsDirty == old(treeIsDirty) && rowUpdateId == old(rowUpdateId)
      ensures old(columnMap).None? ==> columnMap.None?
      ensures old(columnMap).Some? ==> columnMap == Some(ColumnMapOf(Kept(columns)))
      ensures old(columnMap).Some? ==>
                forall c :: c in columnMap.value <==> exists i :: 0 <= i < |columns| && columns[i].id == c && columns[i].hasRenderers
    {
      if columnMap.None? {
        return;
      }
      columnMap := Some(map[]);
      var idx := 0;
      var k := 0;
      while k < |columns|
        invariant 0 <= k <= |columns|
        invariant idx == |Kept(columns[..k])|
        invariant columnMap == Some(ColumnMapOf(Kept(columns[..k])))
        invariant rowRootNode == old(rowRootNode) && rowCache == old(rowCache)
        invariant treeIsDirty == old(treeIsDirty) && rowUpdateId == old(rowUpdateId)
      {
        ColumnMapStep(columns, k);
        if columns[k].hasRenderers {
          columnMap := Some(columnMap.value[columns[k].id := ColumnElement(columns[k].id, idx)]);
          idx := idx + 1;
        }
        k := k + 1;
      }
      assert columns[..k] == columns;
      ColumnMapConsistent(Kept(columns));
      forall c ensures c in columnMap.value <==> exists i :: 0 <= i < |columns| && columns[i].id == c && columns[i].hasRenderers {
        KeptDistinct(columns);
        ColumnMapIndices(Kept(columns));
        KeptColumnIds(columns, c);
      }
    }

    /**
     * model_row_inserted: with a root and a visible row, a new element for the
     * row is filed under its path as add_row_to_tree does (and stays detached
     * when its parent path has no element), and the cache is dirty; an
     * inserted row whose index is at most its parent's child count is then
     * found at its path.  An invisible row changes nothing.
     */
    method ModelRowInserted(path: Path, expanded: set<Path>)
      requires Valid() && path != []
      modifies this, rows
      ensures Valid()
      ensures rowRootNode == old(rowRootNode) && rowCache == old(rowCache)
      ensures rowUpdateId == old(rowUpdateId) && columnMap == old(columnMap)
      ensures old(rowRootNode).None? || !CheckVisibility(path, expanded) ==>
                rows.nodes == old(rows.nodes) && treeIsDirty == old(treeIsDirty)
      ensures old(rowRootNode).Some? && CheckVisibility(path, expanded) ==>
                var s := old(rows.nodes);
                var n := |s|;
                var parent := ParentFor(s, old(rowRootNode).value, path);
                treeIsDirty &&
                (parent.None? ==> rows.nodes == RowEdits.AddRow(s, Some(path))) &&
                (parent.Some? ==>
                   rows.nodes == RowEdits.InsertChild(RowEdits.AddRow(s, Some(path)), parent.value, n, path[|path| - 1])) &&
                (parent.Some? && path[|path| - 1] <= |Children(s, parent.value)| ==> GetRowFromRowMap(path) == Some(n))
    {
      if rowRootNode.None? {
        return;
      }
      if CheckVisibility(path, expanded) {
        ghost var s := rows.nodes;
        var root := rowRootNode.value;
        var element := NewRowElement(path);
        ghost var mid := rows.nodes;
        if |path| > 1 {
          AddRowKeepsLookup(s, Some(path), root, ParentPath(path));
        }
        assert ParentFor(mid, root, path) == ParentFor(s, root, path);
        assert mid[element].row == Some(path);
        AddRowToTree(element);
        treeIsDirty := true;
        var parent := ParentFor(s, root, path);
        if parent.Some? && path[|path| - 1] <= |Children(s, parent.value)| {
          InsertedRowIsFound(mid, root, path, element);
        }
      }
    }

    /**
     * The second loop of remove_all_children: each collected child, already
     * childless, leaves the row map in turn; n's sequence ends empty.
     */
    method RemoveCollectedRows(n: NodeId, cs: seq<NodeId>)
      requires Valid() && n < |rows.nodes| && cs != [] && Children(rows.nodes, n) == cs
      requires forall k :: 0 <= k < |cs| ==> rows.nodes[cs[k]].children.None?
      modifies this, rows
      ensures Valid() && treeIsDirty && rowUpdateId == old(rowUpdateId)
      ensures rowRootNode == old(rowRootNode) && rowCache == old(rowCache) && columnMap == old(columnMap)
      ensures CollectedRemoved(old(rows.nodes), rows.nodes, n, cs, |cs|)
    {
      ghost var s1 := rows.nodes;
      CollectedRemovedStart(s1, n);
      var j := 0;
      while j < |cs|
        invariant 0 <= j <= |cs|
        invariant Valid() && rowUpdateId == old(rowUpdateId) && (j > 0 ==> treeIsDirty)
        invariant rowRootNode == old(rowRootNode) && rowCache == old(rowCache) && columnMap == old(columnMap)
        invariant CollectedRemoved(s1, rows.nodes, n, cs, j)
      {
        CollectedRemovedStep(s1, rows.nodes, n, j);
        RemoveRowFromRowMap(cs[j]);
        j := j + 1;
      }
    }
  }
}

=== FILE: view_state.dfy ===
/**
 * What the tree view adapter keeps true of the row elements it owns, as
 * predicates on the element state, and the lemmas that show each edit the
 * adapter makes keeps it: every attached row element lies below the fake
 * root (or, before the root exists, no element is attached), a teardown
 * detaches exactly the subtree it starts from, and a row inserted at its
 * path is then found at that path.
 */
module ViewState {
  import opened Wrappers
  import opened TreePaths
  import opened RowTree
  import RowEdits
  import opened Subtrees

  /** A WellFormed state stores a NULL sequence for an element without children. */
  lemma RawChildren(nodes: seq<Node>, m: NodeId)
    requires WellFormed(nodes) && m < |nodes|
    ensures nodes[m].children == if Children(nodes, m) == [] then None else Some(Children(nodes, m))
  {
    assert NodeWellFormed(nodes, m);
  }

  // ----- the rooted tree ---------------------------------------------------

  /** An attached element lies in root's tree. */
  predicate AttachedBelow(nodes: seq<Node>, root: NodeId, m: NodeId)
    requires WellFormed(nodes) && m < |nodes|
  {
    nodes[m].parent.Some? ==> IsAncestorOrSelf(nodes, root, m)
  }

  /** The fake root is parentless and every attached element is in its tree. */
  predicate Rooted(nodes: seq<Node>, root: NodeId)
    requires WellFormed(nodes)
  {
    root < |nodes| && nodes[root].parent.None? &&
    forall m :: 0 <= m < |nodes| ==> AttachedBelow(nodes, root, m)
  }

  predicate IsDetached(nodes: seq<Node>, m: NodeId)
    requires m < |nodes|
  {
    nodes[m].parent.None?
  }

  /** Before the fake root exists, or after it is destroyed, no element is attached. */
  predicate AllDetached(nodes: seq<Node>)
  {
    forall m :: 0 <= m < |nodes| ==> IsDetached(nodes, m)
  }

  /** In a rooted state, the root's flattened list holds exactly the attached elements. */
  lemma RootedMembers(nodes: seq<Node>, root: NodeId, m: NodeId)
    requires WellFormed(nodes) && Rooted(nodes, root) && m < |nodes|
    ensures m in Flatten(nodes, root) <==> nodes[m].parent.Some?
  {
    FlattenMembers(nodes, root, m);
    assert AttachedBelow(nodes, root, m);
  }

  /**
   * With the counts right and every row path ending in its sibling
   * position, the accessibilityIndex of a row in the cache is its position
   * in the cache.
   */
  lemma RowIndexIsCachePosition(nodes: seq<Node>, root: NodeId, x: NodeId)
    requires WellFormed(nodes) && Counted(nodes) && PathsAgree(nodes) && Rooted(nodes, root)
    requires x < |nodes| && x in Flatten(nodes, root)
    ensures 0 <= AccessibilityIndex(nodes, x) < |Flatten(nodes, root)|
    ensures Flatten(nodes, root)[AccessibilityIndex(nodes, x)] == x
  {
    RootedMembers(nodes, root, x);
    assert AttachedBelow(nodes, root, x);
    TopOfDescendant(nodes, root, x);
    AccessibilityIndexIsFlattenPosition(nodes, x);
  }

  /** Ancestry above m survives any change of parent pointers off m's chain of ancestors. */
  lemma {:induction false} AncestryAvoiding(s: seq<Node>, t: seq<Node>, a: NodeId, m: NodeId)
    requires WellFormed(s) && WellFormed(t) && |s| <= |t| && m < |s|
    requires forall y :: 0 <= y < |s| && IsAncestorOrSelf(s, y, m) ==> t[y].parent == s[y].parent
    ensures IsAncestorOrSelf(t, a, m) == IsAncestorOrSelf(s, a, m)
    decreases m
  {
    assert IsAncestorOrSelf(s, m, m);
    if s[m].parent.Some? {
      var p := Parent(s, m).value;
      forall y | 0 <= y < |s| && IsAncestorOrSelf(s, y, p) ensures t[y].parent == s[y].parent {
        AncestorTransitive(s, y, p, m);
      }
      AncestryAvoiding(s, t, a, p);
    }
  }

  // ----- edits keep the tree rooted ----------------------------------------

  /** A new element is detached and changes neither the tree nor its flattened list. */
  lemma AddRowKeepsRooted(nodes: seq<Node>, root: NodeId, row: Option<Path>)
    requires WellFormed(nodes) && Rooted(nodes, root)
    ensures var r := RowEdits.AddRow(nodes, row);
            Rooted(r, root) && Flatten(r, root) == Flatten(nodes, root)
  {
    var r := RowEdits.AddRow(nodes, row);
    forall x | 0 <= x < |nodes| ensures r[x] == nodes[x] {
      assert r[..|nodes|][x] == r[x];
    }
    forall m | 0 <= m < |r| ensures AttachedBelow(r, root, m) {
      if m < |nodes| {
        assert AttachedBelow(nodes, root, m);
        RowEdits.AncestryKeptBelow(nodes, r, root, m, |nodes|);
      }
    }
    PreorderFrame(nodes, r, Children(nodes, root), root);
  }

  lemma AddRowKeepsDetached(nodes: seq<Node>, row: Option<Path>)
    requires WellFormed(nodes) && AllDetached(nodes)
    ensures AllDetached(RowEdits.AddRow(nodes, row))
  {
    var r := RowEdits.AddRow(nodes, row);
    forall m | 0 <= m < |r| ensures IsDetached(r, m) {
      if m < |nodes| {
        assert r[..|nodes|][m] == r[m];
        assert IsDetached(nodes, m);
      }
    }
  }

  /** Inserting the newest element under an element of the tree keeps the tree rooted. */
  lemma InsertKeepsRooted(nodes: seq<Node>, root: NodeId, p: NodeId, c: NodeId, idx: int)
    requires WellFormed(nodes) && Rooted(nodes, root)
    requires p < c && c + 1 == |nodes| && nodes[c].parent.None? && IsAncestorOrSelf(nodes, root, p)
    ensures Rooted(RowEdits.InsertChild(nodes, p, c, idx), root)
  {
    var r := RowEdits.InsertChild(nodes, p, c, idx);
    RowEdits.AncestryKeptBelow(nodes, r, root, p, c);
    AncestorIsOlder(nodes, root, p);
    forall m | 0 <= m < |r| ensures AttachedBelow(r, root, m) {
      if m < c {
        assert AttachedBelow(nodes, root, m);
        RowEdits.AncestryKeptBelow(nodes, r, root, m, c);
      }
    }
  }

  /** No element other than c lies below a childless c. */
  lemma LeafNotAbove(nodes: seq<Node>, c: NodeId, y: NodeId, m: NodeId)
    requires WellFormed(nodes) && c < |nodes| && m < |nodes| && Children(nodes, c) == []
    requires m != c && IsAncestorOrSelf(nodes, y, m)
    ensures y != c
  {
    if y == c {
      BelowSomeChild(nodes, c, m);
      assert false;
    }
  }

  /** Removing a childless element from its parent keeps the tree rooted. */
  lemma RemoveLeafKeepsRooted(nodes: seq<Node>, root: NodeId, c: NodeId)
    requires WellFormed(nodes) && Rooted(nodes, root) && c < |nodes| && Children(nodes, c) == []
    ensures Rooted(RowEdits.RemoveFromParent(nodes, c), root)
  {
    var r := RowEdits.RemoveFromParent(nodes, c);
    if nodes[c].parent.Some? {
      var p := Parent(nodes, c).value;
      var cs := Children(nodes, p);
      assert r == RowEdits.RemoveChildAtIndex(nodes, p, PositionIn(cs, c));
      assert forall y :: 0 <= y < |r| && y != c ==> r[y].parent == nodes[y].parent;
      forall m | 0 <= m < |r| ensures AttachedBelow(r, root, m) {
        if m != c && r[m].parent.Some? {
          assert AttachedBelow(nodes, root, m);
          forall y | 0 <= y < |nodes| && IsAncestorOrSelf(nodes, y, m) ensures r[y].parent == nodes[y].parent {
            LeafNotAbove(nodes, c, y, m);
          }
          AncestryAvoiding(nodes, r, root, m);
        }
      }
    }
  }

  lemma RemoveKeepsDetached(nodes: seq<Node>, c: NodeId)
    requires WellFormed(nodes) && AllDetached(nodes) && c < |nodes|
    ensures RowEdits.RemoveFromParent(nodes, c) == nodes
  {
    assert IsDetached(nodes, c);
  }

  /**
   * Reordering keeps the tree rooted and the same rows in the flattened
   * list, since no parent pointer changes.
   */
  lemma ReorderKeepsRooted(nodes: seq<Node>, root: NodeId, p: NodeId, order: seq<int>)
    requires WellFormed(nodes) && Rooted(nodes, root) && p < |nodes|
    requires |Children(nodes, p)| <= |order| && RowEdits.OrderDistinct(order, |Children(nodes, p)|)
    ensures var r := RowEdits.ReorderChildren(nodes, p, order);
            Rooted(r, root) &&
            forall x :: 0 <= x < |r| ==> (x in Flatten(r, root) <==> x in Flatten(nodes, root))
  {
    var r := RowEdits.ReorderChildren(nodes, p, order);
    assert forall y :: 0 <= y < |r| ==> r[y].parent == nodes[y].parent;
    forall m | 0 <= m < |r| ensures AttachedBelow(r, root, m) {
      assert AttachedBelow(nodes, root, m);
      AncestryAvoiding(nodes, r, root, m);
    }
    forall x | 0 <= x < |r| ensures x in Flatten(r, root) <==> x in Flatten(nodes, root) {
      RootedMembers(r, root, x);
      RootedMembers(nodes, root, x);
    }
  }

  /** Changing only counts or flags keeps the tree rooted and its flattened list. */
  lemma SameLinksKeepRooted(s: seq<Node>, t: seq<Node>, root: NodeId)
    requires WellFormed(s) && Rooted(s, root) && SameLinks(s, t)
    ensures WellFormed(t) && Rooted(t, root) && Flatten(t, root) == Flatten(s, root)
  {
    WellFormedSameLinks(s, t);
    forall m | 0 <= m < |t| ensures AttachedBelow(t, root, m) {
      assert AttachedBelow(s, root, m);
      AncestorsSameLinks(s, t, root, m);
    }
    PreorderFrame(s, t, Children(s, root), root);
  }

  // ----- teardown ------------------------------------------------------------

  predicate StrictlyBelow(nodes: seq<Node>, n: NodeId, m: NodeId)
    requires WellFormed(nodes) && m < |nodes|
  {
    m != n && IsAncestorOrSelf(nodes, n, m)
  }

  /** What tearing down the subtree of n leaves at element m. */
  predicate TornAt(s: seq<Node>, t: seq<Node>, n: NodeId, m: NodeId)
    requires WellFormed(s) && m < |s| && m < |t|
  {
    (if StrictlyBelow(s, n, m) then t[m].parent.None? && t[m].children.None?
     else t[m].parent == s[m].parent && (m != n ==> t[m].children == s[m].children)) &&
    t[m].row == s[m].row && t[m].rowIsDirty == s[m].rowIsDirty
  }

  /**
   * remove_all_children: every element strictly below n is detached and
   * childless, n is childless, and every other element keeps its links.
   */
  predicate TornDown(s: seq<Node>, t: seq<Node>, n: NodeId)
    requires WellFormed(s) && n < |s|
  {
    |t| == |s| && t[n].children.None? && forall m :: 0 <= m < |s| ==> TornAt(s, t, n, m)
  }

  /** An element off the torn subtree has no torn element among its ancestors. */
  lemma ChainAvoidsTorn(s: seq<Node>, n: NodeId, y: NodeId, m: NodeId)
    requires WellFormed(s) && n < |s| && y < |s| && m < |s|
    requires !StrictlyBelow(s, n, m) && IsAncestorOrSelf(s, y, m)
    ensures !StrictlyBelow(s, n, y)
  {
    if StrictlyBelow(s, n, y) {
      AncestorTransitive(s, n, y, m);
      AncestorIsOlder(s, y, m);
      AncestorIsOlder(s, n, y);
      assert false;
    }
  }

  /** A teardown keeps the tree rooted. */
  lemma TornDownKeepsRooted(s: seq<Node>, t: seq<Node>, n: NodeId, root: NodeId)
    requires WellFormed(s) && WellFormed(t) && n < |s| && Rooted(s, root) && TornDown(s, t, n)
    ensures Rooted(t, root)
  {
    assert TornAt(s, t, n, root);
    forall m | 0 <= m < |t| ensures AttachedBelow(t, root, m) {
      assert TornAt(s, t, n, m);
      if t[m].parent.Some? {
        assert AttachedBelow(s, root, m);
        forall y | 0 <= y < |s| && IsAncestorOrSelf(s, y, m) ensures t[y].parent == s[y].parent {
          ChainAvoidsTorn(s, n, y, m);
          assert TornAt(s, t, n, y);
        }
        AncestryAvoiding(s, t, root, m);
      }
    }
  }

  /** Tearing down the fake root detaches every element. */
  lemma TornDownRootDetachesAll(s: seq<Node>, t: seq<Node>, root: NodeId)
    requires WellFormed(s) && Rooted(s, root) && TornDown(s, t, root)
    ensures AllDetached(t)
  {
    forall m | 0 <= m < |t| ensures IsDetached(t, m) {
      assert TornAt(s, t, root, m);
      assert AttachedBelow(s, root, m);
    }
  }

  /** A row kept by a teardown of itself is still found at the same path. */
  lemma TornDownKeepsLookup(s: seq<Node>, t: seq<Node>, n: NodeId, root: NodeId, p: Path)
    requires WellFormed(s) && WellFormed(t) && n < |s| && root < |s| && p != []
    requires TornDown(s, t, n) && Lookup(s, root, p) == Some(n)
    ensures Lookup(t, root, p) == Some(n)
  {
    forall m | 0 <= m < n ensures Children(t, m) == Children(s, m) {
      assert TornAt(s, t, n, m);
      if StrictlyBelow(s, n, m) {
        AncestorIsOlder(s, n, m);
        assert false;
      }
      RawChildren(s, m);
      RawChildren(t, m);
    }
    LookupFrame(s, t, root, p, n);
  }

  /** Elements strictly below some element of done. */
  predicate BelowDone(s: seq<Node>, done: seq<NodeId>, m: NodeId)
    requires WellFormed(s) && m < |s|
  {
    exists j :: 0 <= j < |done| && StrictlyBelow(s, done[j], m)
  }

  /** What tearing down the subtrees of the children in done, one after the other, leaves at m. */
  predicate PartlyTornAt(s: seq<Node>, t: seq<Node>, done: seq<NodeId>, m: NodeId)
    requires WellFormed(s) && m < |s| && m < |t|
  {
    (if BelowDone(s, done, m) then t[m].parent.None? && t[m].children.None?
     else t[m].parent == s[m].parent && t[m].children == (if m in done then None else s[m].children)) &&
    t[m].row == s[m].row && t[m].rowIsDirty == s[m].rowIsDirty
  }

  predicate PartlyTorn(s: seq<Node>, t: seq<Node>, done: seq<NodeId>)
    requires WellFormed(s)
  {
    |t| == |s| && forall m :: 0 <= m < |s| ==> PartlyTornAt(s, t, done, m)
  }

  lemma PartlyTornStart(s: seq<Node>)
    requires WellFormed(s)
    ensures PartlyTorn(s, s, [])
  {
    forall m | 0 <= m < |s| ensures PartlyTornAt(s, s, [], m) { }
  }

  /** Elements torn down so far are off the subtree of the next sibling. */
  lemma TornOffNextSibling(s: seq<Node>, u: seq<Node>, n: NodeId, i: nat)
    requires WellFormed(s) && n < |s| && i < |Children(s, n)|
    requires PartlyTorn(s, u, Children(s, n)[..i])
    ensures forall y :: 0 <= y < |s| ==>
              u[y].parent == s[y].parent ||
              (u[y].parent.None? && !IsAncestorOrSelf(s, Children(s, n)[i], y))
  {
    var cs := Children(s, n);
    forall y | 0 <= y < |s|
      ensures u[y].parent == s[y].parent || (u[y].parent.None? && !IsAncestorOrSelf(s, cs[i], y))
    {
      assert PartlyTornAt(s, u, cs[..i], y);
      if BelowDone(s, cs[..i], y) {
        var j :| 0 <= j < i && StrictlyBelow(s, cs[..i][j], y);
        assert cs[..i][j] == cs[j];
        SiblingSubtreesDisjoint(s, n, j, i, y);
      }
    }
  }

  /** One step of remove_all_children's first loop: the next child's subtree is torn down. */
  lemma TearDownStep(s: seq<Node>, u: seq<Node>, t: seq<Node>, n: NodeId, i: nat)
    requires WellFormed(s) && WellFormed(u) && WellFormed(t) && n < |s| && i < |Children(s, n)|
    requires PartlyTorn(s, u, Children(s, n)[..i])
    requires TornDown(u, t, Children(s, n)[i])
    ensures PartlyTorn(s, t, Children(s, n)[..i + 1])
  {
    var cs := Children(s, n);
    var c := cs[i];
    var done := cs[..i + 1];
    TornOffNextSibling(s, u, n, i);
    forall m | 0 <= m < |s| ensures PartlyTornAt(s, t, done, m) {
      SubtreeKept(s, u, c, m);
      BelowDoneSnoc(s, cs, i, m);
      TearDownStepAt(s, u, t, cs, i, m);
    }
  }

  /** One more child torn down: what it leaves at m, from what the earlier ones left and what it tore. */
  lemma TearDownStepAt(s: seq<Node>, u: seq<Node>, t: seq<Node>, cs: seq<NodeId>, i: nat, m: NodeId)
    requires WellFormed(s) && WellFormed(u) && i < |cs| && m < |s| && |u| == |s| && |t| == |s| && cs[i] < |s|
    requires PartlyTornAt(s, u, cs[..i], m) && TornAt(u, t, cs[i], m) && t[cs[i]].children.None?
    requires IsAncestorOrSelf(u, cs[i], m) == IsAncestorOrSelf(s, cs[i], m)
    requires BelowDone(s, cs[..i + 1], m) <==> BelowDone(s, cs[..i], m) || StrictlyBelow(s, cs[i], m)
    ensures PartlyTornAt(s, t, cs[..i + 1], m)
  {
    var c := cs[i];
    assert m in cs[..i + 1] <==> m in cs[..i] || m == c by {
      assert cs[..i + 1] == cs[..i] + [c];
    }
  }

  /** m lies below one of the first i + 1 children exactly when it lies below one of the first i or the next. */
  lemma BelowDoneSnoc(s: seq<Node>, cs: seq<NodeId>, i: nat, m: NodeId)
    requires WellFormed(s) && i < |cs| && m < |s|
    ensures BelowDone(s, cs[..i + 1], m) <==> BelowDone(s, cs[..i], m) || StrictlyBelow(s, cs[i], m)
  {
    var c := cs[i];
    if BelowDone(s, cs[..i + 1], m) {
      var j :| 0 <= j < i + 1 && StrictlyBelow(s, cs[..i + 1][j], m);
      if j < i {
        assert cs[..i][j] == cs[..i + 1][j];
      }
    }
    if BelowDone(s, cs[..i], m) {
      var j :| 0 <= j < i && StrictlyBelow(s, cs[..i][j], m);
      assert cs[..i + 1][j] == cs[..i][j];
    }
    if StrictlyBelow(s, c, m) {
      assert cs[..i + 1][i] == c;
    }
  }

  /** No child of n lies strictly below another child of n. */
  lemma ChildNotBelowDone(s: seq<Node>, n: NodeId, k: nat)
    requires WellFormed(s) && n < |s| && k < |Children(s, n)|
    ensures !BelowDone(s, Children(s, n), Children(s, n)[k])
  {
    var cs := Children(s, n);
    forall j | 0 <= j < |cs| ensures !StrictlyBelow(s, cs[j], cs[k]) {
      if j != k {
        assert IsAncestorOrSelf(s, cs[k], cs[k]);
        SiblingSubtreesDisjoint(s, n, j, k, cs[k]);
      }
    }
  }

  /** An element without children has nothing below it to tear down. */
  lemma TornDownLeaf(s: seq<Node>, n: NodeId)
    requires WellFormed(s) && n < |s| && Children(s, n) == []
    ensures TornDown(s, s, n)
  {
    RawChildren(s, n);
    forall m | 0 <= m < |s| ensures TornAt(s, s, n, m) {
      if StrictlyBelow(s, n, m) {
        BelowSomeChild(s, n, m);
        assert false;
      }
    }
  }

  /**
   * Once every child's subtree is torn down, n still lists the same children,
   * and each of them has no sequence of its own.
   */
  lemma CollectedChildrenReady(s: seq<Node>, s1: seq<Node>, n: NodeId)
    requires WellFormed(s) && WellFormed(s1) && n < |s| && PartlyTorn(s, s1, Children(s, n))
    ensures Children(s1, n) == Children(s, n)
    ensures forall k :: 0 <= k < |Children(s, n)| ==> s1[Children(s, n)[k]].children.None?
  {
    var cs := Children(s, n);
    forall k | 0 <= k < |cs| ensures s1[cs[k]].children.None? {
      ChildNotBelowDone(s, n, k);
      assert PartlyTornAt(s, s1, cs, cs[k]);
    }
    assert s1[n].children == s[n].children by {
      assert PartlyTornAt(s, s1, cs, n);
      assert !BelowDone(s, cs, n) by {
        forall j | 0 <= j < |cs| ensures !StrictlyBelow(s, cs[j], n) {
          if StrictlyBelow(s, cs[j], n) {
            AncestorIsOlder(s, cs[j], n);
          }
        }
      }
      assert n !in cs;
    }
    RawChildren(s, n);
    RawChildren(s1, n);
  }

  /**
   * After the first loop has torn down every child's subtree and the second
   * has removed every child from n, n's whole subtree is torn down.
   */
  lemma TearDownFinish(s: seq<Node>, s1: seq<Node>, t: seq<Node>, n: NodeId)
    requires WellFormed(s) && n < |s|
    requires PartlyTorn(s, s1, Children(s, n))
    requires |t| == |s| && t[n].children.None? && t[n].parent == s1[n].parent
    requires t[n].row == s1[n].row && t[n].rowIsDirty == s1[n].rowIsDirty
    requires forall m :: 0 <= m < |s| && m != n ==>
               t[m].children == s1[m].children && t[m].row == s1[m].row && t[m].rowIsDirty == s1[m].rowIsDirty &&
               t[m].parent == (if m in Children(s, n) then None else s1[m].parent)
    ensures TornDown(s, t, n)
  {
    var cs := Children(s, n);
    forall k | 0 <= k < |cs| ensures StrictlyBelow(s, n, cs[k]) {
      assert Parent(s, cs[k]) == Some(n);
      assert IsAncestorOrSelf(s, n, n);
    }
    forall m | 0 <= m < |s| ensures TornAt(s, t, n, m) {
      assert PartlyTornAt(s, s1, cs, m);
      if StrictlyBelow(s, n, m) {
        BelowSomeChild(s, n, m);
        var k :| 0 <= k < |cs| && IsAncestorOrSelf(s, cs[k], m);
        if m != cs[k] {
          assert StrictlyBelow(s, cs[k], m);
        }
      } else {
        if BelowDone(s, cs, m) {
          var j :| 0 <= j < |cs| && StrictlyBelow(s, cs[j], m);
          ChildIsBelow(s, n, cs[j], m);
          assert false;
        }
      }
    }
  }

  /**
   * remove_all_children's second loop after the first j collected children
   * have left the row map: n lists the rest, those j are detached, and every
   * other link, row path and dirty flag is as it was.
   */
  predicate CollectedRemoved(s: seq<Node>, t: seq<Node>, n: NodeId, cs: seq<NodeId>, j: nat)
    requires WellFormed(s) && WellFormed(t) && n < |s| && j <= |cs|
  {
    |t| == |s| && Children(t, n) == cs[j..] &&
    (forall m {:trigger Children(t, m)} :: 0 <= m < |s| && m != n ==> Children(t, m) == Children(s, m)) &&
    (forall m {:trigger t[m]} :: 0 <= m < |s| ==>
       t[m].row == s[m].row && t[m].rowIsDirty == s[m].rowIsDirty &&
       t[m].parent == (if m in cs[..j] then None else s[m].parent))
  }

  lemma CollectedRemovedStart(s: seq<Node>, n: NodeId)
    requires WellFormed(s) && n < |s|
    ensures CollectedRemoved(s, s, n, Children(s, n), 0)
  {
    var cs := Children(s, n);
    assert cs[0..] == cs;
  }

  /** Taking the next collected child, which has no sequence, out of its parent extends the run by one. */
  lemma CollectedRemovedStep(s: seq<Node>, u: seq<Node>, n: NodeId, j: nat)
    requires WellFormed(s) && WellFormed(u) && n < |s|
    requires forall k :: 0 <= k < |Children(s, n)| ==> s[Children(s, n)[k]].children.None?
    requires j < |Children(s, n)| && CollectedRemoved(s, u, n, Children(s, n), j)
    ensures var c := Children(s, n)[j];
            c < |u| && u[c].children.None? &&
            CollectedRemoved(s, RowEdits.RemoveFromParent(u, c), n, Children(s, n), j + 1)
  {
    var cs := Children(s, n);
    var c := cs[j];
    CollectedNextChild(s, u, n, j);
    var t := RowEdits.RemoveFromParent(u, c);
    CollectedChildrenAfter(s, u, t, n, j);
    CollectedLinksAfter(s, u, t, cs, j);
  }

  /** The next collected child heads n's sequence, still points at n, and has no sequence. */
  lemma CollectedNextChild(s: seq<Node>, u: seq<Node>, n: NodeId, j: nat)
    requires WellFormed(s) && WellFormed(u) && n < |s|
    requires forall k :: 0 <= k < |Children(s, n)| ==> s[Children(s, n)[k]].children.None?
    requires j < |Children(s, n)| && CollectedRemoved(s, u, n, Children(s, n), j)
    ensures var c := Children(s, n)[j];
            c < |u| && u[c].children.None? && c !in Children(s, n)[..j] &&
            Parent(u, c) == Some(n) && PositionIn(Children(u, n), c) == 0
  {
    var cs := Children(s, n);
    var c := cs[j];
    NoDupInPrefix(s, n, j);
    assert Parent(s, c) == Some(n);
    assert u[c].parent == Some(n);
    assert Children(u, c) == Children(s, c);
    RawChildren(u, c);
    RawChildren(s, c);
    assert Children(u, n)[0] == c;
  }

  /** After the next collected child leaves, n lists the rest and no other sequence changed. */
  lemma CollectedChildrenAfter(s: seq<Node>, u: seq<Node>, t: seq<Node>, n: NodeId, j: nat)
    requires WellFormed(s) && WellFormed(u) && n < |s|
    requires j < |Children(s, n)| && CollectedRemoved(s, u, n, Children(s, n), j)
    requires Children(s, n)[j] < |u| && Parent(u, Children(s, n)[j]) == Some(n)
    requires PositionIn(Children(u, n), Children(s, n)[j]) == 0
    requires t == RowEdits.RemoveFromParent(u, Children(s, n)[j])
    ensures WellFormed(t) && |t| == |s| && Children(t, n) == Children(s, n)[j + 1..]
    ensures forall m {:trigger Children(t, m)} :: 0 <= m < |s| && m != n ==> Children(t, m) == Children(s, m)
  {
    var cs := Children(s, n);
    assert cs[j..][1..] == cs[j + 1..];
    forall m | 0 <= m < |s| && m != n ensures Children(t, m) == Children(s, m) {
      assert Children(t, m) == Children(u, m);
    }
  }

  /** After the next collected child leaves, it is detached and every other element keeps its parent. */
  lemma CollectedLinksAfter(s: seq<Node>, u: seq<Node>, t: seq<Node>, cs: seq<NodeId>, j: nat)
    requires j < |cs| && |u| == |s| && |t| == |s|
    requires forall m {:trigger u[m]} :: 0 <= m < |s| ==>
               u[m].row == s[m].row && u[m].rowIsDirty == s[m].rowIsDirty &&
               u[m].parent == (if m in cs[..j] then None else s[m].parent)
    requires cs[j] < |u| && t[cs[j]].parent.None?
    requires forall m :: 0 <= m < |t| && m != cs[j] ==> t[m].parent == u[m].parent
    requires forall m :: 0 <= m < |t| ==> t[m].row == u[m].row && t[m].rowIsDirty == u[m].rowIsDirty
    ensures forall m {:trigger t[m]} :: 0 <= m < |s| ==>
              t[m].row == s[m].row && t[m].rowIsDirty == s[m].rowIsDirty &&
              t[m].parent == (if m in cs[..j + 1] then None else s[m].parent)
  {
    var c := cs[j];
    assert cs[..j + 1] == cs[..j] + [c];
    forall m | 0 <= m < |s|
      ensures t[m].row == s[m].row && t[m].rowIsDirty == s[m].rowIsDirty &&
              t[m].parent == (if m in cs[..j + 1] then None else s[m].parent)
    {
      assert t[m].row == u[m].row && t[m].rowIsDirty == u[m].rowIsDirty;
      assert u[m].row == s[m].row && u[m].rowIsDirty == s[m].rowIsDirty &&
             u[m].parent == (if m in cs[..j] then None else s[m].parent);
      if m == c {
        assert cs[..j + 1][j] == c;
        assert t[m].parent.None?;
      } else {
        assert t[m].parent == u[m].parent;
        assert (m in cs[..j + 1]) == (m in cs[..j]);
      }
    }
  }

  /** c = cs[j] is not among the children before it. */
  lemma NoDupInPrefix(s: seq<Node>, n: NodeId, j: nat)
    requires WellFormed(s) && n < |s| && j < |Children(s, n)|
    ensures Children(s, n)[j] !in Children(s, n)[..j]
  {
    var cs := Children(s, n);
    ChildrenNoDup(s, n);
    if cs[j] in cs[..j] {
      var i :| 0 <= i < j && cs[..j][i] == cs[j];
      NoDupAt(cs, i, j);
    }
  }

  /** When every collected child is out, n has no sequence and nobody else's sequence changed. */
  lemma CollectedRemovedEnd(s: seq<Node>, t: seq<Node>, n: NodeId)
    requires WellFormed(s) && WellFormed(t) && n < |s|
    requires CollectedRemoved(s, t, n, Children(s, n), |Children(s, n)|)
    ensures |t| == |s| && t[n].children.None? && t[n].parent == s[n].parent
    ensures forall m :: 0 <= m < |t| ==> t[m].row == s[m].row && t[m].rowIsDirty == s[m].rowIsDirty
    ensures forall m :: 0 <= m < |t| && m != n ==>
              t[m].children == s[m].children &&
              t[m].parent == (if m in Children(s, n) then None else s[m].parent)
  {
    var cs := Children(s, n);
    assert cs[..|cs|] == cs;
    RawChildren(t, n);
    assert n !in cs by {
      forall k | 0 <= k < |cs| ensures cs[k] != n { }
    }
    assert t[n].parent == s[n].parent;
    forall m | 0 <= m < |t| && m != n ensures t[m].children == s[m].children {
      RawChildren(t, m);
      RawChildren(s, m);
    }
  }

  /**
   * t is s with e's whole subtree detached and childless and e dropped from
   * its parent's sequence; every other link is as it was.
   */
  predicate RowDeleted(s: seq<Node>, t: seq<Node>, e: NodeId)
    requires WellFormed(s) && WellFormed(t) && e < |s| && Parent(s, e).Some?
  {
    var p := Parent(s, e).value;
    var cs := Children(s, p);
    var k := PositionIn(cs, e);
    |t| == |s| && Children(t, p) == cs[..k] + cs[k + 1..] &&
    (forall m :: 0 <= m < |s| && IsAncestorOrSelf(s, e, m) ==> t[m].parent.None? && t[m].children.None?) &&
    (forall m :: 0 <= m < |s| && !IsAncestorOrSelf(s, e, m) ==>
       t[m].parent == s[m].parent && (m != p ==> Children(t, m) == Children(s, m)))
  }

  /** Tearing e down and then taking e out of its parent deletes e's row, and touches no row path. */
  lemma TearDownThenRemove(s: seq<Node>, t1: seq<Node>, t2: seq<Node>, e: NodeId)
    requires WellFormed(s) && WellFormed(t1) && e < |s| && Parent(s, e).Some?
    requires TornDown(s, t1, e) && t2 == RowEdits.RemoveFromParent(t1, e)
    ensures RowDeleted(s, t2, e)
    ensures forall m :: 0 <= m < |s| ==> t2[m].row == s[m].row && t2[m].rowIsDirty == s[m].rowIsDirty
  {
    var p := Parent(s, e).value;
    assert TornAt(s, t1, e, e);
    assert TornAt(s, t1, e, p);
    assert !StrictlyBelow(s, e, p) by {
      if IsAncestorOrSelf(s, e, p) {
        AncestorIsOlder(s, e, p);
      }
    }
    RawChildren(s, p);
    RawChildren(t1, p);
    forall m | 0 <= m < |s| && IsAncestorOrSelf(s, e, m) ensures t2[m].parent.None? && t2[m].children.None? {
      assert TornAt(s, t1, e, m);
      RawChildren(t1, m);
      RawChildren(t2, m);
    }
    forall m | 0 <= m < |s| && !IsAncestorOrSelf(s, e, m)
      ensures t2[m].parent == s[m].parent && (m != p ==> Children(t2, m) == Children(s, m))
    {
      assert TornAt(s, t1, e, m);
      RawChildren(s, m);
      RawChildren(t1, m);
    }
    forall m | 0 <= m < |s| ensures t2[m].row == s[m].row && t2[m].rowIsDirty == s[m].rowIsDirty {
      assert TornAt(s, t1, e, m);
    }
  }

  /** After a deletion the root lists exactly what it listed before, less the deleted subtree. */
  lemma RowDeletedListing(s: seq<Node>, t: seq<Node>, root: NodeId, e: NodeId, x: NodeId)
    requires WellFormed(s) && WellFormed(t) && e < |s| && Parent(s, e).Some? && x < |s|
    requires Rooted(s, root) && Rooted(t, root) && RowDeleted(s, t, e)
    ensures x in Flatten(t, root) <==> x in Flatten(s, root) && !IsAncestorOrSelf(s, e, x)
  {
    RootedMembers(s, root, x);
    RootedMembers(t, root, x);
  }

  /** Deleting e's row (tear down, then take e out of its parent) drops exactly e's subtree from the root's rows. */
  lemma RowDeletedFromRoot(s: seq<Node>, t1: seq<Node>, t2: seq<Node>, root: NodeId, e: NodeId)
    requires WellFormed(s) && WellFormed(t1) && WellFormed(t2) && e < |s| && Parent(s, e).Some?
    requires TornDown(s, t1, e) && t2 == RowEdits.RemoveFromParent(t1, e)
    requires Rooted(s, root) && Rooted(t2, root)
    ensures RowDeleted(s, t2, e)
    ensures forall x :: 0 <= x < |s| ==>
              (x in Flatten(t2, root) <==> x in Flatten(s, root) && !IsAncestorOrSelf(s, e, x))
  {
    TearDownThenRemove(s, t1, t2, e);
    forall x | 0 <= x < |s|
      ensures x in Flatten(t2, root) <==> x in Flatten(s, root) && !IsAncestorOrSelf(s, e, x)
    {
      RowDeletedListing(s, t2, root, e, x);
    }
  }

  // ----- lookups the adapter makes ----------------------------------------------

  /** get_row_from_row_map: a depth-0 path has no string, so it finds nothing. */
  function FindRow(nodes: seq<Node>, root: NodeId, path: Path): (r: Option<NodeId>)
    requires WellFormed(nodes) && root < |nodes|
    ensures r.Some? ==> root < r.value < |nodes| && nodes[r.value].parent.Some?
  {
    if path == [] then None else Lookup(nodes, root, path)
  }

  /** A row found from the root is in the root's flattened list. */
  lemma FoundRowIsListed(nodes: seq<Node>, root: NodeId, path: Path)
    requires WellFormed(nodes) && root < |nodes|
    ensures FindRow(nodes, root, path).Some? ==> FindRow(nodes, root, path).value in Flatten(nodes, root)
  {
    if path != [] {
      LookupIsBelow(nodes, root, path);
      var r := Lookup(nodes, root, path);
      if r.Some? {
        FlattenMembers(nodes, root, r.value);
      }
    }
  }

  /** The element add_row_to_row_map_with_path inserts under: found at the parent path, or the root at depth 1. */
  function ParentFor(nodes: seq<Node>, root: NodeId, path: Path): (r: Option<NodeId>)
    requires WellFormed(nodes) && root < |nodes|
    ensures r.Some? ==> root <= r.value < |nodes| && (r.value == root || nodes[r.value].parent.Some?)
  {
    if |path| > 1 then Lookup(nodes, root, ParentPath(path)) else Some(root)
  }

  /** Filing a fresh detached element below an element under the root keeps every count and the rooted shape. */
  lemma InsertFreshBelowRoot(nodes: seq<Node>, root: NodeId, p: NodeId, c: NodeId, idx: int)
    requires WellFormed(nodes) && Counted(nodes) && Rooted(nodes, root)
    requires c + 1 == |nodes| && nodes[c].parent.None? && nodes[c].children.None?
    requires root < c && p < |nodes| && IsAncestorOrSelf(nodes, root, p)
    ensures p < c
    ensures Counted(RowEdits.InsertChild(nodes, p, c, idx)) && Rooted(RowEdits.InsertChild(nodes, p, c, idx), root)
  {
    assert p != c;
    InsertKeepsRooted(nodes, root, p, c, idx);
    RawChildren(nodes, c);
    assert CountedAt(nodes, c);
    RowEdits.InsertChildKeepsCounts(nodes, p, c, idx);
  }

  /** A parent found by ParentFor lies in the root's tree. */
  lemma ParentForIsBelow(nodes: seq<Node>, root: NodeId, path: Path)
    requires WellFormed(nodes) && root < |nodes|
    ensures ParentFor(nodes, root, path).Some? ==> IsAncestorOrSelf(nodes, root, ParentFor(nodes, root, path).value)
  {
    if |path| > 1 {
      LookupIsBelow(nodes, root, ParentPath(path));
    }
  }

  /**
   * A row inserted under its parent at its last path index, when that index
   * is at most the parent's child count, is then found at its path.
   */
  lemma InsertedRowIsFound(nodes: seq<Node>, root: NodeId, path: Path, c: NodeId)
    requires WellFormed(nodes) && root < |nodes| && path != []
    requires ParentFor(nodes, root, path).Some?
    requires ParentFor(nodes, root, path).value < c < |nodes| && nodes[c].parent.None?
    requires path[|path| - 1] <= |Children(nodes, ParentFor(nodes, root, path).value)|
    ensures var p := ParentFor(nodes, root, path).value;
            FindRow(RowEdits.InsertChild(nodes, p, c, path[|path| - 1]), root, path) == Some(c)
  {
    var p := ParentFor(nodes, root, path).value;
    var k := path[|path| - 1];
    var r := RowEdits.InsertChild(nodes, p, c, k);
    var cs := Children(nodes, p);
    assert RowEdits.InsertPosition(|cs|, k) == k;
    assert Children(r, p)[k] == c;
    if |path| > 1 {
      var q := ParentPath(path);
      LookupFrame(nodes, r, root, q, p);
      LookupSnoc(r, root, q, k);
      assert q + [k] == path;
    }
  }

  /** add_selected_rows: the rows found at the selected paths, in selection order, skipping paths not found. */
  function SelectedRows(nodes: seq<Node>, root: NodeId, selection: seq<Path>): seq<NodeId>
    requires WellFormed(nodes) && root < |nodes|
  {
    if selection == [] then []
    else
      var before := SelectedRows(nodes, root, selection[..|selection| - 1]);
      match FindRow(nodes, root, selection[|selection| - 1])
      case None => before
      case Some(x) => before + [x]
  }

  /** An element is reported selected exactly when some selected path finds it. */
  lemma {:induction false} SelectedRowsMembers(nodes: seq<Node>, root: NodeId, selection: seq<Path>, x: NodeId)
    requires WellFormed(nodes) && root < |nodes|
    ensures x in SelectedRows(nodes, root, selection) <==>
              exists j :: 0 <= j < |selection| && FindRow(nodes, root, selection[j]) == Some(x)
  {
    if selection != [] {
      var init := selection[..|selection| - 1];
      var last := selection[|selection| - 1];
      SelectedRowsMembers(nodes, root, init, x);
      assert selection == init + [last];
      var here := FindRow(nodes, root, last) == Some(x);
      var earlier := exists j :: 0 <= j < |init| && FindRow(nodes, root, init[j]) == Some(x);
      assert x in SelectedRows(nodes, root, selection) <==> earlier || here;
      if exists j :: 0 <= j < |selection| && FindRow(nodes, root, selection[j]) == Some(x) {
        var j :| 0 <= j < |selection| && FindRow(nodes, root, selection[j]) == Some(x);
        if j < |init| {
          assert init[j] == selection[j];
        }
      }
      if earlier {
        var j :| 0 <= j < |init| && FindRow(nodes, root, init[j]) == Some(x);
        assert selection[j] == init[j];
      }
    }
  }

  /** Every reported selected row is in the root's flattened list. */
  lemma SelectedRowsAreListed(nodes: seq<Node>, root: NodeId, selection: seq<Path>)
    requires WellFormed(nodes) && root < |nodes|
    ensures forall x :: x in SelectedRows(nodes, root, selection) ==> x in Flatten(nodes, root)
  {
    forall x | x in SelectedRows(nodes, root, selection) ensures x in Flatten(nodes, root) {
      SelectedRowsMembers(nodes, root, selection, x);
      var j :| 0 <= j < |selection| && FindRow(nodes, root, selection[j]) == Some(x);
      FoundRowIsListed(nodes, root, selection[j]);
    }
  }

  // ----- the first build ---------------------------------------------------------

  /** The row paths of a list of elements (None past the end of the state). */
  function RowPaths(nodes: seq<Node>, xs: seq<NodeId>): seq<Option<Path>>
  {
    seq(|xs|, i requires 0 <= i < |xs| => if xs[i] < |nodes| then nodes[xs[i]].row else None)
  }

  function Wrap(ps: seq<Path>): seq<Option<Path>>
  {
    seq(|ps|, i requires 0 <= i < |ps| => Some(ps[i]))
  }

  /** Handles lo, lo + 1, ..., lo + k - 1. */
  function Range(lo: nat, k: nat): (r: seq<NodeId>)
    ensures |r| == k && forall i :: 0 <= i < k ==> r[i] == lo + i
  {
    seq(k, i requires 0 <= i < k => lo + i)
  }

  lemma RowPathsAppend(nodes: seq<Node>, a: seq<NodeId>, b: seq<NodeId>)
    ensures RowPaths(nodes, a + b) == RowPaths(nodes, a) + RowPaths(nodes, b)
  {
    assert forall i :: 0 <= i < |a + b| ==> RowPaths(nodes, a + b)[i] == (RowPaths(nodes, a) + RowPaths(nodes, b))[i];
  }

  lemma WrapAppend(a: seq<Path>, b: seq<Path>)
    ensures Wrap(a + b) == Wrap(a) + Wrap(b)
  {
    assert forall i :: 0 <= i < |a + b| ==> Wrap(a + b)[i] == (Wrap(a) + Wrap(b))[i];
  }

  /** Row paths of elements that already existed do not change when new elements are made. */
  lemma RowPathsFrame(s: seq<Node>, t: seq<Node>, xs: seq<NodeId>)
    requires |s| <= |t| && forall i :: 0 <= i < |xs| ==> xs[i] < |s|
    requires forall m :: 0 <= m < |s| ==> t[m].row == s[m].row
    ensures RowPaths(t, xs) == RowPaths(s, xs)
  {
  }

  lemma {:induction false} PreorderInRange(nodes: seq<Node>, cs: seq<NodeId>, lo: nat)
    requires WellFormed(nodes) && forall i :: 0 <= i < |cs| ==> lo < cs[i] < |nodes|
    ensures forall i :: 0 <= i < |Preorder(nodes, cs, lo)| ==> lo < Preorder(nodes, cs, lo)[i] < |nodes|
    decreases |nodes| - lo, |cs|
  {
    if cs != [] {
      PreorderInRange(nodes, Children(nodes, cs[0]), cs[0]);
      PreorderInRange(nodes, cs[1..], lo);
    }
  }

  /** A new element changes no lookup. */
  lemma {:induction false} AddRowKeepsLookup(nodes: seq<Node>, row: Option<Path>, r: NodeId, p: Path)
    requires WellFormed(nodes) && r < |nodes| && p != []
    ensures Lookup(RowEdits.AddRow(nodes, row), r, p) == Lookup(nodes, r, p)
    decreases |p|
  {
    var child := ChildAtIndex(nodes, r, p[0]);
    if |p| > 1 && child.Some? {
      AddRowKeepsLookup(nodes, row, child.value, p[1..]);
    }
  }

  /** A new element is detached, so every path still agrees. */
  lemma AddRowKeepsPathsAgree(nodes: seq<Node>, row: Option<Path>)
    requires WellFormed(nodes) && PathsAgree(nodes)
    ensures PathsAgree(RowEdits.AddRow(nodes, row))
  {
    var t := RowEdits.AddRow(nodes, row);
    forall x | 0 <= x < |t| ensures RowAgrees(t, x) {
      if x < |nodes| {
        assert t[..|nodes|][x] == t[x];
        assert RowAgrees(nodes, x);
        if t[x].parent.Some? {
          assert t[..|nodes|][t[x].parent.value] == t[t[x].parent.value];
        }
      }
    }
  }

  /** Appending a row whose path ends in the parent's child count keeps every path agreeing. */
  lemma AppendKeepsPathsAgree(nodes: seq<Node>, p: NodeId, c: NodeId, path: Path)
    requires WellFormed(nodes) && PathsAgree(nodes) && p < c < |nodes| && nodes[c].parent.None?
    requires nodes[c].row == Some(path) && path != [] && path[|path| - 1] == |Children(nodes, p)|
    ensures PathsAgree(RowEdits.InsertChild(nodes, p, c, |Children(nodes, p)|))
  {
    var cs := Children(nodes, p);
    var t := RowEdits.InsertChild(nodes, p, c, |cs|);
    assert RowEdits.InsertPosition(|cs|, |cs|) == |cs|;
    assert cs[..|cs|] + [c] + cs[|cs|..] == cs + [c];
    assert c !in cs;
    forall x | 0 <= x < |t| ensures RowAgrees(t, x) {
      assert RowAgrees(nodes, x);
      if t[x].parent.Some? {
        var q := t[x].parent.value;
        assert Children(t, q) == if q == p then cs + [c] else Children(nodes, q);
      }
      AppendKeepsRowAgrees(nodes, t, p, c, x);
    }
  }

  lemma AppendKeepsRowAgrees(nodes: seq<Node>, t: seq<Node>, p: NodeId, c: NodeId, x: NodeId)
    requires WellFormed(nodes) && WellFormed(t) && p < |nodes| && x < |nodes| && x < |t|
    requires RowAgrees(nodes, x) && t[x].row == nodes[x].row
    requires t[x].parent == if x == c then Some(p) else nodes[x].parent
    requires x == c ==> c !in Children(nodes, p) && nodes[c].row.Some? && nodes[c].row.value != [] &&
                        nodes[c].row.value[|nodes[c].row.value| - 1] == |Children(nodes, p)|
    requires t[x].parent.Some? ==>
               var q := t[x].parent.value;
               q < |nodes| && q < |t| &&
               Children(t, q) == if q == p then Children(nodes, p) + [c] else Children(nodes, q)
    ensures RowAgrees(t, x)
  {
    var cs := Children(nodes, p);
    if x == c {
      PositionInLast(cs, c);
    } else if t[x].parent == Some(p) {
      assert Parent(nodes, x) == Some(p);
      PositionInSnoc(cs, c, x);
    }
  }

  /** Giving e one more child N appends N and N's subtree to e's flattened list. */
  lemma FlattenAfterChild(s: seq<Node>, t: seq<Node>, e: NodeId, n: NodeId)
    requires WellFormed(s) && WellFormed(t) && e < |s| <= n < |t|
    requires Children(t, e) == Children(s, e) + [n]
    requires forall m :: e < m < |s| ==> Children(t, m) == Children(s, m)
    ensures Flatten(t, e) == Flatten(s, e) + [n] + Flatten(t, n)
  {
    var ids := Children(s, e);
    assert Flatten(t, e) == Preorder(t, ids + [n], e);
    PreorderAppend(t, ids, [n], e);
    PreorderFrame(s, t, ids, e);
    PreorderSingle(t, n, e);
    AppendAssoc(Preorder(s, ids, e), [n], Flatten(t, n));
  }

  /** e is the element the build reached at prefix: the root for the top level. */
  predicate Reaches(nodes: seq<Node>, root: NodeId, prefix: Path, e: NodeId)
    requires WellFormed(nodes) && root < |nodes|
  {
    if prefix == [] then e == root else Lookup(nodes, root, prefix) == Some(e)
  }

  lemma ReachesParentFor(nodes: seq<Node>, root: NodeId, prefix: Path, e: NodeId, i: nat)
    requires WellFormed(nodes) && root < |nodes| && Reaches(nodes, root, prefix, e)
    ensures ParentFor(nodes, root, prefix + [i]) == Some(e)
  {
    if prefix != [] {
      var q := ParentPath(prefix + [i]);
      assert q == prefix by {
        assert q + [i] == prefix + [i];
        assert q == (q + [i])[..|q|];
      }
    }
  }

  /**
   * expand_row_gtk after i of its children: i new elements, filed for
   * prefix + [0] ... prefix + [i - 1], head the children of the element e
   * the prefix leads to, and every older element keeps its links and row.
   */
  predicate ExpandedSoFar(s: seq<Node>, t: seq<Node>, root: NodeId, prefix: Path, e: NodeId, i: nat)
    requires WellFormed(s) && WellFormed(t) && root < |s| && prefix != [] && e < |s|
  {
    |t| == |s| + i && Lookup(t, root, prefix) == Some(e) &&
    Children(t, e) == Range(|s|, i) + Children(s, e) &&
    (forall j :: 0 <= j < i ==> t[|s| + j].row == Some(prefix + [j])) &&
    (forall m {:trigger t[m]} :: 0 <= m < |s| ==> t[m].parent == s[m].parent && t[m].row == s[m].row) &&
    (forall m {:trigger Children(t, m)} :: 0 <= m < |s| && m != e ==> Children(t, m) == Children(s, m))
  }

  /** Before the first new child nothing has been added: the run of new children is empty. */
  lemma ExpandedNothingYet(s: seq<Node>, root: NodeId, prefix: Path, e: NodeId)
    requires WellFormed(s) && root < |s| && prefix != [] && e < |s| && Lookup(s, root, prefix) == Some(e)
    ensures ExpandedSoFar(s, s, root, prefix, e, 0)
  {
    assert Children(s, e) == Range(|s|, 0) + Children(s, e);
  }

  /** One more child of e: a new element for prefix + [i], inserted under e at index i. */
  lemma ExpandStep(s: seq<Node>, u: seq<Node>, t: seq<Node>, root: NodeId, prefix: Path, e: NodeId, i: nat)
    requires WellFormed(s) && WellFormed(u) && root < |s| && prefix != [] && e < |s|
    requires ExpandedSoFar(s, u, root, prefix, e, i)
    requires t == RowEdits.InsertChild(RowEdits.AddRow(u, Some(prefix + [i])), e, |u|, i)
    ensures WellFormed(t) && ExpandedSoFar(s, t, root, prefix, e, i + 1)
  {
    ExpandStepLinks(s, u, root, prefix, e, i);
    ExpandStepFrame(s, u, root, prefix, e, i);
  }

  /** The element the build reaches at prefix is the parent the new row for prefix + [i] is filed under. */
  lemma ExpandStepParent(s: seq<Node>, u: seq<Node>, root: NodeId, prefix: Path, e: NodeId, i: nat)
    requires WellFormed(s) && WellFormed(u) && root < |s| && prefix != [] && e < |s|
    requires ExpandedSoFar(s, u, root, prefix, e, i)
    ensures e < |u| && ParentFor(RowEdits.AddRow(u, Some(prefix + [i])), root, prefix + [i]) == Some(e)
  {
    var mid := RowEdits.AddRow(u, Some(prefix + [i]));
    AddRowKeepsLookup(u, Some(prefix + [i]), root, prefix);
    ReachesParentFor(mid, root, prefix, e, i);
  }

  /** The links part of ExpandStep: the lookup to e survives and e gains the new child at index i. */
  lemma ExpandStepLinks(s: seq<Node>, u: seq<Node>, root: NodeId, prefix: Path, e: NodeId, i: nat)
    requires WellFormed(s) && WellFormed(u) && root < |s| && prefix != [] && e < |s|
    requires |u| == |s| + i && Lookup(u, root, prefix) == Some(e)
    requires Children(u, e) == Range(|s|, i) + Children(s, e)
    requires forall m {:trigger Children(u, m)} :: 0 <= m < |s| && m != e ==> Children(u, m) == Children(s, m)
    ensures var mid := RowEdits.AddRow(u, Some(prefix + [i]));
            var t := RowEdits.InsertChild(mid, e, |u|, i);
            ParentFor(mid, root, prefix + [i]) == Some(e) &&
            Lookup(t, root, prefix) == Some(e) &&
            Children(t, e) == Range(|s|, i + 1) + Children(s, e) &&
            forall m {:trigger Children(t, m)} :: 0 <= m < |s| && m != e ==> Children(t, m) == Children(s, m)
  {
    var mid := RowEdits.AddRow(u, Some(prefix + [i]));
    var t := RowEdits.InsertChild(mid, e, |u|, i);
    ExpandStepMid(s, u, mid, root, prefix, e, i);
    ExpandStepInsert(s, u, mid, t, root, prefix, e, i);
  }

  /** Allocating the element for prefix + [i] keeps the lookup to e, which becomes its parent. */
  lemma ExpandStepMid(s: seq<Node>, u: seq<Node>, mid: seq<Node>, root: NodeId, prefix: Path, e: NodeId, i: nat)
    requires WellFormed(s) && WellFormed(u) && root < |s| && prefix != [] && e < |s|
    requires |u| == |s| + i && Lookup(u, root, prefix) == Some(e)
    requires Children(u, e) == Range(|s|, i) + Children(s, e)
    requires mid == RowEdits.AddRow(u, Some(prefix + [i]))
    ensures WellFormed(mid) && |mid| == |u| + 1 && mid[|u|].parent.None?
    ensures ParentFor(mid, root, prefix + [i]) == Some(e) && Lookup(mid, root, prefix) == Some(e)
    ensures Children(mid, e) == Range(|s|, i) + Children(s, e)
    ensures forall m {:trigger Children(mid, m)} :: 0 <= m < |u| ==> Children(mid, m) == Children(u, m)
  {
    AddRowKeepsLookup(u, Some(prefix + [i]), root, prefix);
    ReachesParentFor(mid, root, prefix, e, i);
  }

  /** Inserting the new element under e keeps the lookup to e and every other element's children. */
  lemma ExpandStepInsert(s: seq<Node>, u: seq<Node>, mid: seq<Node>, t: seq<Node>, root: NodeId, prefix: Path, e: NodeId, i: nat)
    requires WellFormed(s) && WellFormed(u) && WellFormed(mid) && root < |s| && prefix != [] && e < |s|
    requires |u| == |s| + i && |mid| == |u| + 1 && mid[|u|].parent.None? && Lookup(mid, root, prefix) == Some(e)
    requires Children(mid, e) == Range(|s|, i) + Children(s, e)
    requires forall m {:trigger Children(u, m)} :: 0 <= m < |s| && m != e ==> Children(u, m) == Children(s, m)
    requires forall m {:trigger Children(mid, m)} :: 0 <= m < |u| ==> Children(mid, m) == Children(u, m)
    requires t == RowEdits.InsertChild(mid, e, |u|, i)
    ensures Lookup(t, root, prefix) == Some(e)
    ensures Children(t, e) == Range(|s|, i + 1) + Children(s, e)
    ensures forall m {:trigger Children(t, m)} :: 0 <= m < |s| && m != e ==> Children(t, m) == Children(s, m)
  {
    ExpandStepChildren(s, |u|, mid, t, e, i);
    forall m | 0 <= m < e ensures Children(t, m) == Children(mid, m) {
    }
    LookupFrame(mid, t, root, prefix, e);
    forall m | 0 <= m < |s| && m != e ensures Children(t, m) == Children(s, m) {
      assert Children(t, m) == Children(mid, m);
      assert Children(mid, m) == Children(u, m);
    }
  }

  /** The row part of ExpandStep: the new element carries prefix + [i] and older elements keep theirs. */
  lemma ExpandStepFrame(s: seq<Node>, u: seq<Node>, root: NodeId, prefix: Path, e: NodeId, i: nat)
    requires WellFormed(s) && WellFormed(u) && root < |s| && prefix != [] && e < |s|
    requires ExpandedSoFar(s, u, root, prefix, e, i)
    ensures var mid := RowEdits.AddRow(u, Some(prefix + [i]));
            var t := RowEdits.InsertChild(mid, e, |u|, i);
            |t| == |s| + i + 1 &&
            (forall j :: 0 <= j < i + 1 ==> t[|s| + j].row == Some(prefix + [j])) &&
            forall m {:trigger t[m]} :: 0 <= m < |s| ==> t[m].parent == s[m].parent && t[m].row == s[m].row
  {
    var n := |s|;
    var mid := RowEdits.AddRow(u, Some(prefix + [i]));
    var t := RowEdits.InsertChild(mid, e, |u|, i);
    assert mid[|u|].row == Some(prefix + [i]);
    ExpandStepRows(s, u, mid, t, prefix, i);
    forall m | 0 <= m < n ensures t[m].parent == s[m].parent && t[m].row == s[m].row {
      assert mid[m] == u[m] by {
        assert mid[..|u|][m] == mid[m];
      }
      assert t[m].parent == mid[m].parent && t[m].row == mid[m].row;
      assert u[m].parent == s[m].parent && u[m].row == s[m].row;
    }
  }

  /** The new element goes in at index i, right after the i elements made before it. */
  lemma ExpandStepChildren(s: seq<Node>, c: NodeId, mid: seq<Node>, t: seq<Node>, e: NodeId, i: nat)
    requires WellFormed(s) && WellFormed(mid) && e < |s| && c == |s| + i && |mid| == c + 1 && mid[c].parent.None?
    requires Children(mid, e) == Range(|s|, i) + Children(s, e)
    requires t == RowEdits.InsertChild(mid, e, c, i)
    ensures Children(t, e) == Range(|s|, i + 1) + Children(s, e)
  {
    var cs := Children(mid, e);
    assert RowEdits.InsertPosition(|cs|, i) == i;
    RangeInsert(Children(s, e), |s|, i);
  }

  /** Inserting lo + i at index i after lo, ..., lo + i - 1 extends the run by one. */
  lemma RangeInsert(b: seq<NodeId>, lo: nat, i: nat)
    ensures var cs := Range(lo, i) + b;
            cs[..i] + [lo + i] + cs[i..] == Range(lo, i + 1) + b
  {
    var cs := Range(lo, i) + b;
    assert cs[..i] == Range(lo, i);
    assert cs[i..] == b;
    assert Range(lo, i) + [lo + i] == Range(lo, i + 1);
  }

  lemma ExpandStepRows(s: seq<Node>, u: seq<Node>, mid: seq<Node>, t: seq<Node>, prefix: Path, i: nat)
    requires WellFormed(u) && |u| == |s| + i
    requires forall j :: 0 <= j < i ==> u[|s| + j].row == Some(prefix + [j])
    requires |mid| == |u| + 1 && mid[..|u|] == u && mid[|u|].row == Some(prefix + [i])
    requires |t| == |mid| && forall m :: 0 <= m < |t| ==> t[m].row == mid[m].row
    ensures forall j :: 0 <= j < i + 1 ==> t[|s| + j].row == Some(prefix + [j])
  {
    forall j | 0 <= j < i + 1 ensures t[|s| + j].row == Some(prefix + [j]) {
      if j < i {
        assert mid[..|u|][|s| + j] == u[|s| + j];
      }
    }
  }

  /** After expand_row_gtk, child i of the expanded row is the element made for prefix + [i]. */
  lemma ExpandedRowsFound(s: seq<Node>, t: seq<Node>, root: NodeId, prefix: Path, e: NodeId, k: nat)
    requires WellFormed(s) && WellFormed(t) && root < |s| && prefix != [] && e < |s|
    requires ExpandedSoFar(s, t, root, prefix, e, k)
    ensures forall i :: 0 <= i < k ==> FindRow(t, root, prefix + [i]) == Some(|s| + i)
  {
    forall i | 0 <= i < k ensures FindRow(t, root, prefix + [i]) == Some(|s| + i) {
      LookupSnoc(t, root, prefix, i);
      assert Children(t, e)[i] == |s| + i;
    }
  }
}

=== FILE: window_stacking.dfy ===
/**
 * The X11 stacking bookkeeping of the GailWindow adapter.  One GailScreenInfo
 * per screen holds the root window's _NET_CLIENT_LIST_STACKING (bottom to
 * top) and, in parallel, each listed window's desktop and a "desktop
 * changed" flag.  A property-notify filter flags what went stale and
 * schedules one idle refresh per screen; get_window_zorder reads a window's
 * position among the windows on its own desktop.
 *
 * The per-screen buffers are sequences; a NULL buffer is the empty one,
 * which the source only ever pairs with a zero length.  X property reads
 * are parameters: the stacking reply, and what _NET_WM_DESKTOP holds for
 * each window.
 */
module WindowStacking {
  import opened Wrappers

  /** An X Window id. */
  type XWindow = nat

  /** A GailScreenInfo: the three parallel buffers, the two idle-source ids (as "pending") and two flags. */
  datatype ScreenInfo = ScreenInfo(
    stackedWindows: seq<XWindow>,
    desktop: seq<int>,
    desktopChanged: seq<bool>,
    updateHandler: bool,
    updateDesktopHandler: bool,
    screenInitialized: bool,
    updateStackedWindows: bool)

  /** A screen info as g_new0 leaves it: no buffers, nothing pending. */
  const Zeroed := ScreenInfo([], [], [], false, false, false, false)

  /** The idle sources the adapter adds to the main loop. */
  datatype IdleSource = ScreenRefresh(screen: nat) | DesktopRefresh(screen: nat)

  /** The reply to reading _NET_CLIENT_LIST_STACKING on a root window. */
  datatype StackingReply =
    | ReadFailed
    | Property(isWindowList: bool, ids: seq<XWindow>)

  /** A property-notify event as filter_func tells them apart. */
  datatype XEvent =
    /** _NET_CLIENT_LIST_STACKING changed; the screen number of the event's window, if it has one. */
    | StackingChanged(screen: Option<nat>)
    /** _NET_WM_DESKTOP changed on the given window. */
    | DesktopChanged(xwindow: XWindow)
    | OtherEvent

  /** The three buffers run in parallel. */
  predicate Parallel(info: ScreenInfo)
  {
    |info.desktop| == |info.stackedWindows| && |info.desktopChanged| == |info.stackedWindows|
  }

  /** A screen's idle sources: each id is set exactly when its one source is pending. */
  predicate HandlersMatch(info: ScreenInfo, n: nat, idle: multiset<IdleSource>)
  {
    idle[ScreenRefresh(n)] <= 1 && (info.updateHandler <==> idle[ScreenRefresh(n)] == 1) &&
    idle[DesktopRefresh(n)] <= 1 && (info.updateDesktopHandler <==> idle[DesktopRefresh(n)] == 1)
  }

  /** The C cast of a cardinal (an unsigned 32-bit value carried in a long) to int. */
  function Int32(c: int): (r: int)
    ensures -0x8000_0000 <= r < 0x8000_0000
    ensures (r - c) % 0x1_0000_0000 == 0
  {
    var m := c % 0x1_0000_0000;
    if m >= 0x8000_0000 then m - 0x1_0000_0000 else m
  }

  /**
   * get_window_desktop, as intended: the window's desktop, cast to int,
   * when the read succeeds with exactly one cardinal, and -1 otherwise.
   */
  function WindowDesktop(reply: Option<seq<int>>): (d: int)
    ensures reply.Some? && |reply.value| == 1 ==> d == Int32(reply.value[0])
    ensures !(reply.Some? && |reply.value| == 1) ==> d == -1
  {
    if reply.None? || |reply.value| < 1 then -1
    else
      var desktop := Int32(reply.value[0]);
      if |reply.value| != 1 then -1 else desktop
  }

  /**
   * get_window_desktop as written: the property data is read through a
   * byte pointer, so only the first byte of the first cardinal is taken,
   * which on a little-endian host is the cardinal modulo 256.
   */
  function WindowDesktopAsWritten(reply: Option<seq<int>>): (d: int)
    ensures reply.Some? && |reply.value| == 1 ==> 0 <= d < 256 && (d - reply.value[0]) % 256 == 0
    ensures !(reply.Some? && |reply.value| == 1) ==> d == -1
  {
    if reply.None? || |reply.value| < 1 then -1
    else
      var desktop := reply.value[0] % 256;
      if |reply.value| != 1 then -1 else desktop
  }

  /**
   * A window on every desktop (_NET_WM_DESKTOP 0xFFFFFFFF) reads as desktop
   * 255 as written, where the cast gives -1; a window on desktop 256 reads
   * as desktop 0.
   */
  lemma WindowDesktopAsWrittenMisreads()
    ensures WindowDesktopAsWritten(Some([0xFFFF_FFFF])) == 255 && WindowDesktop(Some([0xFFFF_FFFF])) == -1
    ensures WindowDesktopAsWritten(Some([256])) == 0 && WindowDesktop(Some([256])) == 256
  {
  }

  /** The first position of w in ws, if it is there. */
  function FirstIndex(ws: seq<XWindow>, w: XWindow): (r: Option<nat>)
    ensures r.None? <==> w !in ws
    ensures r.Some? ==> r.value < |ws| && ws[r.value] == w && w !in ws[..r.value]
  {
    if ws == [] then None
    else if ws[0] == w then Some(0)
    else
      match FirstIndex(ws[1..], w)
      case None => None
      case Some(k) =>
        assert ws[..k + 1] == [ws[0]] + ws[1..][..k];
        Some(k + 1)
  }

  /** The position found by scanning ws up to its first w. */
  lemma {:induction false} FirstIndexAt(ws: seq<XWindow>, w: XWindow, j: nat)
    requires j < |ws| && ws[j] == w && forall m :: 0 <= m < j ==> ws[m] != w
    ensures FirstIndex(ws, w) == Some(j)
  {
    if j > 0 {
      FirstIndexAt(ws[1..], w, j - 1);
    }
  }

  // ----- get_stacked_windows ----------------------------------------------------------------

  /** The reply holds a window list with at least one window. */
  predicate RefreshSucceeds(reply: StackingReply)
  {
    reply.Property? && |reply.ids| >= 1 && reply.isWindowList
  }

  /** free_screen_info: the buffers are dropped and the length is 0. */
  function Freed(info: ScreenInfo): (r: ScreenInfo)
    ensures Parallel(r) && r.stackedWindows == []
    ensures r == info.(stackedWindows := r.stackedWindows, desktop := r.desktop, desktopChanged := r.desktopChanged)
  {
    info.(stackedWindows := [], desktop := [], desktopChanged := [])
  }

  /** The desktop a refreshed list gives w: the old one at its first old position, else a fresh read. */
  function CarriedDesktop(info: ScreenInfo, w: XWindow, read: XWindow -> Option<seq<int>>): int
    requires Parallel(info)
  {
    match FirstIndex(info.stackedWindows, w)
    case Some(j) => info.desktop[j]
    case None => WindowDesktop(read(w))
  }

  /** As CarriedDesktop, but a fresh read goes through get_window_desktop as written, taking one byte. */
  function CarriedDesktopAsWritten(info: ScreenInfo, w: XWindow, read: XWindow -> Option<seq<int>>): int
    requires Parallel(info)
  {
    match FirstIndex(info.stackedWindows, w)
    case Some(j) => info.desktop[j]
    case None => WindowDesktopAsWritten(read(w))
  }

  /** The flag a refreshed list gives w: the old one at its first old position, else FALSE. */
  function CarriedFlag(info: ScreenInfo, w: XWindow): bool
    requires Parallel(info)
  {
    match FirstIndex(info.stackedWindows, w)
    case Some(j) => info.desktopChanged[j]
    case None => false
  }

  /**
   * What get_stacked_windows leaves in a screen info.  On a failed read the
   * buffers are freed.  Otherwise the new list replaces the old, and each
   * window keeps the desktop and flag of its first old position when the old
   * list had it; a new window gets a freshly read desktop and a clear flag.
   */
  function Refreshed(info: ScreenInfo, reply: StackingReply, read: XWindow -> Option<seq<int>>): (r: ScreenInfo)
    requires Parallel(info)
    ensures Parallel(r)
    ensures r == info.(stackedWindows := r.stackedWindows, desktop := r.desktop, desktopChanged := r.desktopChanged)
    ensures !RefreshSucceeds(reply) ==> r.stackedWindows == []
    ensures RefreshSucceeds(reply) ==>
              r.stackedWindows == reply.ids &&
              forall i :: 0 <= i < |reply.ids| ==>
                (reply.ids[i] in info.stackedWindows ==>
                   exists j :: 0 <= j < |info.stackedWindows| && info.stackedWindows[j] == reply.ids[i] &&
                               r.desktop[i] == info.desktop[j] && r.desktopChanged[i] == info.desktopChanged[j]) &&
                (reply.ids[i] !in info.stackedWindows ==>
                   r.desktop[i] == WindowDesktop(read(reply.ids[i])) && !r.desktopChanged[i])
  {
    if !RefreshSucceeds(reply) then Freed(info)
    else
      var ids := reply.ids;
      info.(stackedWindows := ids,
            desktop := seq(|ids|, i requires 0 <= i < |ids| => CarriedDesktop(info, ids[i], read)),
            desktopChanged := seq(|ids|, i requires 0 <= i < |ids| => CarriedFlag(info, ids[i])))
  }

  /** Buffers filled entry by entry with the carried desktops and flags are the refreshed info. */
  lemma RefreshedFrom(info: ScreenInfo, reply: StackingReply, read: XWindow -> Option<seq<int>>,
                      desktops: seq<int>, flags: seq<bool>)
    requires Parallel(info) && RefreshSucceeds(reply)
    requires |desktops| == |flags| == |reply.ids|
    requires forall m :: 0 <= m < |reply.ids| ==>
               desktops[m] == CarriedDesktop(info, reply.ids[m], read) && flags[m] == CarriedFlag(info, reply.ids[m])
    ensures Refreshed(info, reply, read) == info.(stackedWindows := reply.ids, desktop := desktops, desktopChanged := flags)
  {
  }

  /**
   * A refresh that reads back the same list of distinct windows leaves every
   * desktop and every flag as it was.
   */
  lemma RefreshSameListKeepsInfo(info: ScreenInfo, read: XWindow -> Option<seq<int>>, isWindowList: bool)
    requires Parallel(info) && |info.stackedWindows| >= 1 && isWindowList
    requires forall a, b :: 0 <= a < b < |info.stackedWindows| ==> info.stackedWindows[a] != info.stackedWindows[b]
    ensures Refreshed(info, Property(isWindowList, info.stackedWindows), read) == info
  {
    var ws := info.stackedWindows;
    var r := Refreshed(info, Property(isWindowList, ws), read);
    forall i | 0 <= i < |ws| ensures r.desktop[i] == info.desktop[i] && r.desktopChanged[i] == info.desktopChanged[i] {
      FirstIndexAt(ws, ws[i], i);
    }
  }

  /** Byte r of x, counting from the least significant. */
  function ByteOf(x: nat, r: nat): (b: nat)
    ensures b < 256
    ensures r == 0 ==> b == x % 256
  {
    if r == 0 then x % 256 else ByteOf(x / 256, r - 1)
  }

  /**
   * data [i] in get_stacked_windows as written: the reply buffer is read
   * through a byte pointer, so item i is byte i of the buffer, which holds
   * one 8-byte little-endian long per window.
   */
  function ReplyByte(ids: seq<XWindow>, i: nat): (b: nat)
    requires i < 8 * |ids|
    ensures b < 256
  {
    ByteOf(ids[i / 8], i % 8)
  }

  /**
   * What get_stacked_windows leaves as written: the list is the reply, but
   * entry i is matched against the old list, and read afresh, by byte i of
   * the reply buffer instead of by window i, and a fresh read keeps one byte
   * of the desktop (get_window_desktop as written).
   */
  function RefreshedAsWritten(info: ScreenInfo, reply: StackingReply, read: XWindow -> Option<seq<int>>): (r: ScreenInfo)
    requires Parallel(info)
    ensures Parallel(r)
    ensures r == info.(stackedWindows := r.stackedWindows, desktop := r.desktop, desktopChanged := r.desktopChanged)
    ensures !RefreshSucceeds(reply) ==> r.stackedWindows == []
    ensures RefreshSucceeds(reply) ==>
              r.stackedWindows == reply.ids &&
              forall i :: 0 <= i < |reply.ids| ==>
                (ReplyByte(reply.ids, i) in info.stackedWindows ==>
                   exists j :: 0 <= j < |info.stackedWindows| && info.stackedWindows[j] == ReplyByte(reply.ids, i) &&
                               r.desktop[i] == info.desktop[j] && r.desktopChanged[i] == info.desktopChanged[j]) &&
                (ReplyByte(reply.ids, i) !in info.stackedWindows ==>
                   r.desktop[i] == WindowDesktopAsWritten(read(ReplyByte(reply.ids, i))) && !r.desktopChanged[i])
  {
    if !RefreshSucceeds(reply) then Freed(info)
    else
      var ids := reply.ids;
      info.(stackedWindows := ids,
            desktop := seq(|ids|, i requires 0 <= i < |ids| => CarriedDesktopAsWritten(info, ReplyByte(ids, i), read)),
            desktopChanged := seq(|ids|, i requires 0 <= i < |ids| => CarriedFlag(info, ReplyByte(ids, i))))
  }

  /**
   * As written, when every old window id is 256 or more (as X window ids
   * are), no entry is carried over: every desktop is read again, from the
   * byte taken for a window id, and every pending "desktop changed" flag is lost.
   */
  lemma RefreshAsWrittenNeverCarries(info: ScreenInfo, reply: StackingReply, read: XWindow -> Option<seq<int>>)
    requires Parallel(info) && RefreshSucceeds(reply)
    requires forall j :: 0 <= j < |info.stackedWindows| ==> info.stackedWindows[j] >= 256
    ensures RefreshedAsWritten(info, reply, read).stackedWindows == reply.ids
    ensures forall i :: 0 <= i < |reply.ids| ==>
              RefreshedAsWritten(info, reply, read).desktop[i] == WindowDesktopAsWritten(read(ReplyByte(reply.ids, i))) &&
              !RefreshedAsWritten(info, reply, read).desktopChanged[i]
  {
  }

  /**
   * A screen listing window 0x1200007 on desktop 2 with a desktop change
   * pending reads back the same one-window list.  As written, byte 0 of the
   * buffer (7) matches nothing, so the desktop is one byte of that read for window 7 and
   * the pending flag is cleared; the corrected merge keeps both.
   */
  lemma RefreshAsWrittenDropsPendingFlag(read: XWindow -> Option<seq<int>>)
    ensures var info := ScreenInfo([0x1200007], [2], [true], false, false, true, false);
            var reply := Property(true, [0x1200007]);
            Refreshed(info, reply, read) == info &&
            RefreshedAsWritten(info, reply, read).desktop == [WindowDesktopAsWritten(read(7))] &&
            RefreshedAsWritten(info, reply, read).desktopChanged == [false]
  {
  }

  // ----- get_window_zorder ------------------------------------------------------------------

  /** How many of the first k windows are on desktop d. */
  function CountBefore(desktop: seq<int>, k: nat, d: int): (r: nat)
    requires k <= |desktop|
    ensures r <= k
  {
    if k == 0 then 0 else CountBefore(desktop, k - 1, d) + (if desktop[k - 1] == d then 1 else 0)
  }

  /**
   * The z-order get_window_zorder gives a window: -1 when it is not listed,
   * its desktop when that is negative, and otherwise the number of windows
   * below its first position on its desktop, at most that position.
   */
  function Zorder(stacked: seq<XWindow>, desktop: seq<int>, xid: XWindow): (z: int)
    requires |desktop| == |stacked|
    ensures xid !in stacked ==> z == -1
    ensures xid in stacked && desktop[FirstIndex(stacked, xid).value] < 0 ==> z == desktop[FirstIndex(stacked, xid).value]
    ensures z < 0 <==> xid !in stacked || desktop[FirstIndex(stacked, xid).value] < 0
    ensures z >= 0 ==> z <= FirstIndex(stacked, xid).value
  {
    match FirstIndex(stacked, xid)
    case None => -1
    case Some(k) => if desktop[k] < 0 then desktop[k] else CountBefore(desktop, k, desktop[k])
  }

  /** A window on d further up the list has seen strictly more windows on d below it. */
  lemma {:induction false} CountBeforeGrows(desktop: seq<int>, i: nat, k: nat, d: int)
    requires i < k <= |desktop| && desktop[i] == d
    ensures CountBefore(desktop, i, d) < CountBefore(desktop, k, d)
    decreases k
  {
    if k - 1 > i {
      CountBeforeGrows(desktop, i, k - 1, d);
    }
  }

  /**
   * Two windows on the same desktop have distinct z-orders, and the one
   * listed first (lower in the stack) has the smaller one.
   */
  lemma ZorderFollowsStacking(stacked: seq<XWindow>, desktop: seq<int>, a: XWindow, b: XWindow)
    requires |desktop| == |stacked| && a in stacked && b in stacked
    requires FirstIndex(stacked, a).value < FirstIndex(stacked, b).value
    requires desktop[FirstIndex(stacked, a).value] == desktop[FirstIndex(stacked, b).value] >= 0
    ensures 0 <= Zorder(stacked, desktop, a) < Zorder(stacked, desktop, b)
  {
    var i := FirstIndex(stacked, a).value;
    var k := FirstIndex(stacked, b).value;
    CountBeforeGrows(desktop, i, k, desktop[k]);
  }

  // ----- filter_func ------------------------------------------------------------------------

  /**
   * A _NET_WM_DESKTOP event for w on one screen: the first entry of w, if
   * any, is flagged and the desktop refresh becomes pending.
   */
  function FlagWindow(info: ScreenInfo, w: XWindow): (r: ScreenInfo)
    requires Parallel(info)
    ensures Parallel(r) && r == info.(desktopChanged := r.desktopChanged, updateDesktopHandler := r.updateDesktopHandler)
    ensures r.updateDesktopHandler == (info.updateDesktopHandler || w in info.stackedWindows)
    ensures forall k :: 0 <= k < |r.desktopChanged| ==>
              r.desktopChanged[k] ==
                (info.desktopChanged[k] || (info.stackedWindows[k] == w && w !in info.stackedWindows[..k]))
  {
    match FirstIndex(info.stackedWindows, w)
    case None => info
    case Some(j) =>
      var r := info.(desktopChanged := info.desktopChanged[j := true], updateDesktopHandler := true);
      assert forall k :: 0 <= k < |r.desktopChanged| && k != j && info.stackedWindows[k] == w ==>
               w in info.stackedWindows[..k] by {
        forall k | 0 <= k < |r.desktopChanged| && k != j && info.stackedWindows[k] == w
          ensures w in info.stackedWindows[..k]
        {
          assert j < k;
          assert info.stackedWindows[..k][j] == w;
        }
      }
      r
  }

  /** The desktop refresh a _NET_WM_DESKTOP event for w adds on screen n: one unless already pending or w is not listed. */
  function ScheduledFor(info: ScreenInfo, n: nat, w: XWindow): multiset<IdleSource>
  {
    if w in info.stackedWindows && !info.updateDesktopHandler then multiset{DesktopRefresh(n)} else multiset{}
  }

  /**
   * How many refreshes of src a _NET_WM_DESKTOP event for w schedules over
   * the screens s: one desktop refresh of each screen that lists w and has
   * none pending, and nothing else.
   */
  function DesktopScheduled(s: seq<ScreenInfo>, w: XWindow, src: IdleSource): nat
  {
    if src.DesktopRefresh? && src.screen < |s| then ScheduledFor(s[src.screen], src.screen, w)[src] else 0
  }

  /** One more screen of the desktop event loop: its refresh, if any, joins those scheduled so far. */
  lemma IdleStep(s: seq<ScreenInfo>, i: nat, w: XWindow,
                 start: multiset<IdleSource>, pending: multiset<IdleSource>, idle: multiset<IdleSource>)
    requires i < |s|
    requires forall src :: pending[src] == start[src] + if src.screen < i then DesktopScheduled(s, w, src) else 0
    requires idle == pending + ScheduledFor(s[i], i, w)
    ensures forall src :: idle[src] == start[src] + if src.screen < i + 1 then DesktopScheduled(s, w, src) else 0
  {
  }

  /**
   * The desktop event loop keeps every screen's buffers parallel and every
   * screen at one pending source of each kind at most, its ids set exactly
   * when that source is pending.
   */
  lemma FlaggedKeepsHandlers(before: seq<ScreenInfo>, after: seq<ScreenInfo>, w: XWindow,
                             start: multiset<IdleSource>, idle: multiset<IdleSource>)
    requires |after| == |before|
    requires forall n :: 0 <= n < |before| ==> Parallel(before[n]) && HandlersMatch(before[n], n, start)
    requires forall n :: 0 <= n < |before| ==> after[n] == FlagWindow(before[n], w)
    requires forall src :: src in start ==> src.screen < |before|
    requires forall src :: idle[src] == start[src] + DesktopScheduled(before, w, src)
    ensures forall n :: 0 <= n < |after| ==> Parallel(after[n]) && HandlersMatch(after[n], n, idle)
    ensures forall src :: src in idle ==> src.screen < |before|
  {
    forall n | 0 <= n < |after| ensures HandlersMatch(after[n], n, idle) {
      assert idle[ScreenRefresh(n)] == start[ScreenRefresh(n)];
      assert idle[DesktopRefresh(n)] == start[DesktopRefresh(n)] + DesktopScheduled(before, w, DesktopRefresh(n));
    }
  }

  /** The per-screen table gail_screens and the main loop's pending idle sources. */
  class GailScreens {
    const screens: array<ScreenInfo>
    var idle: multiset<IdleSource>

    ghost predicate Valid()
      reads this, screens
    {
      (forall n :: 0 <= n < screens.Length ==> Parallel(screens[n]) && HandlersMatch(screens[n], n, idle)) &&
      (forall src :: src in idle ==> src.screen < screens.Length)
    }

    /** init_gail_screens: one zeroed screen info per screen and nothing pending. */
    constructor (numScreens: nat)
      ensures Valid() && fresh(screens) && screens.Length == numScreens && idle == multiset{}
      ensures forall n :: 0 <= n < numScreens ==> screens[n] == Zeroed
    {
      screens := new ScreenInfo[numScreens](_ => Zeroed);
      idle := multiset{};
    }

    /** free_screen_info: the screen's buffers are dropped; nothing else changes. */
    method FreeScreenInfo(n: nat)
      requires Valid() && n < screens.Length
      modifies screens
      ensures Valid() && screens[n] == Freed(old(screens[n]))
      ensures forall k :: 0 <= k < screens.Length && k != n ==> screens[k] == old(screens[k])
    {
      screens[n] := screens[n].(stackedWindows := [], desktop := [], desktopChanged := []);
    }

    /**
     * get_stacked_windows: reads the stacking list and rebuilds the
     * desktop buffers, carrying the entries of windows already known.
     */
    method GetStackedWindows(n: nat, reply: StackingReply, read: XWindow -> Option<seq<int>>) returns (ok: bool)
      requires Valid() && n < screens.Length
      modifies screens
      ensures Valid() && ok == RefreshSucceeds(reply)
      ensures screens[n] == Refreshed(old(screens[n]), reply, read)
      ensures forall k :: 0 <= k < screens.Length && k != n ==> screens[k] == old(screens[k])
    {
      if reply.ReadFailed? || |reply.ids| < 1 {
        FreeScreenInfo(n);
        return false;
      }
      if !reply.isWindowList {
        FreeScreenInfo(n);
        return false;
      }
      var data := reply.ids;
      var nitems := |data|;
      var info := screens[n];
      var desktops := new int[nitems];
      var desktopsChanged := new bool[nitems];
      var i := 0;
      while i < nitems
        invariant 0 <= i <= nitems
        invariant forall m :: 0 <= m < i ==>
                    desktops[m] == CarriedDesktop(info, data[m], read) && desktopsChanged[m] == CarriedFlag(info, data[m])
        invariant unchanged(screens)
      {
        var windowFound := false;
        var j := 0;
        while j < |info.stackedWindows|
          invariant 0 <= j <= |info.stackedWindows|
          invariant forall m :: 0 <= m < j ==> info.stackedWindows[m] != data[i]
          invariant forall m :: 0 <= m < i ==>
                      desktops[m] == CarriedDesktop(info, data[m], read) && desktopsChanged[m] == CarriedFlag(info, data[m])
          invariant unchanged(screens)
        {
          if info.stackedWindows[j] == data[i] {
            FirstIndexAt(info.stackedWindows, data[i], j);
            desktops[i] := info.desktop[j];
            desktopsChanged[i] := info.desktopChanged[j];
            windowFound := true;
            break;
          }
          j := j + 1;
        }
        if !windowFound {
          desktops[i] := WindowDesktop(read(data[i]));
          desktopsChanged[i] := false;
        }
        i := i + 1;
      }
      RefreshedFrom(info, reply, read, desktops[..], desktopsChanged[..]);
      FreeScreenInfo(n);
      screens[n] := screens[n].(stackedWindows := data, desktop := desktops[..], desktopChanged := desktopsChanged[..]);
      return true;
    }

    /**
     * update_screen_info, the idle source filter_func schedules: the
     * source and the "update stacked windows" flag are cleared and the
     * stacking list is read again.
     */
    method UpdateScreenInfo(n: nat, reply: StackingReply, read: XWindow -> Option<seq<int>>)
      requires Valid() && n < screens.Length && ScreenRefresh(n) in idle
      modifies this, screens
      ensures Valid() && idle == old(idle) - multiset{ScreenRefresh(n)}
      ensures screens[n] == Refreshed(old(screens[n]).(updateHandler := false, updateStackedWindows := false), reply, read)
      ensures forall k :: 0 <= k < screens.Length && k != n ==> screens[k] == old(screens[k])
    {
      idle := idle - multiset{ScreenRefresh(n)};
      screens[n] := screens[n].(updateHandler := false, updateStackedWindows := false);
      var _ := GetStackedWindows(n, reply, read);
    }

    /**
     * update_desktop_info: every flagged entry's desktop is read again,
     * the others are kept, and no flag stays set.
     */
    method UpdateDesktopInfo(n: nat, read: XWindow -> Option<seq<int>>)
      requires Valid() && n < screens.Length && DesktopRefresh(n) in idle
      modifies this, screens
      ensures Valid() && idle == old(idle) - multiset{DesktopRefresh(n)}
      ensures var info := old(screens[n]);
              screens[n] == info.(desktop := screens[n].desktop, desktopChanged := screens[n].desktopChanged,
                                  updateDesktopHandler := false)
      ensures var info := old(screens[n]);
              forall i :: 0 <= i < |info.stackedWindows| ==>
                screens[n].desktop[i] ==
                  (if info.desktopChanged[i] then WindowDesktop(read(info.stackedWindows[i])) else info.desktop[i]) &&
                !screens[n].desktopChanged[i]
      ensures forall k :: 0 <= k < screens.Length && k != n ==> screens[k] == old(screens[k])
    {
      idle := idle - multiset{DesktopRefresh(n)};
      var info := screens[n];
      var desktop := info.desktop;
      var desktopChanged := info.desktopChanged;
      var i := 0;
      while i < |info.stackedWindows|
        invariant 0 <= i <= |info.stackedWindows|
        invariant |desktop| == |desktopChanged| == |info.stackedWindows|
        invariant forall m :: 0 <= m < i ==>
                    desktop[m] ==
                      (if info.desktopChanged[m] then WindowDesktop(read(info.stackedWindows[m])) else info.desktop[m]) &&
                    !desktopChanged[m]
        invariant forall m :: i <= m < |info.stackedWindows| ==>
                    desktop[m] == info.desktop[m] && desktopChanged[m] == info.desktopChanged[m]
      {
        if desktopChanged[i] {
          desktop := desktop[i := WindowDesktop(read(info.stackedWindows[i]))];
          desktopChanged := desktopChanged[i := false];
        }
        i := i + 1;
      }
      screens[n] := info.(desktop := desktop, desktopChanged := desktopChanged, updateDesktopHandler := false);
    }

    /**
     * filter_func: a stacking change on a screen sets its "update stacked
     * windows" flag and schedules its refresh unless one is pending; a
     * desktop change flags the window's first entry on every screen that
     * lists it and schedules that screen's desktop refresh unless one is
     * pending.  Every screen keeps at most one pending source of each kind.
     */
    method FilterFunc(event: XEvent)
      requires Valid()
      requires event.StackingChanged? && event.screen.Some? ==> event.screen.value < screens.Length
      modifies this, screens
      ensures Valid()
      ensures event.OtherEvent? || (event.StackingChanged? && event.screen.None?) ==>
                screens[..] == old(screens[..]) && idle == old(idle)
      ensures event.StackingChanged? && event.screen.Some? ==>
                var s := event.screen.value;
                screens[s] == old(screens[s]).(updateStackedWindows := true, updateHandler := true) &&
                (forall k :: 0 <= k < screens.Length && k != s ==> screens[k] == old(screens[k])) &&
                idle == old(idle) + if old(screens[s]).updateHandler then multiset{} else multiset{ScreenRefresh(s)}
      ensures event.DesktopChanged? ==>
                (forall k :: 0 <= k < screens.Length ==> screens[k] == FlagWindow(old(screens[k]), event.xwindow)) &&
                forall src :: idle[src] == old(idle)[src] + DesktopScheduled(old(screens[..]), event.xwindow, src)
    {
      match event
      case OtherEvent =>
      case StackingChanged(window) =>
        if window.Some? {
          var screenN := window.value;
          screens[screenN] := screens[screenN].(updateStackedWindows := true);
          if !screens[screenN].updateHandler {
            screens[screenN] := screens[screenN].(updateHandler := true);
            idle := idle + multiset{ScreenRefresh(screenN)};
          }
        }
      case DesktopChanged(w) =>
        FlagOnEveryScreen(w);
    }

    /** The _NET_WM_DESKTOP branch of filter_func: every screen in turn. */
    method FlagOnEveryScreen(w: XWindow)
      requires Valid()
      modifies this, screens
      ensures Valid()
      ensures forall k :: 0 <= k < screens.Length ==> screens[k] == FlagWindow(old(screens[k]), w)
      ensures forall src :: idle[src] == old(idle)[src] + DesktopScheduled(old(screens[..]), w, src)
    {
      ghost var before := screens[..];
      ghost var start := idle;
      assert forall n :: 0 <= n < |before| ==> Parallel(before[n]) && HandlersMatch(before[n], n, start);
      var i := 0;
      while i < screens.Length
        invariant 0 <= i <= screens.Length
        invariant forall k :: 0 <= k < i ==> screens[k] == FlagWindow(before[k], w)
        invariant forall k :: i <= k < screens.Length ==> screens[k] == before[k]
        invariant forall src :: idle[src] == start[src] + if src.screen < i then DesktopScheduled(before, w, src) else 0
      {
        ghost var pending := idle;
        FlagScreen(i, w);
        IdleStep(before, i, w, start, pending, idle);
        i := i + 1;
      }
      FlaggedKeepsHandlers(before, screens[..], w, start, idle);
    }

    /** One screen of filter_func's _NET_WM_DESKTOP loop. */
    method FlagScreen(i: nat, w: XWindow)
      requires i < screens.Length && Parallel(screens[i])
      modifies this, screens
      ensures screens[i] == FlagWindow(old(screens[i]), w)
      ensures forall k :: 0 <= k < screens.Length && k != i ==> screens[k] == old(screens[k])
      ensures idle == old(idle) + ScheduledFor(old(screens[i]), i, w)
    {
      var info := screens[i];
      var j := 0;
      while j < |info.stackedWindows|
        invariant 0 <= j <= |info.stackedWindows|
        invariant forall m :: 0 <= m < j ==> info.stackedWindows[m] != w
      {
        if w == info.stackedWindows[j] {
          FirstIndexAt(info.stackedWindows, w, j);
          screens[i] := info.(desktopChanged := info.desktopChanged[j := true]);
          if !info.updateDesktopHandler {
            screens[i] := screens[i].(updateDesktopHandler := true);
            idle := idle + multiset{DesktopRefresh(i)};
          }
          return;
        }
        j := j + 1;
      }
    }

    /**
     * get_window_zorder on a screen's list: the window's position among
     * the windows of its own desktop, or a negative value.
     */
    method GetWindowZorder(n: nat, xid: XWindow) returns (z: int)
      requires Valid() && n < screens.Length
      ensures z == Zorder(screens[n].stackedWindows, screens[n].desktop, xid)
    {
      var info := screens[n];
      var wDesktop := -1;
      var i := 0;
      while i < |info.stackedWindows|
        invariant 0 <= i <= |info.stackedWindows|
        invariant forall m :: 0 <= m < i ==> info.stackedWindows[m] != xid
        invariant wDesktop == -1
      {
        if info.stackedWindows[i] == xid {
          FirstIndexAt(info.stackedWindows, xid, i);
          wDesktop := info.desktop[i];
          break;
        }
        i := i + 1;
      }
      if wDesktop < 0 {
        return wDesktop;
      }
      // The first scan found xid, so this one stops at it.
      ghost var k := FirstIndex(info.stackedWindows, xid).value;
      var zorder := 0;
      i := 0;
      while info.stackedWindows[i] != xid
        invariant 0 <= i <= k
        invariant forall m :: 0 <= m < i ==> info.stackedWindows[m] != xid
        invariant zorder == CountBefore(info.desktop, i, wDesktop)
        decreases k - i
      {
        if info.desktop[i] == wDesktop {
          zorder := zorder + 1;
        }
        i := i + 1;
      }
      FirstIndexAt(info.stackedWindows, xid, i);
      return zorder;
    }
  }
}

=== FILE: window_title.dfy ===
/**
 * The title branch of the window accessible's property notifications.  A
 * window remembers the last title it saw; when the title really changes it
 * remembers the new one and, unless one is already pending, schedules one
 * idle source that announces the new accessible name.  However many title
 * changes arrive before that source runs, one announcement is made.
 */
module WindowTitle {
  import opened Wrappers

  /** A window title; None is a window without one (a NULL title). */
  type Title = Option<string>

  /** What the announcement source emits on the accessible. */
  datatype Notification = AccessibleNameChanged | VisibleDataChanged

  /**
   * Whether a new title counts as a change: a title against no previous
   * one or against a different one, or no title where there was one.
   */
  function NameChanged(title: Title, previous: Title): (r: bool)
    ensures r <==> title != previous
  {
    if title.Some? then previous.None? || title.value != previous.value
    else previous.Some?
  }

  /** The remembered title and whether an announcement is pending, after one title notification. */
  function TitleStep(previous: Title, pending: bool, title: Title): (r: (Title, bool))
    ensures r.0 == title
    ensures r.1 <==> pending || title != previous
  {
    if NameChanged(title, previous) then (title, true) else (previous, pending)
  }

  /** The state after a run of title notifications, one after the other. */
  function AfterTitles(previous: Title, pending: bool, titles: seq<Title>): (Title, bool)
    decreases |titles|
  {
    if titles == [] then (previous, pending)
    else
      var (p, h) := TitleStep(previous, pending, titles[0]);
      AfterTitles(p, h, titles[1..])
  }

  /**
   * After a run of title notifications the window remembers the last title
   * of the run, and an announcement is pending exactly when one already was
   * or some title of the run differs from the title remembered before it.
   */
  lemma {:induction false} AfterTitlesCoalesce(previous: Title, pending: bool, titles: seq<Title>)
    ensures AfterTitles(previous, pending, titles).0 == if titles == [] then previous else titles[|titles| - 1]
    ensures AfterTitles(previous, pending, titles).1 <==>
              pending || exists i :: 0 <= i < |titles| && titles[i] != previous
    decreases |titles|
  {
    if titles != [] {
      var (p, h) := TitleStep(previous, pending, titles[0]);
      AfterTitlesCoalesce(p, h, titles[1..]);
      if titles[0] == previous {
        assert p == previous && h == pending;
        forall i | 1 <= i < |titles| && titles[i] != previous ensures titles[1..][i - 1] != previous { }
        forall i | 0 <= i < |titles[1..]| && titles[1..][i] != previous ensures titles[i + 1] != previous { }
      } else {
        assert h;
      }
    }
  }

  /** The title state of a window accessible and the announcement sources pending for it. */
  class GailWindowTitle {
    var previousName: Title
    var nameChangeHandler: bool
    var pendingNotifiers: nat

    /** At most one announcement is pending, and the handler id is set exactly when one is. */
    ghost predicate Valid()
      reads this
    {
      pendingNotifiers <= 1 && (nameChangeHandler <==> pendingNotifiers == 1)
    }

    /** gail_window_real_initialize: the current title is remembered and nothing is pending. */
    constructor (title: Title)
      ensures Valid() && previousName == title && !nameChangeHandler && pendingNotifiers == 0
    {
      previousName := title;
      nameChangeHandler := false;
      pendingNotifiers := 0;
    }

    /**
     * gail_window_real_notify_gtk on the "title" property: a changed title
     * is remembered and an announcement scheduled unless one is pending.
     */
    method NotifyTitle(title: Title) returns (nameChanged: bool)
      requires Valid()
      modifies this
      ensures Valid()
      ensures nameChanged <==> title != old(previousName)
      ensures (previousName, nameChangeHandler) == TitleStep(old(previousName), old(nameChangeHandler), title)
      ensures pendingNotifiers == old(pendingNotifiers) + if nameChanged && !old(nameChangeHandler) then 1 else 0
    {
      nameChanged := false;
      if title.Some? {
        if previousName.None? || title.value != previousName.value {
          nameChanged := true;
        }
      } else if previousName.Some? {
        nameChanged := true;
      }
      if nameChanged {
        previousName := title;
        if !nameChangeHandler {
          nameChangeHandler := true;
          pendingNotifiers := pendingNotifiers + 1;
        }
      }
    }

    /**
     * idle_notify_name_change, the pending announcement running: the
     * handler id is cleared; a window whose widget is gone emits nothing;
     * otherwise "accessible-name" is notified when no explicit name is set,
     * and "visible_data_changed" is emitted last.
     */
    method IdleNotifyNameChange(widgetAlive: bool, accessibleName: Option<string>) returns (emitted: seq<Notification>)
      requires Valid() && nameChangeHandler
      modifies this
      ensures Valid() && !nameChangeHandler && pendingNotifiers == 0 && previousName == old(previousName)
      ensures AccessibleNameChanged in emitted <==> widgetAlive && accessibleName.None?
      ensures VisibleDataChanged in emitted <==> widgetAlive
      ensures widgetAlive ==> emitted[|emitted| - 1] == VisibleDataChanged && |emitted| <= 2
      ensures !widgetAlive ==> emitted == []
    {
      pendingNotifiers := pendingNotifiers - 1;
      nameChangeHandler := false;
      if !widgetAlive {
        return [];
      }
      emitted := [];
      if accessibleName.None? {
        emitted := emitted + [AccessibleNameChanged];
      }
      emitted := emitted + [VisibleDataChanged];
    }

    /** gail_window_finalize, the title part: a pending announcement is removed and the title dropped. */
    method Finalize()
      requires Valid()
      modifies this
      ensures Valid() && !nameChangeHandler && pendingNotifiers == 0 && previousName == None
    {
      if nameChangeHandler {
        pendingNotifiers := pendingNotifiers - 1;
        nameChangeHandler := false;
      }
      if previousName.Some? {
        previousName := None;
      }
    }
  }
}

=== FILE: wrappers.dfy ===
/** The optional value used throughout the model for C's NULL and Objective-C's nil. */
module Wrappers {
  datatype Option<T> = None | Some(value: T)
}
